=== FILE: README.md ===
# Deltaland game rules in Dafny

Deltaland is a chat role-playing game. Players rest in a castle town, go on timed quests,
steal and catch thieves, throw dice in the tavern, toss coins into a magic cauldron and
defend the castle from a goblin raid that comes at fixed hours. This project models the
game-rules layer of the game: what each command and each expiring cooldown does to the
players' records. Two versions of the game are covered: the current `deltaland` package
and the older `simplebot_deltaland` plug-in, whose battle, cauldron and quest rules differ.

The state is a `World`: a map from player id to an immutable `Player` record (level,
experience, hp, stamina, gold, state, the thief link, rank counters and a list of
`Cooldown(kind, endsAt)` timers). Id 0 is the world player, which owns the calendar timers
(BATTLE, DAY, MONTH, YEAR). Every operation is a pure function from a world to a new world.
An operation that can raise returns a `Result` whose failure names the reason (`Rejected`
for a gate that refuses, `Conflict` for a duplicate primary key, `MissingThief`,
`MissingCooldown`, `MissingRank`, `MissingMethod` for the exceptions the code would raise).

Parameters stand for what the code reads from outside:
- the clock is a `now` argument;
- every `random.randint(a, b)` is an argument constrained to `[a, b]`;
- every random database pick (the dice waiter, the sentinel, the cauldron winner) is an
  argument constrained to the rows the query could return;
- the next calendar timestamp is an argument;
- `required_exp` is an arbitrary function `req` that is positive everywhere.

Modules follow the program:

| module | file | models |
|---|---|---|
| `Consts` | consts.dfy | state ids, timers, fees and limits of `deltaland/consts.py` |
| `Text` | text.dfy | decimal and signed numerals (`f"{n}"`, `f"{n:+}"`) |
| `Ledger` | ledger.dfy | the cooldown list of one player and its primary-key invariant |
| `Orm` | orm.dfy | `Player` progression, noticing, the gates, `Item` rules |
| `Combat` | combat.dfy | the tactic cycle and the battle outcome table |
| `Util` | util.dfy | names, durations, stat badges, loot ranges |
| `Dice` | dice.dfy | dice rolls, their text and the tavern matchmaker |
| `Quests` | quests.dfy | quest start gates, quest endings, the thief branch |
| `Processor` | processor.dfy | expiry of world and player cooldowns, the goblin raid |
| `Hooks` | hooks.dfy | `/interfere`, `/learn`, `/on`, `/off` |
| `Legacy` | legacy.dfy | the older plug-in: admission, dice and quest handlers, its raid, cauldron and expiry rules |

The `Player` methods of simplebot_deltaland/orm.py:152-235 and its gates at
simplebot_deltaland/orm.py:256-315 are line for line the methods of deltaland/orm.py, and
`is_valid_name` and `human_time_duration` of simplebot_deltaland/util.py:32-62 are the same
as deltaland/util.py:33-64. One `Orm` and one `Util` member stands for both copies. The
rows below cite the current copy.

Behaviours of the code that are easy to misread:
- `increase_exp` compares the level with `MAX_LEVEL` only on entry. The carry loop can then
  climb past `MAX_LEVEL`, which is 3: `Orm.LevelCanPassMax` exhibits a player at level 2
  who reaches level 7 in one gain. There is no level cap to prove.
- An expired dice wait refunds the fee and sets the player back to REST
  (deltaland/cooldown.py:224-228). It is not a forfeit.
- `validate_hp` compares hp with the float `min(max_hp / 4, 100)`. The model compares the
  same quantities as reals.

## Model

| member | source | states |
|---|---|---|
| Text.DigitChar | deltaland/util.py:61 | each decimal digit has a glyph that reads back as the same digit |
| Text.NatToString | deltaland/util.py:61 | the numeral of a natural number is non-empty, all digits, without a leading zero |
| Text.ParseNatToString | deltaland/util.py:61 | reading the numeral of n gives back n |
| Text.Signed | deltaland/util.py:76-77 | a signed numeral always starts with '+' or '-' followed by digits |
| Text.SignedRoundTrip | deltaland/util.py:76-77 | reading a signed numeral gives back the integer, zero included |
| Ledger.Without | deltaland/orm.py:500-503 | the timers of the other kinds contain no timer of the removed kind and are no longer than the list |
| Ledger.WithoutAppend | deltaland/orm.py:500-503 | filtering out a kind distributes over concatenation |
| Ledger.WithoutAbsent | deltaland/orm.py:500-503 | filtering out a kind that is not present changes nothing |
| Ledger.FirstIndex | deltaland/orm.py:173-177 | the search returns the first position holding the kind, or -1 exactly when no timer has it |
| Ledger.FirstIndexAt | deltaland/orm.py:173-177 | any position holding the kind with none before it is the one the search finds |
| Ledger.EndsAt | deltaland/orm.py:331-332 | a kind has an end time exactly when a timer of that kind is in the list, and the timer carries that time |
| Ledger.RemoveFirst | deltaland/orm.py:173-179 | popping the first timer of a kind shortens the list by one when present, keeps every other timer, and leaves none of the kind when kinds were unique |
| Ledger.Reschedule | deltaland/cooldown.py:197 | moving a timer's end keeps the kinds in place and every other timer, and sets the new end |
| Ledger.StartTimer | deltaland/orm.py:186-196 | a timer of a kind exists afterwards exactly when one already existed or one was due, and an existing timer is never duplicated |
| Ledger.Append | deltaland/orm.py:500-503 | appending an absent kind keeps kinds unique, is visible with its end time, and popping it restores the list |
| Combat.CycleHasNoBest | deltaland/orm.py:389-415 | each tactic beats exactly one tactic and loses to exactly one, none beats itself, and beating is not transitive |
| Combat.AsResolved | deltaland/cooldown.py:127-168 | a goblin that drew NONE fights as PARRY; any other draw is kept, so the resolved tactic is never NONE |
| Combat.Classify | deltaland/orm.py:389-417 | victory exactly when the tactic beats the goblin's, defeat exactly when the goblin's beats it or no tactic was chosen, a damaging tie for HIT or FEINT twice, a clean tie for PARRY twice |
| Combat.LoseNoteOf | simplebot_deltaland/orm.py:351-355 | the lose text mentions stolen gold exactly when the report's gold change is non-zero |
| Orm.NewPlayer | deltaland/orm.py:137-151 | a new player starts at the starting level with no experience, full hp and stamina, the starting gold, resting and without timers or thief |
| Orm.Carry | deltaland/orm.py:164-171 | the carry loop stops at a level at or above the start with an experience below the next threshold, and the thresholds crossed plus the remainder add up to the experience |
| Orm.CarryUnique | deltaland/orm.py:164-171 | any level and remainder that satisfy the carry equation are the ones the loop finds |
| Orm.IncreaseExp | deltaland/orm.py:160-182 | at MAX_LEVEL nothing changes and it returns false; otherwise it levels up exactly when the gain reaches the next threshold, keeps the experience under the next threshold, and only on a level-up pops the REST timer and refills stamina |
| Orm.ExpGainedIsCarried | deltaland/orm.py:160-182 | gaining experience through increase_exp leaves the level unchanged at MAX_LEVEL and otherwise satisfies the carry: the old experience plus the gain equals the new experience plus every threshold passed, with the new experience under the next threshold |
| Orm.CarriedIsExpGained | deltaland/orm.py:160-182 | conversely, any level and non-negative experience that satisfy the carry are the ones increase_exp gives |
| Orm.LevelCanPassMax | deltaland/orm.py:162-171 | a player below MAX_LEVEL can be carried past it |
| Orm.ReduceHp | deltaland/orm.py:198-213 | exactly min(hp-1, n) is taken and returned, hp stays in [1, hp], and a HEALING timer is started only when hp fell below max and none existed |
| Orm.ReduceStamina | deltaland/orm.py:184-196 | stamina falls by exactly the cost and a REST timer is started only when stamina is below max and none existed |
| Orm.StartQuest | deltaland/orm.py:215-219 | the state becomes the quest, its timer ends after the quest's duration, stamina falls by the cost, no other field changes, and timer kinds stay distinct |
| Orm.StartQuestTimers | deltaland/orm.py:184-196 | apart from the quest's own timer, only the REST timer can appear, and it runs exactly when it ran before or stamina fell below max |
| Orm.WithoutCommutes | deltaland/orm.py:500-503 | filtering out two kinds does not depend on the order |
| Orm.EndsAtElsewhere | deltaland/orm.py:500-503 | two lists that agree outside one kind give the same end time for every other kind |
| Orm.EndsAtWithout | deltaland/orm.py:500-503 | removing one kind leaves the end time of every other kind unchanged |
| Orm.StartNoticing | deltaland/orm.py:221-230 | the sentinel watches the thief with a NOTICED_THIEF timer, the thief waits as NOTICED_SENTINEL, and nobody else changes |
| Orm.StopNoticing | deltaland/orm.py:232-242 | it succeeds exactly when the thief link and the NOTICED_THIEF timer exist; both players return to REST, the link is cleared and only that timer is popped |
| Orm.NoticeRoundTrip | deltaland/orm.py:221-242 | noticing then stopping returns both players to REST with every timer as before |
| Orm.ValidateHpAsReals | deltaland/orm.py:317-323 | the hp gate passes exactly when hp is at least min(max_hp / 4, 100) |
| Orm.ValidateResting | deltaland/orm.py:325-345 | the resting gate refuses within ten minutes of the raid unless told to ignore it, and otherwise passes exactly for a resting player |
| Orm.RequiredLevel | deltaland/orm.py:482-484 | an item needs ten levels per tier, none for tier 0 |
| Orm.GetSlot | deltaland/orm.py:493-497 | swords and shields go to the hands, everything else stays in the bag |
| Util.AllNameChars | deltaland/util.py:34-37 | the character loop accepts exactly the strings made of letters, digits and spaces |
| Util.IsValidName | deltaland/util.py:33-39 | a name is valid exactly when it has 1 to 16 characters, all letters, digits or spaces |
| Util.NameExamples | tests/test_plugin.py:30-34 | "@#$%" is refused and "test" accepted, as are the empty and 17-letter boundaries |
| Util.UnitDivModRecombines | deltaland/util.py:57-58 | each divmod step's quotient and remainder recombine into the seconds it started from |
| Util.RenderParts | deltaland/util.py:59-61 | every emitted component is rendered as amount, unit and plural mark, in order |
| Util.HumanTimeDuration | deltaland/util.py:53-64 | under a minute the text is "a few seconds"; otherwise it renders components ordered from weeks down to seconds, each unit at most once, every amount but the weeks' below its ratio (7 days, 24 hours, 60 minutes, 60 seconds), joined by ", ", and without rounding they add up to the duration |
| Util.PartsTotal | deltaland/util.py:56-64 | without rounding the components add up to the duration |
| Util.PartsOrdered | deltaland/util.py:56-64 | the components have positive amounts and strictly decreasing units |
| Util.DurationDecomposes | deltaland/util.py:53-64 | the unrounded text of a duration of a minute or more names ordered, canonical components that add up to it |
| Util.PartsCanonical | deltaland/util.py:57-58 | after each divmod the amounts of the smaller units stay below their ratios: never "7days" or "60min" |
| Util.CanonicalUnique | deltaland/util.py:57-58 | an ordered, canonical list of components is the successive divmod decomposition of its total: no other such list spells the same duration |
| Util.CanonicalText | deltaland/util.py:53-64 | the unrounded text of a duration is the rendering of any ordered, canonical split of it, so the text is determined by the duration |
| Util.RoundedKeepsSecondsWithoutMinutes | deltaland/util.py:57-63 | as written, 3605 seconds rounded prints "1hour, 5sec" |
| Util.RoundedDropsSecondsAfterMinutes | deltaland/util.py:57-63 | as written, a rounded duration with a nonzero minute amount stops there: 3665 seconds gives only the hour and the minute |
| Util.RoundedParts | deltaland/util.py:53-64 | the intended rounding never emits seconds |
| Util.RoundedPartsTotal | deltaland/util.py:53-64 | the intended rounding adds up to the duration without its leftover seconds |
| Util.IntendedRounding | deltaland/util.py:53-64 | rounded durations drop exactly the seconds and 3605 prints "1hour" |
| Util.RenderStats | deltaland/util.py:71-82 | the stat badge is empty exactly when both stats are zero |
| Util.LeadingDigits | deltaland/util.py:71-82 | the digit run at the head of a string is maximal |
| Util.LeadingDigitsOfNumeral | deltaland/util.py:76-77 | a numeral followed by a glyph has exactly the numeral as its digit run |
| Util.SplitNumeral | deltaland/util.py:76-77 | a signed numeral followed by a glyph splits back into the two |
| Util.ParseOneStat | deltaland/util.py:76-77 | one signed stat with its glyph reads back as the stat and which glyph it was |
| Util.RenderStatsRoundTrip | deltaland/util.py:71-82 | the badge of any attack and defense reads back as the same pair |
| Util.ThieveGoldRange | deltaland/util.py:85-87 | stolen gold is drawn from [m, min(3m, 40)] with m the level clamped to [10, 20]: the top is 3m or 40, whichever is lower, so within [10, 40] |
| Util.ThieveGoldBands | deltaland/util.py:85-87 | by level band: 10 to 30 gold up to level 10, level to 3×level for 11 to 13, level to 40 for 14 to 20, and 20 to 40 above |
| Util.InterfereGoldRange | deltaland/util.py:90-92 | the gold a caught thief drops is drawn from [m, 2m] with m the level clamped to [5, 10], so within [5, 20] |
| Dice.SumOfRoll | deltaland/dice.py:24-25 | c dice of 1 to 6 sum to between c and 6c |
| Dice.Face | deltaland/dice.py:14-21 | each die value has a glyph that reads back as the value |
| Dice.Faces | deltaland/dice.py:29 | one glyph per die, in order |
| Dice.SumOfDice | deltaland/dice.py:29 | the sum shown is at least the number of dice |
| Dice.ParseJoinedFaces | deltaland/dice.py:29 | the glyphs joined by " + " read back as the dice, whatever follows |
| Dice.DicesTextRoundTrip | deltaland/dice.py:28-29 | the dice text reads back as the roll |
| Dice.Dices2Str | deltaland/dice.py:28-29 | the dice text closes with the sum of the throw in parentheses, readable back as that sum |
| Dice.SitDown | deltaland/dice.py:32-36 | sitting down pays DICE_FEE, sets PLAYING_DICE, keeps an existing dice rank and creates a missing one at 0, and changes nothing else |
| Dice.Ranked | deltaland/dice.py:61-66 | after the swap the first throw has the strictly higher sum and the pair is the same two throws |
| Dice.Resolve | deltaland/dice.py:58-73 | it fails, for a missing rank row, exactly when either player has no dice rank; otherwise only the two players change and no ledger does |
| Dice.SettleOutcome | deltaland/dice.py:68-73 | the winner gains twice the fee and a fee of rank, the loser loses a fee of rank, both rest, no ledger changes, and a player matched with themself keeps their rank |
| Dice.WaitAlone | deltaland/dice.py:46-55 | with nobody waiting the joiner becomes the only waiter, with a timer ending after DICE_COOLDOWN |
| Dice.MatchWaiter | deltaland/dice.py:42-45 | matching fails exactly when a rank row is missing; otherwise only the pair changes and the waiter, and nobody else, leaves the table |
| Dice.MatchWaiterOutcome | deltaland/dice.py:42-45 | with a waiter both rest, the waiter's timer is popped, the pair's gold rises by twice the fee, rank is conserved, and the joiner wins the pot exactly when its sum is higher |
| Dice.LeaveTable | deltaland/dice.py:45 | popping the waiter's timer removes exactly that player from the waiters |
| Dice.PlayDice | deltaland/dice.py:32-55 | only the joiner and the waiter can change, and joining fails exactly when a waiter other than the joiner has no dice rank |
| Dice.PlayDiceAlone | deltaland/dice.py:32-55 | with nobody waiting the joiner pays the fee, is playing dice and is the only waiter |
| Dice.PlayDiceMatched | deltaland/dice.py:32-45 | with a waiter both end resting, the waiter leaves the table, and a joiner who could afford the fee is not left in debt |
| Dice.SitAndWait | deltaland/dice.py:32-55 | the first player at an empty table is the only waiter, and removing the dice timer gives back their old ledger |
| Dice.TwoJoins | deltaland/dice.py:32-73 | two players joining in turn leave the table empty, both resting with their timers as before, and their combined gold and rank unchanged |
| Quests.GetQuest | deltaland/quests.py:236-241 | a quest is found exactly for ids 1 to the number of quests |
| Quests.GetQuestById | deltaland/quests.py:236-241 | every listed quest is found by its own id and every found quest carries the id asked for |
| Quests.QuestCommand | deltaland/quests.py:38-53 | the quest starts exactly when the level, resting, hp and stamina gates pass and no timer of it exists; a failed level check is a plain rejection, and only the player who asked changes |
| Quests.QuestCommandStarts | deltaland/quests.py:48-53 | when every gate passes the quest starts: the player's record becomes the one `start_quest` makes, stamina stays at or above zero, and gold and hp are unchanged |
| Quests.TownResult | deltaland/quests.py:151-233 | town results stay within gold 0..4, exp 0..3, hp -10..10; hp is lost only in the first bad result and gained only in the first good one; the other bad results are empty |
| Quests.QuestEnd | deltaland/quests.py:60-81 | the player rests and gains the result's gold; damage goes through the hp floor, a heal gives exactly min(hp + heal, max_hp); the level and the experience are exactly what increase_exp leaves after the result's experience |
| Quests.ThieveEnd | deltaland/quests.py:102-134 | with a resting player the thief is noticed and gets nothing yet; with nobody the thief rests with exactly the drawn gold (10 to 40) more, the experience through increase_exp, and nobody else changes |
| Processor.Tick | deltaland/cooldown.py:188-204 | a tick adds one only below max, never passes max, and pops the timer exactly when max is reached, otherwise moves it by one period |
| Processor.TicksRefill | deltaland/cooldown.py:188-204 | max minus amount ticks refill the resource exactly and leave no timer of the kind |
| Processor.Fight | deltaland/cooldown.py:127-168 | the fight is a victory exactly when a tactic beats the monster's; only a victory pays the drawn gold; the reported gold and hp are the changes applied; only the HEALING timer can change |
| Processor.FightReport | deltaland/cooldown.py:127-168 | the report follows the outcome table: a victory pays the drawn gold and full experience, a HIT or FEINT tie gives half experience and half damage, a defeat a quarter and full damage, a PARRY tie a quarter and no damage, no tactic nothing |
| Processor.BattleRound | deltaland/cooldown.py:122-177 | the tactic is consumed, a fresh report is stored, the victory counter rises by one only on a victory, and only the rest and healing timers can change |
| Processor.BattleLoop | deltaland/cooldown.py:122-177 | each player who chose a tactic gets exactly their round and every other player is kept |
| Processor.ProcessWorldBattle | deltaland/cooldown.py:115-177 | old reports are cleared, each fighter gets their round and everyone else only loses their report |
| Processor.RoundAftermath | deltaland/cooldown.py:122-177 | after a round the tactic is gone, gold has not fallen and hp stays in [1, hp] |
| Processor.BattleAftermath | deltaland/cooldown.py:115-177 | every player of the world ends the raid in that aftermath |
| Processor.Cauldron | deltaland/cooldown.py:89-112 | every coin is removed and only the first coin's owner gains the gift, in gold and in cauldron rank |
| Processor.MonthReset | deltaland/cooldown.py:77-80 | the month clears dice ranks and battle ranks and nothing else |
| Processor.YearReset | deltaland/cooldown.py:81-83 | the year clears cauldron ranks and nothing else |
| Processor.DayCoins | deltaland/cooldown.py:89-112 | the DAY event leaves everyone but the world and the winner exactly as before, save that their coin is gone |
| Processor.MonthEvent | deltaland/cooldown.py:77-80 | the MONTH event changes each player only by clearing the dice and battle ranks |
| Processor.YearEvent | deltaland/cooldown.py:81-83 | the YEAR event changes each player only by clearing the cauldron rank |
| Processor.ProcessWorldCooldown | deltaland/cooldown.py:70-86 | a calendar timer runs its event and is moved to the next date: the players end exactly as the raid, the cauldron, the month reset or the year reset leaves them; an unknown timer is deleted and nothing else changes |
| Processor.Reschedule1 | deltaland/cooldown.py:73 | moving a world timer leaves every player and every other world field as they were |
| Processor.DiceExpiry | deltaland/cooldown.py:224-228 | an unanswered dice wait refunds the fee, sets REST and pops the timer |
| Processor.DiceRefundRoundTrip | deltaland/cooldown.py:224-228 | sitting down alone and then timing out gives back the player as before, with a dice rank row |
| Processor.NoticedThiefExpiry | deltaland/cooldown.py:205-223 | an unanswered notice pays the thief 10 to 40 gold and the experience through increase_exp, rests both and pops the sentinel's timer, and fails exactly when the link or the timer is missing |
| Processor.QuestExpiry | deltaland/cooldown.py:229-235 | a quest timer runs the quest's end and the timer is deleted in all cases; an unknown quest only loses its timer |
| Processor.TownExpiry | deltaland/cooldown.py:229-235 | a stroll's expiry leaves the player exactly as the town quest's end does, minus the stroll's timer, and nobody else changes |
| Processor.ThieveExpiry | deltaland/cooldown.py:229-235 | a theft's expiry fails exactly when the theft's end does and otherwise leaves every player as it does, minus the thief's timer |
| Processor.ProcessPlayerCooldown | deltaland/cooldown.py:180-235 | REST and HEALING tick, and ticks that start within max stay within it; a dice wait ends as the dice expiry (fee refunded, player resting), a thief notice as the notice expiry and any other kind as the quest expiry; the timer survives exactly while a ticked resource is below max |
| Hooks.Interfere | deltaland/hooks/__init__.py:288-338 | an unknown sender is rejected; without a link nothing changes; with one it fails exactly when the thief is gone or the sentinel has no NOTICED_THIEF timer, and only the two players change |
| Hooks.InterfereOutcome | deltaland/hooks/__init__.py:302-311 | after an interference the sentinel rests, the link and the sentinel's timer are gone, and the sentinel gains one stop, the reward gold, and the level and experience increase_exp gives |
| Hooks.InterferePunishes | deltaland/hooks/__init__.py:302-324 | after an interference the thief rests and loses gold down to 0 and hp down to 1 |
| Hooks.Reward | deltaland/hooks/__init__.py:305-311 | the sentinel's stopped count rises by one from 0, gold rises by the draw, and the level and experience are what increase_exp gives for the draw |
| Hooks.Punish | deltaland/hooks/__init__.py:322-324 | the thief keeps max(gold - loss, 0) and at least 1 hp |
| Hooks.Learn | deltaland/hooks/skills.py:62-94 | learning needs a skill point and a known skill, raises the skill one level from 0 or its level, spends one point, adds the base's stats and keeps the missing hp unchanged |
| Hooks.DistinctCard | deltaland/hooks/inventory.py:79-82 | a list of distinct item ids has as many ids as its set |
| Hooks.HandOrderCount | deltaland/hooks/inventory.py:79-82 | the hand query returns as many items as the player holds in the hands |
| Hooks.Equip | deltaland/hooks/inventory.py:49-95 | equipping succeeds exactly for the player's own bag item of a sufficient level that fits the hands, moves it there, and sends the second hand item back when two are held |
| Hooks.EquipKeepsTwoHands | deltaland/hooks/inventory.py:79-87 | the hands never hold more than two items after equipping |
| Hooks.Unequip | deltaland/hooks/inventory.py:99-123 | unequipping needs a non-full bag and the player's own equipped item, and adds exactly one item to the bag |
| Hooks.EquipUnequipRoundTrip | deltaland/hooks/inventory.py:49-123 | equipping with a free hand and then unequipping the same item restores the inventory |
| Legacy.Players | simplebot_deltaland/util.py:78-79 | the players are exactly the ids above 0, never the world |
| Legacy.Start | simplebot_deltaland/__init__.py:58-74 | admission succeeds exactly for a new id while the cap is not reached or is 0, adds a fresh player and keeps everyone else |
| Legacy.Admit | simplebot_deltaland/__init__.py:74 | admitting a new positive id adds one to the player count |
| Legacy.StartsKeepCap | simplebot_deltaland/__init__.py:68-74 | any sequence of admissions keeps the player count within a positive cap and never changes an existing player |
| Legacy.Starts | simplebot_deltaland/__init__.py:58-74 | a run of `/start` commands never changes a player already in the game, and every new row belongs to one of the askers and holds the default record |
| Legacy.StartsUnlimited | simplebot_deltaland/__init__.py:68-74 | with a cap of 0 every id asking to join ends up in the game |
| Legacy.LegacyRestingIgnoresRaid | simplebot_deltaland/util.py:82-86 | the legacy resting gate is the newer gate with the raid guard switched off, so it lets a player in when the newer one refuses |
| Legacy.LegacyDice | simplebot_deltaland/__init__.py:309-320 | the tavern refuses a busy or poor player and otherwise plays dice; the joiner's gold never goes negative |
| Legacy.LegacyGetQuest | simplebot_deltaland/quests.py:30-32 | the only quest is the stroll, with id 1 |
| Legacy.LegacyQuestCmd | simplebot_deltaland/__init__.py:362-396 | the quest starts exactly for a resting player with a known quest and enough stamina; the state, quest timer, stamina and REST timer follow |
| Legacy.LegacyQuestExpiryAsWritten | simplebot_deltaland/cooldown.py:197-210 | as written, the expiry of a known quest raises before anything changes |
| Legacy.StrollNeverEnds | simplebot_deltaland/cooldown.py:197-210 | as written, a player who starts the stroll keeps its timer and is refused by every command that needs rest |
| Legacy.LegacyQuestExpiry | simplebot_deltaland/cooldown.py:197-210 | the intended expiry rests the player, adds a reward of 0 to 3 gold and deletes the timer in every case |
| Legacy.StrollRoundTrip | simplebot_deltaland/cooldown.py:197-210 | a stroll started and ended leaves the player resting with the reward added, one stamina spent and every other timer as before |
| Legacy.LegacyFight | simplebot_deltaland/cooldown.py:114-158 | a victory pays the gold; a defeat, including no tactic, takes min(gold, g) and a third of max hp; a HIT or FEINT tie takes half that damage; a PARRY tie changes nothing; no experience is given |
| Legacy.LegacyWin | simplebot_deltaland/cooldown.py:118-122 | a victory adds the drawn gold and nothing else |
| Legacy.LegacyLoss | simplebot_deltaland/cooldown.py:124-127 | a defeat takes gold before hp, never more gold than the player has |
| Legacy.LegacyTie | simplebot_deltaland/cooldown.py:116-117 | a damaging tie keeps the gold and takes hp through the floor |
| Legacy.LegacyFightBounds | simplebot_deltaland/cooldown.py:114-158 | legacy gold never goes negative and hp stays in [1, hp] |
| Legacy.LegacyFightAgrees | simplebot_deltaland/cooldown.py:114-158 | the two versions deal the same damage and differ only on a defeat, where the legacy one takes gold |
| Legacy.LegacyLoseNote | simplebot_deltaland/orm.py:351-355 | a defeated player is told gold was taken exactly when they had gold |
| Legacy.LegacyBattleRound | simplebot_deltaland/cooldown.py:101-164 | a player without a tactic fights as NONE and loses; the tactic is consumed, a report stored, level and experience are untouched, and a victory adds one to the count, created at 0 |
| Legacy.LegacyBattle | simplebot_deltaland/cooldown.py:100-164 | every listed player gets exactly their round, victory counted, and everyone else is kept |
| Legacy.LegacyRoundAftermath | simplebot_deltaland/cooldown.py:101-160 | after a legacy round the player has a report, no tactic, non-negative gold and hp in [1, hp] |
| Legacy.LegacyBattleAftermath | simplebot_deltaland/cooldown.py:100-160 | every player ends the raid in that aftermath and the world player is untouched |
| Legacy.LegacyGift | simplebot_deltaland/cooldown.py:70-71 | the gift is the coin count clamped to [MIN_CAULDRON_GIFT, MAX_CAULDRON_GIFT] |
| Legacy.LegacyRaid | simplebot_deltaland/cooldown.py:65-67 | every player ends exactly as the legacy battle loop leaves them, in its aftermath, and the BATTLE timer moves to the next raid |
| Legacy.AsWrittenStopsAtVictor | simplebot_deltaland/cooldown.py:161-164 | as written, when the first fighter wins the world and its BATTLE timer stay as they were, the victor's count stays at 0 and its tactic is spent, and the later fighters are not fought |
| Legacy.LegacyBattleAsWritten | simplebot_deltaland/cooldown.py:100-164 | the raid loop as written keeps every row and leaves players it does not visit alone; with `Legacy.AsWrittenWithoutVictory` and `Legacy.AsWrittenAbortsOnVictory` it is the intended loop until the first victory and aborts there |
| Legacy.AsWrittenWithoutVictory | simplebot_deltaland/cooldown.py:100-164 | over distinct players, a pass without a victory fights everyone exactly as the intended loop does and does not abort |
| Legacy.AsWrittenAbortsOnVictory | simplebot_deltaland/cooldown.py:161-164 | over distinct players, a pass in which any player would win aborts |
| Legacy.LegacyRaidAsWritten | simplebot_deltaland/cooldown.py:64-67 | the BATTLE branch as written keeps every row; what it does to the players and the timer is stated by `Legacy.AsWrittenStopsAtVictor`, `Legacy.SecondPassPunishesVictor` and `Legacy.AsWrittenWithoutVictoryIsRaid` |
| Legacy.AsWrittenWithoutVictoryIsRaid | simplebot_deltaland/cooldown.py:64-67 | a raid without a victory as written is exactly the corrected raid `Legacy.LegacyRaid`, timer moved included |
| Legacy.SecondPassPunishesVictor | simplebot_deltaland/cooldown.py:36-44 | as written, the timer is still due, so the next pass runs the raid again and the victor, left without a tactic, fights as NONE and loses min(gold, g) gold |
| Legacy.RaidCountsVictor | simplebot_deltaland/cooldown.py:64-67 | the corrected raid moves the timer and counts the first fighter's victory |
| Legacy.RaidAbortsAtFirstVictory | simplebot_deltaland/cooldown.py:161-164 | when the first fighter wins, the raid as written and the corrected raid differ in the BATTLE timer and in the victor's count |
| Legacy.LegacyCauldron | simplebot_deltaland/cooldown.py:68-87 | every coin is removed, the first owner gains the clamped gift of 20 to 100 gold, and every player ends exactly as the cauldron with that gift leaves them |
| Legacy.LegacyProcessWorldCooldown | simplebot_deltaland/cooldown.py:64-97 | each calendar timer runs its event and moves to the next date: the players end exactly as the legacy raid, the cauldron paying the coin-count gift, the month reset or the year reset leaves them; an unknown timer is deleted |
| Legacy.LegacyTick | simplebot_deltaland/cooldown.py:168-186 | a legacy tick always adds one, then pops the timer at max or moves it by one period |
| Legacy.TickVersions | simplebot_deltaland/cooldown.py:168-186 | the two ticks agree below max, and at max the legacy tick overshoots |
| Legacy.LegacyProcessPlayerCooldown | simplebot_deltaland/cooldown.py:167-194 | ticks from below max stay within max, a dice wait refunds the fee, the intended stroll expiry pays 0 to 3 gold, and a timer survives exactly while its resource is below max |

## Left out

- Messages, images and text rendering (`send_message`, `get_battle_report`'s prose, `/me`,
  `/help`, leaderboards): only the outcome tag and the lose note are modelled.
- Sessions, locks, commit and rollback: each operation is one atomic step. A handler that
  raises after changing some rows is modelled as a failure that changes nothing.
- The calendar (next battle, day, month and year timestamps) depends on the wall clock and
  is an argument.
- `required_exp` is not part of this model; it is an arbitrary positive function.
- The weighting of `random.choice` and `random.choices`: only the ranges of the draws are
  modelled.
- The catalogs of items, skills and shop wares, and the migrations, are database I/O.
- deltaland/hooks.py is an older copy of the handler package and is shadowed by it.
- The shop, battle-tactic, tavern and ranking handlers are a gate followed by one row write
  or by `play_dice`; the legacy `/cauldron` command is left out as well.
- Legacy.LegacyDice: simplebot_deltaland/dice.py is not part of this model, so the legacy
  `/dice` gates are modelled in front of the current `play_dice`.
- Hooks.Learn: `validate_sp` is not part of this model; it is taken as "at least that many
  skill points".
- Hooks.Equip: the branch for slots other than the hands cannot be reached because
  `get_slot` only returns HANDS or BAG, so it is not modelled.
- Hooks.Interfere: the sentinel's level-up notice is a message and is left out; the sentinel's
  experience goes through `Orm.IncreaseExp`.
- Quests.TownResult: the weights 10/80/10 of the result quality are not modelled, only which
  results exist.
- Processor.QuestExpiry: its own contract fixes the state, the gold and the timer; the full
  end of each quest is stated by `Processor.TownExpiry` and `Processor.ThieveExpiry`.
- Legacy.LegacyProcessPlayerCooldown: its QUEST branch runs the intended stroll expiry
  `Legacy.LegacyQuestExpiry`. As written that expiry raises at
  simplebot_deltaland/cooldown.py:201, the loop logs the error (cooldown.py:60-61) and the
  timer is kept, as `Legacy.StrollNeverEnds` shows; see "## Findings".
- Legacy.LegacyProcessWorldCooldown: its BATTLE branch runs the corrected raid
  `Legacy.LegacyRaid`, which always moves the timer. As written, a victory raises at
  simplebot_deltaland/cooldown.py:164 before cooldown.py:67 moves it; `Legacy.LegacyRaidAsWritten`
  models that pass, see "## Findings".
- Legacy.LegacyBattle: the loop fights every player and counts each victory, as intended; the
  raid as written stops at the first victory, see "## Findings".
- The legacy files are not all from one version. simplebot_deltaland/cooldown.py:9-24 imports
  `LIFEREGEN_COOLDOWN`, `CombatTactic`, the BATTLE and HEALING states and calendar functions
  that the legacy consts.py and game.py do not define. The legacy model therefore takes the
  HEALING and BATTLE states, `LIFEREGEN_COOLDOWN`, MAX_HP, MAX_LEVEL and the tactics from
  deltaland/consts.py, and the calendar is an argument.
- The gates Orm.ValidateLevel, Orm.ValidateGold, Orm.ValidateStamina, Orm.ValidateHp
  (deltaland/orm.py:280-323), Hooks.ValidateSp, Hooks.ValidateInv and Legacy.LegacyResting
  (simplebot_deltaland/util.py:82-86) are one comparison each and carry no contract of their
  own. What they decide is stated by the members that use them: `Quests.QuestCommand`,
  `Hooks.Learn`, `Hooks.Unequip`, `Legacy.LegacyQuestCmd` and `Legacy.LegacyDice`; the hp gate
  is also checked against its floating-point form by `Orm.ValidateHpAsReals`, and the legacy
  resting gate against the newer one by `Legacy.LegacyRestingIgnoresRaid`.
- Legacy.LegacyQuestExpiry: the legacy `Quest` class defines no `quest.get_reward`, so the
  reward is taken from the stroll's reward table as an argument.

## Findings

| source | as written | input that shows it | evidently intended | confidence | as-written member | corrected member |
|---|---|---|---|---|---|---|
| deltaland/util.py:57-63 | with `rounded`, the loop stops only after a non-zero minute amount, so a duration with hours and seconds but no minutes keeps its seconds | 3605 seconds, rounded: "1hour, 5sec" | a rounded duration never shows seconds: "1hour" | medium, not executed | Util.RoundedKeepsSecondsWithoutMinutes | Util.IntendedRounding |
| simplebot_deltaland/cooldown.py:201 | quest expiry calls `quest.get_reward`, which the legacy `Quest` class does not define, so the expiry raises and the quest timer is never deleted | any player after `/quest 1`, when the timer expires | the player rests with one reward from the stroll's table and the timer is deleted | medium, not executed: the `Quest` of simplebot_deltaland/quests.py has no `get_reward`, but the legacy files come from different versions (cooldown.py imports names that the legacy consts.py and game.py lack), so the quests.py that matches cooldown.py may define it | Legacy.StrollNeverEnds | Legacy.LegacyQuestExpiry |
| simplebot_deltaland/cooldown.py:161-164 | a victor's `BattleRank` row is created, then `player.battle_rank += 1` adds an int to the row itself, which raises; the error is logged per cooldown (cooldown.py:60-61) and the session still commits the partial pass, so nobody after the victor fights and the BATTLE timer is not moved; the timer stays due, so a second later the raid runs again over every player, those already visited now fight as NONE and lose gold and hp again, victor included, and this repeats until a pass ends without a victory | any raid whose first fighter wins, such as HIT against the goblin's FEINT | every player fights, each victory adds one to `victories`, as deltaland/cooldown.py:175-177 does, and the timer moves to the next raid | high, not executed | Legacy.RaidAbortsAtFirstVictory | Legacy.LegacyRaid |

=== FILE: combat.dfy ===
/** The goblin fight: the tactic a player picked against the one the goblin drew, and the outcome
    the battle report announces. */
module Combat {

  /** `CombatTactic`: NONE is what a player who did not defend the castle fights with; the goblin
      draws among all four values. */
  datatype Tactic = NoTactic | Hit | Feint | Parry

  /** The four endings a report can tell: the player won, both were wounded, both dodged, or the
      player fainted. */
  datatype Outcome = Victory | WoundedTie | CleanTie | Defeat

  /** The fixed cycle of the game: HIT beats FEINT, FEINT beats PARRY, PARRY beats HIT. */
  predicate Beats(a: Tactic, b: Tactic) {
    (a == Hit && b == Feint) || (a == Feint && b == Parry) || (a == Parry && b == Hit)
  }

  /** Every real tactic beats exactly one tactic and loses to exactly one, and the relation is
      neither reflexive nor transitive: there is no best tactic. */
  lemma CycleHasNoBest(a: Tactic)
    requires a != NoTactic
    ensures !Beats(a, a)
    ensures exists b :: Beats(a, b) && forall c :: Beats(a, c) ==> c == b
    ensures exists b :: Beats(b, a) && forall c :: Beats(c, a) ==> c == b
    ensures exists b, c :: Beats(a, b) && Beats(b, c) && !Beats(a, c)
  {
    match a
    case Hit =>
      assert Beats(Hit, Feint) && Beats(Parry, Hit) && Beats(Feint, Parry);
    case Feint =>
      assert Beats(Feint, Parry) && Beats(Hit, Feint) && Beats(Parry, Hit);
    case Parry =>
      assert Beats(Parry, Hit) && Beats(Feint, Parry) && Beats(Hit, Feint);
  }

  /** The goblin's draw as the branches treat it: each `else` arm assumes PARRY, so a goblin
      that drew NONE fights as if it parried. */
  function AsResolved(m: Tactic): (r: Tactic)
    ensures r != NoTactic
    ensures m != NoTactic ==> r == m
    ensures m == NoTactic ==> r == Parry
  {
    if m == NoTactic then Parry else m
  }

  /** The outcome of `get_battle_report`'s branches, one arm per (player, goblin) pair. */
  function Classify(t: Tactic, m: Tactic): (o: Outcome)
    ensures o == Victory <==> t != NoTactic && Beats(t, AsResolved(m))
    ensures o == Defeat <==> t == NoTactic || Beats(AsResolved(m), t)
    ensures o == WoundedTie <==> (t == Hit || t == Feint) && AsResolved(m) == t
    ensures o == CleanTie <==> t == Parry && AsResolved(m) == Parry
  {
    match t
    case Hit =>
      if m == Hit then WoundedTie else if m == Feint then Victory else Defeat
    case Feint =>
      if m == Hit then Defeat else if m == Feint then WoundedTie else Victory
    case Parry =>
      if m == Hit then Victory else if m == Feint then Defeat else CleanTie
    case NoTactic =>
      Defeat
  }

  /** The prose the legacy report adds to a lost fight: whether the goblin took gold. */
  datatype LoseNote = TookGold | EmptyPocket

  /** The legacy report's lose message depends only on whether the report's gold is nonzero. */
  function LoseNoteOf(reportGold: int): (n: LoseNote)
    ensures n == TookGold <==> reportGold != 0
  {
    if reportGold != 0 then TookGold else EmptyPocket
  }
}

=== FILE: consts.dfy ===
/** Game constants of the newer `deltaland` package; the legacy package reuses the ones it shares. */
module Consts {

  const WORLD_ID: int := 0

  const MAX_LEVEL: int := 3
  const STARTING_LEVEL: int := 1
  const STARTING_ATTACK: int := 1
  const STARTING_DEFENSE: int := 1
  const STARTING_GOLD: int := 0
  const STARTING_INV_SIZE: int := 15

  const CAULDRON_GIFT: int := 100
  /** Bounds of the legacy cauldron gift, which scales with the number of coins. */
  const MIN_CAULDRON_GIFT: int := 20
  const MAX_CAULDRON_GIFT: int := 100

  const THIEVE_NOTICED_COOLDOWN: int := 60 * 3

  const MAX_STAMINA: int := 5
  const STAMINA_COOLDOWN: int := 60 * 60

  const MAX_HP: int := 40
  const LIFEREGEN_COOLDOWN: int := 30

  const DICE_FEE: int := 10
  const DICE_COOLDOWN: int := 60 * 5

  /** Seconds before the goblin raid during which a player counts as too busy to act. */
  const BATTLE_GUARD: int := 60 * 10

  // Activity states and cooldown kinds. Quest ids (positive) share this space.
  const REST: int := 0
  const PLAYING_DICE: int := -1
  const HEALING: int := -2
  const NOTICED_THIEF: int := -3
  const NOTICED_SENTINEL: int := -4

  // Kinds of the world player's cooldowns.
  const DAY: int := -100
  const MONTH: int := -101
  const YEAR: int := -102
  const BATTLE: int := -103

  // Equipment slots and item types.
  const BAG: int := 0
  const HANDS: int := 1
  const SWORD: int := 1
  const SHIELD: int := 2
}

=== FILE: dice.dfy ===
/** The tavern dice game: a player pays the fee and either sits down to wait or is matched with
    the player already waiting; the higher two-dice sum takes the pot. */
module Dice {
  import opened Wrappers
  import opened Consts
  import opened Text
  import opened Ledger
  import opened Orm

  predicate IsDie(v: int) {
    1 <= v <= 6
  }

  /** What `roll_dice(count)` can return: `count` values, each from 1 to 6. */
  predicate IsRoll(rolls: seq<int>, count: nat) {
    |rolls| == count && forall i :: 0 <= i < |rolls| ==> IsDie(rolls[i])
  }

  function Sum(rolls: seq<int>): int {
    if |rolls| == 0 then 0 else rolls[0] + Sum(rolls[1..])
  }

  lemma {:induction false} SumOfRoll(rolls: seq<int>, count: nat)
    requires IsRoll(rolls, count)
    ensures count <= Sum(rolls) <= 6 * count
    decreases count
  {
    if count > 0 {
      assert IsRoll(rolls[1..], count - 1) by {
        forall i | 0 <= i < |rolls[1..]|
          ensures IsDie(rolls[1..][i])
        {
          assert rolls[1..][i] == rolls[i + 1];
        }
      }
      SumOfRoll(rolls[1..], count - 1);
    }
  }

  // ---------------------------------------------------------------- rendering

  /** `_DICES[v]`: the die faces U+2680 (one pip) to U+2685 (six pips). */
  function Face(v: int): (c: char)
    requires IsDie(v)
    ensures IsFace(c) && FaceValue(c) == v
  {
    (0x267F + v) as char
  }

  predicate IsFace(c: char) {
    '⚀' <= c <= '⚅'
  }

  function FaceValue(c: char): int
    requires IsFace(c)
  {
    c as int - 0x267F
  }

  function Faces(rolls: seq<int>): (r: seq<string>)
    requires forall i :: 0 <= i < |rolls| ==> IsDie(rolls[i])
    ensures |r| == |rolls|
    ensures forall i :: 0 <= i < |rolls| ==> r[i] == [Face(rolls[i])]
  {
    if |rolls| == 0 then [] else [[Face(rolls[0])]] + Faces(rolls[1..])
  }

  /** `r` ends in "(" and ")" around a numeral, starting at `k`, that reads as `n`. */
  predicate ClosesWithNumeral(r: string, k: int, n: int) {
    && 1 <= k < |r| - 1 && r[k - 1] == '(' && r[|r| - 1] == ')'
    && AllDigits(r[k..|r| - 1]) && ParseNat(r[k..|r| - 1]) == n
  }

  /** `dices2str`: the faces joined by " + ", then the sum in parentheses. The text closes with
      the sum, which reads back from the numeral before the ")"; the faces read back from the
      front (`DicesTextRoundTrip`). */
  function Dices2Str(rolls: seq<int>): (r: string)
    requires |rolls| >= 1 && forall i :: 0 <= i < |rolls| ==> IsDie(rolls[i])
    ensures exists k :: ClosesWithNumeral(r, k, Sum(rolls))
  {
    SumOfDice(rolls);
    var n := NatToString(Sum(rolls));
    var r := Join(Faces(rolls), " + ") + " (" + n + ")";
    var k := |r| - 1 - |n|;
    assert r[k - 1] == '(' && r[k..|r| - 1] == n;
    ParseNatToString(Sum(rolls));
    assert ClosesWithNumeral(r, k, Sum(rolls));
    r
  }

  lemma {:induction false} SumOfDice(rolls: seq<int>)
    requires forall i :: 0 <= i < |rolls| ==> IsDie(rolls[i])
    ensures Sum(rolls) >= |rolls|
    decreases |rolls|
  {
    if |rolls| > 0 {
      SumOfDice(rolls[1..]);
    }
  }

  /** Reads the faces back off the front of a rendering. */
  function ParseFaces(s: string): seq<int>
    decreases |s|
  {
    if |s| == 0 || !IsFace(s[0]) then []
    else if |s| >= 4 && s[1..4] == " + " then [FaceValue(s[0])] + ParseFaces(s[4..])
    else [FaceValue(s[0])]
  }

  lemma {:induction false} ParseJoinedFaces(rolls: seq<int>, tail: string)
    requires |rolls| >= 1 && forall i :: 0 <= i < |rolls| ==> IsDie(rolls[i])
    requires |tail| < 3 || tail[1] != '+'
    ensures ParseFaces(Join(Faces(rolls), " + ") + tail) == rolls
    decreases |rolls|
  {
    var s := Join(Faces(rolls), " + ") + tail;
    if |rolls| == 1 {
      assert Join(Faces(rolls), " + ") == [Face(rolls[0])];
      assert s == [Face(rolls[0])] + tail;
      assert |s| >= 4 ==> s[1..4] == tail[..3];
      assert [FaceValue(s[0])] == rolls;
    } else {
      var rest := Join(Faces(rolls[1..]), " + ") + tail;
      assert Faces(rolls)[1..] == Faces(rolls[1..]);
      assert s == [Face(rolls[0])] + " + " + rest;
      assert s[1..4] == " + ";
      assert s[4..] == rest;
      ParseJoinedFaces(rolls[1..], tail);
      assert rolls == [rolls[0]] + rolls[1..];
    }
  }

  /** The message shows every die of the throw: the faces can be read back from it. */
  lemma DicesTextRoundTrip(rolls: seq<int>)
    requires |rolls| >= 1 && forall i :: 0 <= i < |rolls| ==> IsDie(rolls[i])
    ensures ParseFaces(Dices2Str(rolls)) == rolls
  {
    SumOfDice(rolls);
    var tail := " (" + NatToString(Sum(rolls)) + ")";
    assert Dices2Str(rolls) == Join(Faces(rolls), " + ") + tail;
    ParseJoinedFaces(rolls, tail);
  }

  // ---------------------------------------------------------------- matchmaking

  /** Players holding a PLAYING_DICE cooldown: those waiting at the table. */
  function Waiting(w: World): set<int> {
    set id | id in w && HasKind(w[id].cooldowns, PLAYING_DICE)
  }

  /** What `fetchone(select(Cooldown).filter_by(id=PLAYING_DICE))` may return: the owner of
      some waiting cooldown, or nothing when nobody waits. */
  predicate WaiterChoice(w: World, waiter: Option<int>) {
    match waiter
    case None => Waiting(w) == {}
    case Some(q) => q in Waiting(w)
  }

  /** One player's throw. */
  datatype Throw = Throw(player: int, roll: seq<int>)

  /** The swap in `_play_dice`: the throw with the higher sum comes first. */
  function Ranked(a: Throw, b: Throw): (r: (Throw, Throw))
    requires Sum(a.roll) != Sum(b.roll)
    ensures Sum(r.0.roll) > Sum(r.1.roll)
    ensures (r.0 == a && r.1 == b) || (r.0 == b && r.1 == a)
  {
    if Sum(a.roll) < Sum(b.roll) then (b, a) else (a, b)
  }

  /** `_play_dice`: the winner's rank gains the fee, the loser's rank loses it, the winner takes
      twice the fee, and both go back to rest. A rank row that is missing makes the update
      raise. */
  function Resolve(w: World, a: Throw, b: Throw): (r: Result<World, Fault>)
    requires a.player in w && b.player in w
    requires Sum(a.roll) != Sum(b.roll)
    ensures r.Success? <==> w[a.player].diceRank.Some? && w[b.player].diceRank.Some?
    ensures r.Failure? ==> r.error == MissingRank
    ensures r.Success? ==> r.value.Keys == w.Keys
    ensures r.Success? ==> forall id :: id in w && id != a.player && id != b.player ==> r.value[id] == w[id]
    ensures r.Success? ==> forall id :: id in w ==> r.value[id].cooldowns == w[id].cooldowns
  {
    var (win, lose) := Ranked(a, b);
    if w[win.player].diceRank.None? || w[lose.player].diceRank.None? then Failure(MissingRank)
    else
      SettleOutcome(w, win.player, lose.player);
      Success(Settle(w, win.player, lose.player))
  }

  /** The updates of a settled game, applied one after the other as the code does. Only the
      two players change. */
  function Settle(w: World, winner: int, loser: int): (r: World)
    requires winner in w && loser in w
    requires w[winner].diceRank.Some? && w[loser].diceRank.Some?
    ensures r.Keys == w.Keys
    ensures forall id :: id in w && id != winner && id != loser ==> r[id] == w[id]
  {
    var w1 := w[winner := w[winner].(diceRank := Some(w[winner].diceRank.value + DICE_FEE))];
    var w2 := w1[loser := w1[loser].(diceRank := Some(w1[loser].diceRank.value - DICE_FEE))];
    var w3 := w2[winner := w2[winner].(gold := w2[winner].gold + 2 * DICE_FEE)];
    var w4 := w3[winner := w3[winner].(state := REST)];
    w4[loser := w4[loser].(state := REST)]
  }

  /** What a settled game does to the two players: the winner collects both fees and gains
      DICE_FEE rank points, the loser loses them, and both go back to rest; nobody's ledger
      changes. A player matched with themself collects the pot and keeps their rank. */
  lemma SettleOutcome(w: World, winner: int, loser: int)
    requires winner in w && loser in w
    requires w[winner].diceRank.Some? && w[loser].diceRank.Some?
    ensures forall id :: id in w ==> Settle(w, winner, loser)[id].cooldowns == w[id].cooldowns
    ensures winner != loser ==>
      Settle(w, winner, loser)[winner] == w[winner].(gold := w[winner].gold + 2 * DICE_FEE, state := REST,
                                                    diceRank := Some(w[winner].diceRank.value + DICE_FEE))
    ensures winner != loser ==>
      Settle(w, winner, loser)[loser] == w[loser].(state := REST, diceRank := Some(w[loser].diceRank.value - DICE_FEE))
    ensures winner == loser ==>
      Settle(w, winner, loser)[winner] == w[winner].(gold := w[winner].gold + 2 * DICE_FEE, state := REST)
  {
    if winner != loser {
      SettleTwo(w, winner, loser);
    } else {
      SettleOne(w, winner);
    }
  }

  lemma SettleTwo(w: World, winner: int, loser: int)
    requires winner in w && loser in w && winner != loser
    requires w[winner].diceRank.Some? && w[loser].diceRank.Some?
    ensures var r := Settle(w, winner, loser);
      && r[winner] == w[winner].(gold := w[winner].gold + 2 * DICE_FEE, state := REST,
                                 diceRank := Some(w[winner].diceRank.value + DICE_FEE))
      && r[loser] == w[loser].(state := REST, diceRank := Some(w[loser].diceRank.value - DICE_FEE))
  {
    var w1 := w[winner := w[winner].(diceRank := Some(w[winner].diceRank.value + DICE_FEE))];
    var w2 := w1[loser := w1[loser].(diceRank := Some(w1[loser].diceRank.value - DICE_FEE))];
    var w3 := w2[winner := w2[winner].(gold := w2[winner].gold + 2 * DICE_FEE)];
    var w4 := w3[winner := w3[winner].(state := REST)];
    assert Settle(w, winner, loser) == w4[loser := w4[loser].(state := REST)];
    assert w4[loser] == w2[loser] && w2[winner] == w1[winner] && w1[loser] == w[loser];
  }

  lemma SettleOne(w: World, p: int)
    requires p in w && w[p].diceRank.Some?
    ensures Settle(w, p, p)[p] == w[p].(gold := w[p].gold + 2 * DICE_FEE, state := REST)
  {
    var w1 := w[p := w[p].(diceRank := Some(w[p].diceRank.value + DICE_FEE))];
    var w2 := w1[p := w1[p].(diceRank := Some(w1[p].diceRank.value - DICE_FEE))];
    assert w2[p] == w[p].(diceRank := w[p].diceRank);
  }

  /** The first half of `play_dice`: the fee is taken, the player sits down, and a dice rank
      is created at 0 if missing. */
  function SitDown(p: Player): (q: Player)
    ensures q.gold + DICE_FEE == p.gold && q.state == PLAYING_DICE
    ensures q.diceRank.Some? && (p.diceRank.Some? ==> q.diceRank == p.diceRank) && (p.diceRank.None? ==> q.diceRank == Some(0))
    ensures q.(gold := p.gold, state := p.state, diceRank := p.diceRank) == p
  {
    p.(gold := p.gold - DICE_FEE, state := PLAYING_DICE, diceRank := Some(p.diceRank.GetOr(0)))
  }

  /** Nobody waits: the player who just sat down waits DICE_COOLDOWN seconds for company, and is
      then the only one at the table. */
  function WaitAlone(w: World, id: int, now: int): (r: World)
    requires id in w && Waiting(w) == {}
    ensures r.Keys == w.Keys
    ensures r[id] == w[id].(cooldowns := r[id].cooldowns)
    ensures EndsAt(r[id].cooldowns, PLAYING_DICE) == Some(now + DICE_COOLDOWN)
    ensures Without(r[id].cooldowns, PLAYING_DICE) == w[id].cooldowns
    ensures RemoveFirst(r[id].cooldowns, PLAYING_DICE) == w[id].cooldowns
    ensures Waiting(r) == {id}
    ensures forall o :: o in w && o != id ==> r[o] == w[o]
  {
    assert id !in Waiting(w);
    var cs := Append(w[id].cooldowns, Cooldown(PLAYING_DICE, now + DICE_COOLDOWN));
    var r := w[id := w[id].(cooldowns := cs)];
    assert Waiting(r) == {id} by {
      forall o | o in r
        ensures HasKind(r[o].cooldowns, PLAYING_DICE) <==> o == id
      {
        if o != id {
          assert o !in Waiting(w);
        }
      }
    }
    r
  }

  /** Someone waits: the two throws are resolved and the waiter's cooldown is deleted. */
  function MatchWaiter(w: World, id: int, q: int, joining: seq<int>, waiting: seq<int>): (r: Result<World, Fault>)
    requires id in w && q in Waiting(w) && Sum(joining) != Sum(waiting)
    ensures r.Failure? <==> w[id].diceRank.None? || w[q].diceRank.None?
    ensures r.Failure? ==> r.error == MissingRank
    ensures r.Success? ==> r.value.Keys == w.Keys
    ensures r.Success? ==> forall o :: o in w && o != id && o != q ==> r.value[o] == w[o]
    ensures r.Success? && UniqueKinds(w[q].cooldowns) ==> Waiting(r.value) == Waiting(w) - {q}
  {
    match Resolve(w, Throw(id, joining), Throw(q, waiting))
    case Failure(e) => Failure(e)
    case Success(w2) =>
      var r := w2[q := w2[q].(cooldowns := RemoveFirst(w2[q].cooldowns, PLAYING_DICE))];
      assert UniqueKinds(w[q].cooldowns) ==> Waiting(r) == Waiting(w) - {q} by {
        if UniqueKinds(w[q].cooldowns) {
          LeaveTable(w, r, q);
        }
      }
      Success(r)
  }

  /** A settled match leaves both players resting, keeps the joiner's ledger and takes the
      waiter's PLAYING_DICE timer away; the pair's gold grows by the two fees, their ranks add
      up to what they were, and the joiner gains gold exactly when their throw was higher. A
      player matched with themself collects the pot. */
  lemma MatchWaiterOutcome(w: World, id: int, q: int, joining: seq<int>, waiting: seq<int>)
    requires id in w && q in Waiting(w) && Sum(joining) != Sum(waiting)
    requires MatchWaiter(w, id, q, joining, waiting).Success?
    ensures var r := MatchWaiter(w, id, q, joining, waiting).value;
      && (id != q ==>
        && r[id].state == REST && r[q].state == REST
        && r[id].cooldowns == w[id].cooldowns
        && r[q].cooldowns == RemoveFirst(w[q].cooldowns, PLAYING_DICE)
        && r[id].gold + r[q].gold == w[id].gold + w[q].gold + 2 * DICE_FEE
        && r[id].diceRank.Some? && r[q].diceRank.Some?
        && r[id].diceRank.value + r[q].diceRank.value == w[id].diceRank.value + w[q].diceRank.value
        && (r[id].gold > w[id].gold <==> Sum(joining) > Sum(waiting))
        && (r[id].gold == w[id].gold || r[id].gold == w[id].gold + 2 * DICE_FEE))
      && (id == q ==>
        r[id] == w[id].(gold := w[id].gold + 2 * DICE_FEE, state := REST,
                        cooldowns := RemoveFirst(w[id].cooldowns, PLAYING_DICE)))
  {
    var a, b := Throw(id, joining), Throw(q, waiting);
    var (win, lose) := Ranked(a, b);
    var w2 := Settle(w, win.player, lose.player);
    SettleOutcome(w, win.player, lose.player);
    assert Resolve(w, a, b) == Success(w2);
    var r := w2[q := w2[q].(cooldowns := RemoveFirst(w2[q].cooldowns, PLAYING_DICE))];
    assert MatchWaiter(w, id, q, joining, waiting).value == r;
    if id != q {
      assert r[id] == w2[id];
      if Sum(joining) > Sum(waiting) {
        assert win == a && lose == b;
      } else {
        assert win == b && lose == a;
      }
    }
  }

  /** Deleting the waiter's PLAYING_DICE cooldown, and changing nobody else's ledger, takes the
      waiter, and only them, off the table. */
  lemma LeaveTable(w: World, r: World, q: int)
    requires q in w && r.Keys == w.Keys && UniqueKinds(w[q].cooldowns)
    requires r[q].cooldowns == RemoveFirst(w[q].cooldowns, PLAYING_DICE)
    requires forall o :: o in w && o != q ==> r[o].cooldowns == w[o].cooldowns
    ensures Waiting(r) == Waiting(w) - {q}
  {
    forall o | o in r
      ensures o in Waiting(r) <==> o in Waiting(w) && o != q
    {
      if o != q {
        assert r[o].cooldowns == w[o].cooldowns;
      }
    }
  }

  /** `play_dice` for player `id`: sit down, then wait alone or be matched with the waiter the
      query found. The joiner's throw is `joining`, the waiter's `waiting`: the final pair after
      all rerolls. A joiner who could afford the fee never ends in debt. */
  function PlayDice(w: World, id: int, waiter: Option<int>, joining: seq<int>, waiting: seq<int>, now: int): (r: Result<World, Fault>)
    requires id in w && WaiterChoice(w, waiter)
    requires waiter.Some? ==> Sum(joining) != Sum(waiting)
    ensures r.Success? ==> r.value.Keys == w.Keys
    ensures r.Success? ==> forall o :: o in w && o != id && Some(o) != waiter ==> r.value[o] == w[o]
    ensures r.Failure? <==> waiter.Some? && waiter.value != id && w[waiter.value].diceRank.None?
  {
    var w1 := w[id := SitDown(w[id])];
    assert forall o :: o in w && o != id ==> w1[o] == w[o];
    match waiter
    case None => Success(WaitAlone(w1, id, now))
    case Some(q) => MatchWaiter(w1, id, q, joining, waiting)
  }

  /** `play_dice` with nobody waiting: the player has paid the fee and waits alone. */
  lemma PlayDiceAlone(w: World, id: int, joining: seq<int>, waiting: seq<int>, now: int)
    requires id in w && Waiting(w) == {}
    ensures var r := PlayDice(w, id, None, joining, waiting, now);
      && r.Success?
      && Waiting(r.value) == {id} && r.value[id].state == PLAYING_DICE
      && r.value[id].gold == w[id].gold - DICE_FEE
  {
    var w1 := w[id := SitDown(w[id])];
    SitDownKeepsTable(w, id);
    assert PlayDice(w, id, None, joining, waiting, now) == Success(WaitAlone(w1, id, now));
  }

  /** `play_dice` matched with a waiter: the waiter leaves the table and both go back to rest.
      A joiner who could afford the fee never ends in debt. */
  lemma PlayDiceMatched(w: World, id: int, q: int, joining: seq<int>, waiting: seq<int>, now: int)
    requires id in w && q in Waiting(w) && Sum(joining) != Sum(waiting)
    requires PlayDice(w, id, Some(q), joining, waiting, now).Success?
    ensures var r := PlayDice(w, id, Some(q), joining, waiting, now).value;
      && (UniqueKinds(w[q].cooldowns) ==> Waiting(r) == Waiting(w) - {q})
      && r[id].state == REST && r[q].state == REST
      && (w[id].gold >= DICE_FEE ==> r[id].gold >= 0)
  {
    var w1 := w[id := SitDown(w[id])];
    SitDownKeepsTable(w, id);
    assert w1[q].cooldowns == w[q].cooldowns;
    var m := MatchWaiter(w1, id, q, joining, waiting);
    assert PlayDice(w, id, Some(q), joining, waiting, now) == m;
    MatchWaiterOutcome(w1, id, q, joining, waiting);
  }

  /** Sitting down touches no ledger, so the table is the same. */
  lemma SitDownKeepsTable(w: World, id: int)
    requires id in w
    ensures Waiting(w[id := SitDown(w[id])]) == Waiting(w)
  {
    var w1 := w[id := SitDown(w[id])];
    assert forall o :: o in w1 ==> w1[o].cooldowns == w[o].cooldowns;
  }

  /** The first player at an empty table pays, sits down and is the only one waiting, with a
      ledger that gives back the old one once its PLAYING_DICE timer is removed. */
  lemma SitAndWait(w: World, a: int, t: int)
    requires a in w && Waiting(w) == {} && UniqueKinds(w[a].cooldowns)
    ensures PlayDice(w, a, None, [], [], t).Success?
    ensures var w1 := PlayDice(w, a, None, [], [], t).value;
      && w1.Keys == w.Keys
      && Waiting(w1) == {a}
      && (forall o :: o in w && o != a ==> w1[o] == w[o])
      && w1[a] == SitDown(w[a]).(cooldowns := w1[a].cooldowns)
      && UniqueKinds(w1[a].cooldowns)
      && RemoveFirst(w1[a].cooldowns, PLAYING_DICE) == w[a].cooldowns
  {
    var s1 := w[a := SitDown(w[a])];
    SitDownKeepsTable(w, a);
    var w1 := WaitAlone(s1, a, t);
    assert PlayDice(w, a, None, [], [], t) == Success(w1);
    assert a !in Waiting(w);
    assert w1[a].cooldowns == Append(w[a].cooldowns, Cooldown(PLAYING_DICE, t + DICE_COOLDOWN));
  }

  /** Two players meeting at an empty table: the first waits, the second is matched with it;
      afterwards the pair's gold and ranks add up to what they were, nobody waits, both rest,
      and their ledgers are back as they were. */
  lemma TwoJoins(w: World, a: int, b: int, aRoll: seq<int>, bRoll: seq<int>, t1: int, t2: int)
    requires a in w && b in w && a != b && Waiting(w) == {}
    requires UniqueKinds(w[a].cooldowns) && Sum(aRoll) != Sum(bRoll)
    ensures
      var first := PlayDice(w, a, None, [], [], t1);
      && first.Success?
      && WaiterChoice(first.value, Some(a))
      && var second := PlayDice(first.value, b, Some(a), bRoll, aRoll, t2);
      && second.Success?
      && second.value[a].gold + second.value[b].gold == w[a].gold + w[b].gold
      && second.value[a].diceRank.Some? && second.value[b].diceRank.Some?
      && second.value[a].diceRank.value + second.value[b].diceRank.value
         == w[a].diceRank.GetOr(0) + w[b].diceRank.GetOr(0)
      && Waiting(second.value) == {}
      && second.value[a].cooldowns == w[a].cooldowns && second.value[b].cooldowns == w[b].cooldowns
      && second.value[a].state == REST && second.value[b].state == REST
  {
    var w1 := PlayDice(w, a, None, [], [], t1).value;
    SitAndWait(w, a, t1);
    var s2 := w1[b := SitDown(w1[b])];
    SitDownKeepsTable(w1, b);
    assert s2[a] == w1[a] && s2[a].diceRank.Some? && s2[b].diceRank.Some?;
    assert s2[b] == SitDown(w[b]);
    assert UniqueKinds(s2[a].cooldowns) && RemoveFirst(s2[a].cooldowns, PLAYING_DICE) == w[a].cooldowns;
    var second := MatchWaiter(s2, b, a, bRoll, aRoll);
    assert PlayDice(w1, b, Some(a), bRoll, aRoll, t2) == second;
    MatchWaiterOutcome(s2, b, a, bRoll, aRoll);
    assert Waiting(second.value) == {a} - {a};
  }
}

=== FILE: hooks.dfy ===
/** The command handlers whose effect is a rule rather than a message: stopping a thief,
    learning a skill, and moving items between the bag and the hands. */
module Hooks {
  import opened Wrappers
  import opened Consts
  import opened Ledger
  import opened Orm
  import opened Util

  // ---------------------------------------------------------------- /interfere

  /** The draws of `/interfere`: the sentinel's reward gold and exp, the gold the thief drops,
      and the damage the thief takes. */
  datatype InterfereDraw = InterfereDraw(gold: int, exp: int, loss: int, damage: int)

  /** The `randint` ranges; the dropped gold follows `calculate_interfere_gold` of the thief's
      level. */
  predicate IsInterfereDraw(w: World, s: int, d: InterfereDraw)
    requires s in w
  {
    && 1 <= d.gold <= 2 && 1 <= d.exp <= 3 && 50 <= d.damage <= 80 && 5 <= d.loss <= 20
    && (w[s].thief.Some? && w[s].thief.value in w && w[s].thief.value != s ==>
          IsInterfereGold(w[w[s].thief.value].level, d.loss))
  }

  /** `interfere_cmd` by sentinel `s`: without a thief link nothing happens. Otherwise
      `stop_noticing` sends both back to rest, the sentinel's `stopped` counter rises by one
      (created at 0) and the sentinel is rewarded, then the thief drops `min(loss, gold)` gold
      and takes the damage through `reduce_hp`. */
  function Interfere(req: int -> int, w: World, s: int, d: InterfereDraw, now: int): (r: Result<World, Fault>)
    requires Positive(req)
    requires s in w ==> IsInterfereDraw(w, s, d)
    ensures r.Failure? <==>
      s !in w || (w[s].thief.Some? && (w[s].thief.value !in w || !HasKind(w[s].cooldowns, NOTICED_THIEF)))
    ensures s in w && w[s].thief.None? ==> r == Success(w)
    ensures r.Success? ==> r.value.Keys == w.Keys
    ensures r.Success? ==> forall o :: o in w && o != s && Some(o) != w[s].thief ==> r.value[o] == w[o]
  {
    if s !in w then Failure(Rejected)
    else if w[s].thief.None? then Success(w)
    else
      var stopped := StopNoticing(w, s);
      if stopped.Failure? then Failure(stopped.error)
      else
        Success(RewardAndPunish(req, stopped.value, s, w[s].thief.value, d, now))
  }

  /** Once the noticing has stopped: the sentinel is rewarded, then the thief punished. */
  function RewardAndPunish(req: int -> int, w: World, s: int, t: int, d: InterfereDraw, now: int): (r: World)
    requires Positive(req) && s in w && t in w
    ensures r.Keys == w.Keys
    ensures forall o :: o in w && o != s && o != t ==> r[o] == w[o]
    ensures s != t ==> r[s] == Reward(req, w[s], d) && r[t] == Punish(w[t], d, now)
  {
    var w1 := w[s := Reward(req, w[s], d)];
    w1[t := Punish(w1[t], d, now)]
  }

  /** What a successful interference does to the sentinel: they rest, the link is gone, their
      counter, gold and level rise and their NOTICED_THIEF timer is cleared. */
  lemma InterfereOutcome(req: int -> int, w: World, s: int, d: InterfereDraw, now: int)
    requires Positive(req)
    requires s in w && IsInterfereDraw(w, s, d)
    requires w[s].thief.Some? && w[s].thief.value != s
    requires Interfere(req, w, s, d, now).Success?
    ensures var r := Interfere(req, w, s, d, now).value;
      && r[s].state == REST && r[s].thief == None
      && r[s].sentinelRank == Some(w[s].sentinelRank.GetOr(0) + 1)
      && r[s].gold == w[s].gold + d.gold && r[s].level >= w[s].level
      && ExpGained(req, w[s], r[s], d.exp)
      && (UniqueKinds(w[s].cooldowns) ==> !HasKind(r[s].cooldowns, NOTICED_THIEF))
  {
    var t := w[s].thief.value;
    var stopped := StopNoticing(w, s);
    assert stopped.Success?;
    var w1 := stopped.value;
    var r := RewardAndPunish(req, w1, s, t, d, now);
    assert Interfere(req, w, s, d, now) == Success(r);
    var rs := Reward(req, w1[s], d);
    assert r[s] == rs;
    ExpGainedFrame(req, w[s], w1[s], rs, d.exp);
  }

  /** What a successful interference does to the thief: they rest and lose gold down to 0 and
      hp down to 1. */
  lemma InterferePunishes(req: int -> int, w: World, s: int, d: InterfereDraw, now: int)
    requires Positive(req)
    requires s in w && IsInterfereDraw(w, s, d)
    requires w[s].thief.Some? && w[s].thief.value != s
    requires Interfere(req, w, s, d, now).Success?
    ensures var r := Interfere(req, w, s, d, now).value; var t := w[s].thief.value;
      && t in w
      && r[t].state == REST
      && r[t].gold == Max(w[t].gold - d.loss, 0)
      && r[t].hp == w[t].hp - Min(w[t].hp - 1, d.damage)
      && (w[t].hp >= 1 ==> 1 <= r[t].hp <= w[t].hp)
  {
    var t := w[s].thief.value;
    var w1 := StopNoticing(w, s).value;
    var r := Interfere(req, w, s, d, now).value;
    assert r == RewardAndPunish(req, w1, s, t, d, now);
    assert r[t] == Punish(w1[t], d, now);
    assert w1[t] == w[t].(state := REST);
  }

  /** The sentinel's side of `/interfere`: the `stopped` counter, the reward gold, the exp. */
  function Reward(req: int -> int, p: Player, d: InterfereDraw): (r: Player)
    requires Positive(req)
    ensures r.sentinelRank == Some(p.sentinelRank.GetOr(0) + 1)
    ensures r.gold == p.gold + d.gold && r.level >= p.level
    ensures ExpGained(req, p, r, d.exp)
    ensures r.state == p.state && r.thief == p.thief && r.hp == p.hp
    ensures EndsAt(r.cooldowns, NOTICED_THIEF) == EndsAt(p.cooldowns, NOTICED_THIEF)
  {
    var guard := p.(sentinelRank := Some(p.sentinelRank.GetOr(0) + 1), gold := p.gold + d.gold);
    var r := IncreaseExp(req, guard, d.exp).0;
    ExpGainedFrame(req, p, guard, r, d.exp);
    EndsAtElsewhere(r.cooldowns, p.cooldowns, REST, NOTICED_THIEF);
    r
  }

  /** The thief's side of `/interfere`: `-min(loss, gold)` gold, then `reduce_hp(damage)`. The
      thief ends with no debt, whatever gold they had. */
  function Punish(p: Player, d: InterfereDraw, now: int): (r: Player)
    ensures r.gold == Max(p.gold - d.loss, 0)
    ensures r.hp == p.hp - Min(p.hp - 1, d.damage)
    ensures p.hp >= 1 && d.damage >= 0 ==> 1 <= r.hp <= p.hp
    ensures r.state == p.state && r.level == p.level
  {
    var thief := p.(gold := p.gold - Min(d.loss, p.gold));
    ReduceHp(thief, d.damage, now).0
  }

  // ---------------------------------------------------------------- /learn

  /** A `BaseSkill`'s stat increments per level. */
  datatype BaseSkill = BaseSkill(minAtk: int, maxAtk: int, minDef: int, maxDef: int, maxHp: int)

  /** `validate_sp(1)`: at least one skill point to spend. */
  predicate ValidateSp(p: Player, required: int) {
    p.skillPoints >= required
  }

  /** `learn_cmd`: with a skill point to spend, a skill the player owns or one the catalog
      offers rises by one level (a new one starts at 0), one point is spent, and the base's
      increments are added to the stats; hp rises with max hp, so the missing hp is unchanged.
      Anything else is refused without change. */
  function Learn(w: World, id: int, skillId: int, catalog: map<int, BaseSkill>): (r: Result<World, Fault>)
    requires id in w ==> forall k :: k in w[id].skills ==> k in catalog
    ensures r.Success? <==> id in w && ValidateSp(w[id], 1) && (skillId in w[id].skills || skillId in catalog)
    ensures r.Failure? ==> r.error == Rejected
    ensures r.Success? ==> r.value.Keys == w.Keys && forall o :: o in w && o != id ==> r.value[o] == w[o]
    ensures r.Success? ==>
      var p, q, b := w[id], r.value[id], catalog[skillId];
      && skillId in q.skills
      && q.skills[skillId] == (if skillId in p.skills then p.skills[skillId] else 0) + 1
      && (forall k :: k != skillId ==> (k in q.skills <==> k in p.skills))
      && (forall k :: k in p.skills && k != skillId ==> q.skills[k] == p.skills[k])
      && q.skillPoints == p.skillPoints - 1
      && q.attack == p.attack + b.minAtk && q.maxAttack == p.maxAttack + b.maxAtk
      && q.defense == p.defense + b.minDef && q.maxDefense == p.maxDefense + b.maxDef
      && q.maxHp == p.maxHp + b.maxHp
      && q.maxHp - q.hp == p.maxHp - p.hp
      && q.level == p.level && q.gold == p.gold && q.cooldowns == p.cooldowns
  {
    if id !in w || !ValidateSp(w[id], 1) then Failure(Rejected)
    else
      var p := w[id];
      if skillId !in p.skills && skillId !in catalog then Failure(Rejected)
      else
        var b := catalog[skillId];
        var level := if skillId in p.skills then p.skills[skillId] else 0;
        Success(w[id := p.(skillPoints := p.skillPoints - 1, skills := p.skills[skillId := level + 1],
                           attack := p.attack + b.minAtk, maxAttack := p.maxAttack + b.maxAtk,
                           defense := p.defense + b.minDef, maxDefense := p.maxDefense + b.maxDef,
                           maxHp := p.maxHp + b.maxHp, hp := p.hp + b.maxHp)])
  }

  // ---------------------------------------------------------------- /on and /off

  /** The `item` table, by item id. */
  type Items = map<int, Item>

  /** Ids of `owner`'s items in `slot`. */
  function InSlot(items: Items, owner: int, slot: int): set<int> {
    set i | i in items && items[i].owner == owner && items[i].slot == slot
  }

  /** `used_inv_slots` against `inv_size`: the bag still has room. */
  predicate ValidateInv(p: Player, items: Items, owner: int) {
    |InSlot(items, owner, BAG)| < p.invSize
  }

  /** What `select(Item).filter_by(player_id, slot=HANDS)` may return: every hand item of the
      owner, each once, in some order. */
  predicate HandOrder(items: Items, owner: int, hands: seq<int>) {
    && (forall i, j :: 0 <= i < j < |hands| ==> hands[i] != hands[j])
    && (forall i :: 0 <= i < |hands| ==> hands[i] in InSlot(items, owner, HANDS))
    && (forall x :: x in InSlot(items, owner, HANDS) ==> x in hands)
  }

  /** A list without repeats has as many elements as its set. */
  lemma {:induction false} DistinctCard(s: seq<int>)
    requires forall i, j :: 0 <= i < j < |s| ==> s[i] != s[j]
    ensures |set x | x in s| == |s|
  {
    if |s| > 0 {
      var rest := s[1..];
      DistinctCard(rest);
      assert (set x | x in s) == {s[0]} + (set x | x in rest);
      assert s[0] !in (set x | x in rest);
    }
  }

  /** The hand query returns as many rows as the owner has hand items. */
  lemma HandOrderCount(items: Items, owner: int, hands: seq<int>)
    requires HandOrder(items, owner, hands)
    ensures |hands| == |InSlot(items, owner, HANDS)|
  {
    DistinctCard(hands);
    var hs := set x | x in hands;
    forall x | x in hs
      ensures x in InSlot(items, owner, HANDS)
    {
      var i :| 0 <= i < |hands| && hands[i] == x;
    }
    forall x | x in InSlot(items, owner, HANDS)
      ensures x in hs
    {
      assert x in hands;
    }
    assert hs == InSlot(items, owner, HANDS);
  }

  /** `on_cmd`: a resting player's bag item is equipped to the slot it belongs to, provided its
      level requirement is met and it belongs in the hands; when both hands are full, the
      second item the query lists goes back to the bag. */
  function Equip(w: World, items: Items, id: int, itemId: int, hands: seq<int>, now: int): (r: Result<Items, Fault>)
    requires HandOrder(items, id, hands)
    ensures r.Success? <==>
      && id in w && BattleEndsAt(w).Some? && ValidateResting(w[id], BattleEndsAt(w).value, now, false)
      && itemId in InSlot(items, id, BAG)
      && RequiredLevel(items[itemId]) <= w[id].level
      && GetSlot(items[itemId]) == HANDS
    ensures r.Success? ==>
      && r.value.Keys == items.Keys
      && r.value[itemId] == items[itemId].(slot := HANDS)
      && (forall i :: i in items && i != itemId && (|hands| != 2 || i != hands[1]) ==> r.value[i] == items[i])
      && (|hands| == 2 ==> r.value[hands[1]] == items[hands[1]].(slot := BAG))
  {
    if id !in w then Failure(Rejected)
    else if BattleEndsAt(w).None? then Failure(MissingCooldown)
    else if !ValidateResting(w[id], BattleEndsAt(w).value, now, false) then Failure(Rejected)
    else if itemId !in items || items[itemId].owner != id || items[itemId].slot != BAG then Failure(Rejected)
    else if RequiredLevel(items[itemId]) > w[id].level then Failure(Rejected)
    else if GetSlot(items[itemId]) == BAG then Failure(Rejected)
    else
      var freed := if |hands| == 2 then items[hands[1] := items[hands[1]].(slot := BAG)] else items;
      Success(freed[itemId := freed[itemId].(slot := HANDS)])
  }

  /** Equipping keeps the hands at two items at most. */
  lemma EquipKeepsTwoHands(w: World, items: Items, id: int, itemId: int, hands: seq<int>, now: int)
    requires HandOrder(items, id, hands) && |InSlot(items, id, HANDS)| <= 2
    requires Equip(w, items, id, itemId, hands, now).Success?
    ensures |InSlot(Equip(w, items, id, itemId, hands, now).value, id, HANDS)| <= 2
  {
    var r := Equip(w, items, id, itemId, hands, now).value;
    HandOrderCount(items, id, hands);
    var before := InSlot(items, id, HANDS);
    if |hands| == 2 {
      var kept := before - {hands[1]};
      assert hands[1] in before;
      assert |kept| == 1;
      assert InSlot(r, id, HANDS) == kept + {itemId};
    } else {
      assert |before| <= 1;
      assert InSlot(r, id, HANDS) == before + {itemId};
    }
  }

  /** `off_cmd`: a resting player with room in the bag moves one of their equipped items back
      to the bag; nothing else changes. */
  function Unequip(w: World, items: Items, id: int, itemId: int, now: int): (r: Result<Items, Fault>)
    ensures r.Success? <==>
      && id in w && BattleEndsAt(w).Some? && ValidateResting(w[id], BattleEndsAt(w).value, now, false)
      && ValidateInv(w[id], items, id)
      && itemId in items && items[itemId].owner == id && items[itemId].slot != BAG
    ensures r.Success? ==>
      && r.value.Keys == items.Keys
      && r.value[itemId] == items[itemId].(slot := BAG)
      && (forall i :: i in items && i != itemId ==> r.value[i] == items[i])
      && |InSlot(r.value, id, BAG)| == |InSlot(items, id, BAG)| + 1
  {
    if id !in w then Failure(Rejected)
    else if BattleEndsAt(w).None? then Failure(MissingCooldown)
    else if !ValidateResting(w[id], BattleEndsAt(w).value, now, false) || !ValidateInv(w[id], items, id) then
      Failure(Rejected)
    else if itemId !in items || items[itemId].owner != id || items[itemId].slot == BAG then Failure(Rejected)
    else
      var r := items[itemId := items[itemId].(slot := BAG)];
      assert InSlot(r, id, BAG) == InSlot(items, id, BAG) + {itemId};
      Success(r)
  }

  /** Taking off what was just put on, with a hand free and room in the bag, restores the
      items exactly. */
  lemma EquipUnequipRoundTrip(w: World, items: Items, id: int, itemId: int, hands: seq<int>, now: int)
    requires HandOrder(items, id, hands) && |hands| < 2
    requires Equip(w, items, id, itemId, hands, now).Success?
    requires |InSlot(items, id, BAG)| <= w[id].invSize
    ensures Unequip(w, Equip(w, items, id, itemId, hands, now).value, id, itemId, now) == Success(items)
  {
    var on := Equip(w, items, id, itemId, hands, now).value;
    assert InSlot(on, id, BAG) == InSlot(items, id, BAG) - {itemId};
    var off := Unequip(w, on, id, itemId, now);
    assert off.Success?;
    assert off.value == items;
  }
}

=== FILE: ledger.dfy ===
/** The cooldowns one owner holds: rows of the `cooldown` table keyed by (kind, owner), kept in
    the order the relationship list holds them. */
module Ledger {
  import opened Wrappers

  /** A pending timer: the activity or world event it belongs to (the `id` column) and the
      timestamp at which the cooldown loop picks it up. */
  datatype Cooldown = Cooldown(kind: int, endsAt: int)

  predicate HasKind(cs: seq<Cooldown>, kind: int) {
    exists i :: 0 <= i < |cs| && cs[i].kind == kind
  }

  /** The primary key (kind, owner): an owner never holds two cooldowns of one kind. The
      quantifier only fires on `KindAt` terms, so a proof that uses it names the positions. */
  predicate UniqueKinds(cs: seq<Cooldown>) {
    forall i, j {:trigger KindAt(cs, i), KindAt(cs, j)} :: 0 <= i < j < |cs| ==> KindAt(cs, i) != KindAt(cs, j)
  }

  function KindAt(cs: seq<Cooldown>, i: int): int
    requires 0 <= i < |cs|
  {
    cs[i].kind
  }

  /** The cooldowns of every other kind, in order. */
  function Without(cs: seq<Cooldown>, kind: int): (r: seq<Cooldown>)
    ensures forall i :: 0 <= i < |r| ==> r[i].kind != kind
    ensures |r| <= |cs|
  {
    if |cs| == 0 then []
    else if cs[0].kind == kind then Without(cs[1..], kind)
    else [cs[0]] + Without(cs[1..], kind)
  }

  lemma {:induction false} WithoutAppend(a: seq<Cooldown>, b: seq<Cooldown>, kind: int)
    ensures Without(a + b, kind) == Without(a, kind) + Without(b, kind)
    decreases |a|
  {
    if |a| > 0 {
      assert (a + b)[1..] == a[1..] + b;
      WithoutAppend(a[1..], b, kind);
    } else {
      assert a + b == b;
    }
  }

  lemma {:induction false} WithoutAbsent(cs: seq<Cooldown>, kind: int)
    requires !HasKind(cs, kind)
    ensures Without(cs, kind) == cs
    decreases |cs|
  {
    if |cs| > 0 {
      assert cs[0].kind != kind;
      assert !HasKind(cs[1..], kind) by {
        forall i | 0 <= i < |cs[1..]|
          ensures cs[1..][i].kind != kind
        {
          assert cs[1..][i] == cs[i + 1];
        }
      }
      WithoutAbsent(cs[1..], kind);
    }
  }

  /** The search loop `for i, c in enumerate(cooldowns): if c.id == kind: index = i; break`:
      the position of the first cooldown of `kind`, or -1. */
  function FirstIndex(cs: seq<Cooldown>, kind: int): (r: int)
    ensures -1 <= r < |cs|
    ensures r >= 0 ==> cs[r].kind == kind && forall i :: 0 <= i < r ==> cs[i].kind != kind
    ensures r == -1 <==> !HasKind(cs, kind)
    decreases |cs|
  {
    if |cs| == 0 then -1
    else if cs[0].kind == kind then 0
    else
      var k := FirstIndex(cs[1..], kind);
      if k < 0 then -1 else k + 1
  }

  /** The first position holding `kind` is the one the search finds. */
  lemma {:induction false} FirstIndexAt(cs: seq<Cooldown>, kind: int, i: int)
    requires 0 <= i < |cs| && cs[i].kind == kind
    requires forall j :: 0 <= j < i ==> cs[j].kind != kind
    ensures FirstIndex(cs, kind) == i
    decreases i
  {
    if i > 0 {
      assert cs[1..][i - 1] == cs[i];
      forall j | 0 <= j < i - 1
        ensures cs[1..][j].kind != kind
      {
        assert cs[1..][j] == cs[j + 1];
      }
      FirstIndexAt(cs[1..], kind, i - 1);
    }
  }

  /** When the first cooldown of `kind` expires; `None` when the owner holds none. */
  function EndsAt(cs: seq<Cooldown>, kind: int): (r: Option<int>)
    ensures r.Some? <==> HasKind(cs, kind)
    ensures r.Some? ==> Cooldown(kind, r.value) in cs
    decreases |cs|
  {
    if |cs| == 0 then None
    else if cs[0].kind == kind then Some(cs[0].endsAt)
    else
      assert HasKind(cs, kind) <==> HasKind(cs[1..], kind) by {
        if HasKind(cs, kind) {
          var i :| 0 <= i < |cs| && cs[i].kind == kind;
          assert cs[1..][i - 1] == cs[i];
        }
        if HasKind(cs[1..], kind) {
          var i :| 0 <= i < |cs[1..]| && cs[1..][i].kind == kind;
          assert cs[i + 1] == cs[1..][i];
        }
      }
      EndsAt(cs[1..], kind)
  }

  /** The expiry found is the one at the position the search loop finds. */
  lemma {:induction false} EndsAtFirstIndex(cs: seq<Cooldown>, kind: int)
    ensures FirstIndex(cs, kind) >= 0 ==> EndsAt(cs, kind) == Some(cs[FirstIndex(cs, kind)].endsAt)
    decreases |cs|
  {
    if |cs| > 0 && cs[0].kind != kind {
      EndsAtFirstIndex(cs[1..], kind);
    }
  }

  /** `cooldowns.pop(index)` of the first cooldown of `kind`, if there is one. */
  function RemoveFirst(cs: seq<Cooldown>, kind: int): (r: seq<Cooldown>)
    ensures Without(r, kind) == Without(cs, kind)
    ensures HasKind(cs, kind) ==> |r| == |cs| - 1
    ensures !HasKind(cs, kind) ==> r == cs
    ensures UniqueKinds(cs) ==> UniqueKinds(r) && !HasKind(r, kind)
  {
    var i := FirstIndex(cs, kind);
    if i < 0 then cs
    else
      var r := cs[..i] + cs[i + 1..];
      assert cs == cs[..i] + [cs[i]] + cs[i + 1..];
      WithoutAppend(cs[..i] + [cs[i]], cs[i + 1..], kind);
      WithoutAppend(cs[..i], [cs[i]], kind);
      WithoutAppend(cs[..i], cs[i + 1..], kind);
      assert Without([cs[i]], kind) == [] by {
        assert [cs[i]][1..] == [];
      }
      if UniqueKinds(cs) then RemoveAtUnique(cs, i); r else r
  }

  /** Dropping the cooldown at position `i` of a ledger without repeated kinds leaves one
      without repeated kinds, and without that kind at all. */
  lemma RemoveAtUnique(cs: seq<Cooldown>, i: int)
    requires 0 <= i < |cs| && UniqueKinds(cs)
    ensures UniqueKinds(cs[..i] + cs[i + 1..])
    ensures !HasKind(cs[..i] + cs[i + 1..], cs[i].kind)
  {
    var r := cs[..i] + cs[i + 1..];
    forall j | 0 <= j < |r|
      ensures r[j].kind != cs[i].kind
    {
      if j < i {
        assert r[j] == cs[j] && KindAt(cs, j) != KindAt(cs, i);
      } else {
        assert r[j] == cs[j + 1] && KindAt(cs, i) != KindAt(cs, j + 1);
      }
    }
    forall a, b | 0 <= a < b < |r|
      ensures r[a].kind != r[b].kind
    {
      var a' := if a < i then a else a + 1;
      var b' := if b < i then b else b + 1;
      assert r[a] == cs[a'] && r[b] == cs[b'];
      assert KindAt(cs, a') != KindAt(cs, b');
    }
  }

  /** Moves the expiry of the first cooldown of `kind` to `endsAt`, keeping everything else. */
  function Reschedule(cs: seq<Cooldown>, kind: int, endsAt: int): (r: seq<Cooldown>)
    ensures |r| == |cs|
    ensures forall i :: 0 <= i < |cs| ==> r[i].kind == cs[i].kind
    ensures Without(r, kind) == Without(cs, kind)
    ensures HasKind(cs, kind) ==> EndsAt(r, kind) == Some(endsAt)
    ensures UniqueKinds(cs) ==> UniqueKinds(r)
  {
    var i := FirstIndex(cs, kind);
    if i < 0 then cs
    else
      var r := cs[i := Cooldown(kind, endsAt)];
      assert cs == cs[..i] + [cs[i]] + cs[i + 1..];
      assert r == cs[..i] + [Cooldown(kind, endsAt)] + cs[i + 1..];
      WithoutAppend(cs[..i] + [cs[i]], cs[i + 1..], kind);
      WithoutAppend(cs[..i], [cs[i]], kind);
      WithoutAppend(cs[..i] + [Cooldown(kind, endsAt)], cs[i + 1..], kind);
      WithoutAppend(cs[..i], [Cooldown(kind, endsAt)], kind);
      assert Without([cs[i]], kind) == [] by {
        assert [cs[i]][1..] == [];
      }
      assert Without([Cooldown(kind, endsAt)], kind) == [] by {
        assert [Cooldown(kind, endsAt)][1..] == [];
      }
      FirstIndexAt(r, kind, i);
      EndsAtFirstIndex(r, kind);
      assert UniqueKinds(cs) ==> UniqueKinds(r) by {
        if UniqueKinds(cs) {
          forall a, b | 0 <= a < b < |r|
            ensures KindAt(r, a) != KindAt(r, b)
          {
            assert KindAt(cs, a) != KindAt(cs, b);
          }
        }
      }
      r
  }

  /** The pattern `if resource < max and no cooldown of kind: append one`: a regeneration timer
      is started when one is due and none is running. */
  function StartTimer(cs: seq<Cooldown>, kind: int, endsAt: int, due: bool): (r: seq<Cooldown>)
    ensures HasKind(r, kind) <==> HasKind(cs, kind) || due
    ensures Without(r, kind) == Without(cs, kind)
    ensures !HasKind(cs, kind) && due ==> EndsAt(r, kind) == Some(endsAt)
    ensures HasKind(cs, kind) ==> r == cs
    ensures UniqueKinds(cs) ==> UniqueKinds(r)
  {
    if due && !HasKind(cs, kind) then Append(cs, Cooldown(kind, endsAt)) else cs
  }

  /** `cooldowns.append(c)` of a kind the owner does not hold yet, as the primary key demands. */
  function Append(cs: seq<Cooldown>, c: Cooldown): (r: seq<Cooldown>)
    requires !HasKind(cs, c.kind)
    ensures HasKind(r, c.kind) && EndsAt(r, c.kind) == Some(c.endsAt)
    ensures Without(r, c.kind) == cs
    ensures forall k :: k != c.kind ==> (HasKind(r, k) <==> HasKind(cs, k))
    ensures forall k :: k != c.kind ==> Without(r, k) == Without(cs, k) + [c]
    ensures UniqueKinds(cs) ==> UniqueKinds(r)
    ensures RemoveFirst(r, c.kind) == cs
  {
    var r := cs + [c];
    assert r[|cs|] == c;
    forall k | k != c.kind
      ensures Without(r, k) == Without(cs, k) + [c]
    {
      WithoutAppend(cs, [c], k);
      assert [c][1..] == [];
    }
    WithoutAppend(cs, [c], c.kind);
    assert [c][1..] == [];
    WithoutAbsent(cs, c.kind);
    forall k | k != c.kind
      ensures HasKind(r, k) <==> HasKind(cs, k)
    {
      if HasKind(r, k) {
        var i :| 0 <= i < |r| && r[i].kind == k;
        assert i < |cs|;
        assert cs[i] == r[i];
      }
      if HasKind(cs, k) {
        var i :| 0 <= i < |cs| && cs[i].kind == k;
        assert r[i] == cs[i];
      }
    }
    FirstIndexAt(r, c.kind, |cs|);
    EndsAtFirstIndex(r, c.kind);
    assert r[..|cs|] == cs;
    assert UniqueKinds(cs) ==> UniqueKinds(r) by {
      if UniqueKinds(cs) {
        forall a, b | 0 <= a < b < |r|
          ensures KindAt(r, a) != KindAt(r, b)
        {
          if b < |cs| {
            assert KindAt(cs, a) != KindAt(cs, b);
          } else {
            assert r[a] == cs[a];
          }
        }
      }
    }
    r
  }
}

=== FILE: legacy.dfy ===
/** The legacy `simplebot_deltaland` package. Its `Player` methods and gates are the ones of the
    newer game, so the model reuses them; what differs is modelled here: the goblin raid where
    everybody fights and a loss costs gold, the cauldron gift that grows with the coins thrown,
    the unconditional regeneration ticks, the quest end, and the `/start`, `/quest` and `/dice`
    command gates. */
module Legacy {
  import opened Wrappers
  import opened Consts
  import opened Ledger
  import opened Combat
  import opened Orm
  import opened Quests
  import opened Dice
  import opened Processor

  // ---------------------------------------------------------------- admission

  /** `get_players`: every player row with a positive id, so never the world. */
  function Players(w: World): (r: set<int>)
    ensures WORLD_ID !in r
    ensures forall id :: id in r <==> id in w && id > 0
  {
    set id | id in w && id > 0
  }

  /** `/start`: a contact already in the game is told so and nothing is inserted; a newcomer is
      refused while `0 < max_players <= ` the number of players (so 0, or less, means no
      limit), and is otherwise inserted with the default record. */
  function Start(w: World, id: int, maxPlayers: int): (r: Result<World, Fault>)
    ensures r.Success? <==> id !in w && !(0 < maxPlayers <= |Players(w)|)
    ensures r.Failure? ==> r.error == Rejected
    ensures r.Success? ==> r.value.Keys == w.Keys + {id} && r.value[id] == NewPlayer()
    ensures r.Success? ==> forall o :: o in w ==> r.value[o] == w[o]
    ensures r.Success? && id > 0 ==> |Players(r.value)| == |Players(w)| + 1
    ensures r.Success? && id <= 0 ==> Players(r.value) == Players(w)
  {
    if id in w then Failure(Rejected)
    else if 0 < maxPlayers <= |Players(w)| then Failure(Rejected)
    else
      Admit(w, id, NewPlayer());
      Success(w[id := NewPlayer()])
  }

  /** Inserting a new row adds one to the player count, unless its id is not a player's. */
  lemma Admit(w: World, id: int, p: Player)
    requires id !in w
    ensures id > 0 ==> |Players(w[id := p])| == |Players(w)| + 1
    ensures id <= 0 ==> Players(w[id := p]) == Players(w)
  {
    if id > 0 {
      assert Players(w[id := p]) == Players(w) + {id};
      assert id !in Players(w);
    } else {
      assert Players(w[id := p]) == Players(w);
    }
  }

  /** A run of `/start` commands from the contacts `ids`, in order; a refused one changes
      nothing. Nobody already in the game is touched, and every new row is one of the askers'
      with the default record. */
  function Starts(w: World, ids: seq<int>, maxPlayers: int): (r: World)
    ensures forall o :: o in w ==> o in r && r[o] == w[o]
    ensures forall o :: o in r && o !in w ==> o in ids && r[o] == NewPlayer()
    decreases |ids|
  {
    if |ids| == 0 then w
    else
      var w1 := match Start(w, ids[0], maxPlayers) case Success(v) => v case Failure(_) => w;
      Starts(w1, ids[1..], maxPlayers)
  }

  /** However many contacts ask to join, a positive `max_players` that was not exceeded is never
      exceeded, and nobody already in the game is reset. */
  lemma {:induction false} StartsKeepCap(w: World, ids: seq<int>, maxPlayers: int)
    requires 0 < maxPlayers && |Players(w)| <= maxPlayers
    ensures |Players(Starts(w, ids, maxPlayers))| <= maxPlayers
    ensures forall o :: o in w ==> o in Starts(w, ids, maxPlayers) && Starts(w, ids, maxPlayers)[o] == w[o]
    decreases |ids|
  {
    if |ids| > 0 {
      var w1 := match Start(w, ids[0], maxPlayers) case Success(v) => v case Failure(_) => w;
      assert |Players(w1)| <= maxPlayers;
      assert forall o :: o in w ==> o in w1 && w1[o] == w[o];
      StartsKeepCap(w1, ids[1..], maxPlayers);
    }
  }

  /** Without a limit every contact in the run ends up in the game. */
  lemma {:induction false} StartsUnlimited(w: World, ids: seq<int>, maxPlayers: int)
    requires maxPlayers <= 0
    ensures forall id :: id in w ==> id in Starts(w, ids, maxPlayers)
    ensures forall i :: 0 <= i < |ids| ==> ids[i] in Starts(w, ids, maxPlayers)
    decreases |ids|
  {
    if |ids| > 0 {
      var w1 := match Start(w, ids[0], maxPlayers) case Success(v) => v case Failure(_) => w;
      assert ids[0] in w1 && w.Keys <= w1.Keys;
      StartsUnlimited(w1, ids[1..], maxPlayers);
      forall i | 0 <= i < |ids|
        ensures ids[i] in Starts(w, ids, maxPlayers)
      {
        if i > 0 {
          assert ids[i] == ids[1..][i - 1];
        }
      }
    }
  }

  // ---------------------------------------------------------------- command gates

  /** The legacy `validate_resting` of the commands: only the state counts; the goblin raid is
      not looked at. */
  predicate LegacyResting(p: Player) {
    p.state == REST
  }

  /** The legacy gate is the newer one with the raid guard switched off: it accepts the same
      players, wherever the raid stands. */
  lemma LegacyRestingIgnoresRaid(p: Player, battleEndsAt: int, now: int)
    ensures LegacyResting(p) <==> ValidateResting(p, battleEndsAt, now, true)
    ensures LegacyResting(p) && battleEndsAt - now <= BATTLE_GUARD ==> !ValidateResting(p, battleEndsAt, now, false)
  {
  }

  /** `/dice`: `play_dice` runs only for a resting player who can pay the fee; anyone else only
      gets a message. */
  function LegacyDice(w: World, id: int, waiter: Option<int>, joining: seq<int>, waiting: seq<int>, now: int)
    : (r: Result<World, Fault>)
    requires WaiterChoice(w, waiter) && (waiter.Some? ==> Sum(joining) != Sum(waiting))
    ensures id !in w || !LegacyResting(w[id]) || !ValidateGold(w[id], DICE_FEE) ==> r == Failure(Rejected)
    ensures r.Success? ==> id in w && r.value.Keys == w.Keys
    ensures r.Success? ==> w[id].state == REST && w[id].gold >= DICE_FEE && r.value[id].gold >= 0
    ensures r.Success? ==> forall o :: o in w && o != id && Some(o) != waiter ==> r.value[o] == w[o]
    ensures id in w && LegacyResting(w[id]) && ValidateGold(w[id], DICE_FEE) && waiter.None? ==>
      && r.Success? && Waiting(r.value) == {id}
      && r.value[id].gold == w[id].gold - DICE_FEE && r.value[id].state == PLAYING_DICE
    ensures r.Success? && waiter.Some? ==> r.value[id].state == REST && r.value[waiter.value].state == REST
  {
    if id !in w || !LegacyResting(w[id]) || !ValidateGold(w[id], DICE_FEE) then Failure(Rejected)
    else PlayDice(w, id, waiter, joining, waiting, now)
  }

  // ---------------------------------------------------------------- quests

  /** The legacy quest list holds one quest, the town stroll. */
  const STROLL: Quest := Quest(1, 60 * 5, 1, 0)
  const LEGACY_QUESTS: seq<Quest> := [STROLL]

  /** The gold of each reward the stroll lists. */
  const STROLL_REWARDS: seq<int> := [0, 1, 1, 1, 2, 2, 2, 2, 2, 2, 3, 3]

  /** The legacy `get_quest`: the quest at position `id - 1` of the legacy list. */
  function LegacyGetQuest(questId: int): (r: Option<Quest>)
    ensures r.Some? <==> questId == STROLL.id
    ensures r.Some? ==> r.value == STROLL
  {
    var index := questId - 1;
    if 0 <= index < |LEGACY_QUESTS| then Some(LEGACY_QUESTS[index]) else None
  }

  /** `quest_cmd`: a resting player starts a known quest they have the stamina for. The state
      becomes the quest id, the quest's cooldown runs for its duration, the stamina is spent, and
      a REST timer starts if stamina is now below max and none runs. An unknown id, a busy or a
      tired player only get a message; a quest cooldown already held clashes on its key. */
  function LegacyQuestCmd(w: World, id: int, questId: int, now: int): (r: Result<World, Fault>)
    ensures r.Success? <==>
      && id in w && LegacyResting(w[id]) && LegacyGetQuest(questId).Some?
      && ValidateStamina(w[id], LegacyGetQuest(questId).value.staminaCost)
      && !HasKind(w[id].cooldowns, questId)
    ensures r.Failure? && (id !in w || !LegacyResting(w[id]) || LegacyGetQuest(questId).None?) ==>
      r.error == Rejected
    ensures r.Success? ==> r.value.Keys == w.Keys
    ensures r.Success? ==> forall o :: o in w && o != id ==> r.value[o] == w[o]
    ensures r.Success? ==>
      && r.value[id].state == questId
      && 0 <= r.value[id].stamina == w[id].stamina - STROLL.staminaCost
      && EndsAt(r.value[id].cooldowns, questId) == Some(now + STROLL.duration)
      && r.value[id].gold == w[id].gold && r.value[id].hp == w[id].hp
      && (HasKind(r.value[id].cooldowns, REST) <==>
            HasKind(w[id].cooldowns, REST) || r.value[id].stamina < w[id].maxStamina)
  {
    if id !in w || !LegacyResting(w[id]) then Failure(Rejected)
    else match LegacyGetQuest(questId)
      case None => Failure(Rejected)
      case Some(q) =>
        if !ValidateStamina(w[id], q.staminaCost) then Failure(Rejected)
        else if HasKind(w[id].cooldowns, q.id) then Failure(Conflict)
        else
          StartQuestTimers(w[id], q.id, q.duration, q.staminaCost, now);
          Success(w[id := StartQuest(w[id], q.id, q.duration, q.staminaCost, now)])
  }

  /** `_process_quest_cooldown` as written: for a known quest it calls `quest.get_reward`, a
      method the legacy `Quest` class does not define. The call raises before anything is
      changed, so the cooldown is not deleted either; an unknown id only loses its cooldown. */
  function LegacyQuestExpiryAsWritten(w: World, id: int, kind: int): (r: Result<World, Fault>)
    requires id in w
    ensures r.Failure? <==> LegacyGetQuest(kind).Some?
    ensures r.Failure? ==> r.error == MissingMethod
    ensures r.Success? ==> r.value.Keys == w.Keys && forall o :: o in w && o != id ==> r.value[o] == w[o]
    ensures r.Success? && UniqueKinds(w[id].cooldowns) ==> !HasKind(r.value[id].cooldowns, kind)
  {
    if LegacyGetQuest(kind).Some? then Failure(MissingMethod)
    else Success(w[id := w[id].(cooldowns := RemoveFirst(w[id].cooldowns, kind))])
  }

  /** As written, a stroll never ends: once started, its expiry raises every time, and the
      player, whose state stays the quest id, is refused every later quest and every game of
      dice. */
  lemma StrollNeverEnds(w: World, id: int, now: int, questId: int, waiter: Option<int>, joining: seq<int>, waiting: seq<int>)
    requires LegacyQuestCmd(w, id, STROLL.id, now).Success?
    requires WaiterChoice(LegacyQuestCmd(w, id, STROLL.id, now).value, waiter)
    requires waiter.Some? ==> Sum(joining) != Sum(waiting)
    ensures var started := LegacyQuestCmd(w, id, STROLL.id, now).value;
      && LegacyQuestExpiryAsWritten(started, id, STROLL.id) == Failure(MissingMethod)
      && HasKind(started[id].cooldowns, STROLL.id)
      && LegacyQuestCmd(started, id, questId, now) == Failure(Rejected)
      && LegacyDice(started, id, waiter, joining, waiting, now) == Failure(Rejected)
  {
  }

  /** `_process_quest_cooldown` with the reward drawn, as the stroll's reward list evidently
      means, from that list: the player of a known quest rests again with the reward's gold, and
      the cooldown is deleted whether or not the quest is known. */
  function LegacyQuestExpiry(w: World, id: int, kind: int, reward: int): (r: World)
    requires id in w && reward in STROLL_REWARDS
    ensures r.Keys == w.Keys
    ensures forall o :: o in w && o != id ==> r[o] == w[o]
    ensures LegacyGetQuest(kind).Some? ==>
      r[id].state == REST && w[id].gold <= r[id].gold == w[id].gold + reward <= w[id].gold + 3
    ensures LegacyGetQuest(kind).None? ==> r[id].state == w[id].state && r[id].gold == w[id].gold
    ensures r[id] == w[id].(state := r[id].state, gold := r[id].gold, cooldowns := r[id].cooldowns)
    ensures Without(r[id].cooldowns, kind) == Without(w[id].cooldowns, kind)
    ensures UniqueKinds(w[id].cooldowns) ==> UniqueKinds(r[id].cooldowns) && !HasKind(r[id].cooldowns, kind)
  {
    var p := w[id];
    var ended := if LegacyGetQuest(kind).Some? then p.(gold := p.gold + reward, state := REST) else p;
    w[id := ended.(cooldowns := RemoveFirst(ended.cooldowns, kind))]
  }

  /** A stroll from start to end: the player rests again, one stamina point poorer, richer by the
      reward, with no quest cooldown left and every cooldown other than the REST timer as it was
      before. */
  lemma StrollRoundTrip(w: World, id: int, now: int, reward: int)
    requires LegacyQuestCmd(w, id, STROLL.id, now).Success?
    requires UniqueKinds(w[id].cooldowns) && reward in STROLL_REWARDS
    ensures var r := LegacyQuestExpiry(LegacyQuestCmd(w, id, STROLL.id, now).value, id, STROLL.id, reward);
      && LegacyResting(r[id])
      && r[id].gold == w[id].gold + reward
      && r[id].stamina == w[id].stamina - STROLL.staminaCost
      && !HasKind(r[id].cooldowns, STROLL.id)
      && UniqueKinds(r[id].cooldowns)
      && Without(r[id].cooldowns, REST) == Without(w[id].cooldowns, REST)
  {
    var p := w[id];
    var started := LegacyQuestCmd(w, id, STROLL.id, now).value;
    var r := LegacyQuestExpiry(started, id, STROLL.id, reward);
    var s := started[id].cooldowns;
    var e := r[id].cooldowns;
    assert s == StartQuest(p, STROLL.id, STROLL.duration, STROLL.staminaCost, now).cooldowns;
    assert !HasKind(p.cooldowns, STROLL.id);
    StartQuestTimers(p, STROLL.id, STROLL.duration, STROLL.staminaCost, now);
    WithoutAbsent(p.cooldowns, STROLL.id);
    WithoutAbsent(e, STROLL.id);
    WithoutCommutes(e, REST, STROLL.id);
    WithoutCommutes(s, REST, STROLL.id);
    WithoutCommutes(p.cooldowns, REST, STROLL.id);
    assert Without(e, STROLL.id) == Without(s, STROLL.id);
    assert Without(Without(s, REST), STROLL.id) == Without(Without(p.cooldowns, REST), STROLL.id);
  }

  // ---------------------------------------------------------------- the goblin raid

  /** The draws of one legacy fight: the goblin's tactic (NONE included) and the gold at stake. */
  datatype LegacyDraw = LegacyDraw(monster: Tactic, gold: int)

  /** The gold at stake is drawn from `[(level + 1) // 2, level + 1]`. */
  predicate IsLegacyDraw(level: int, d: LegacyDraw) {
    (level + 1) / 2 <= d.gold <= level + 1
  }

  /** The branch table of the legacy `_process_world_battle` for a player fighting with `t`:
      a victory pays the stake, a loss takes the stake or whatever gold is left and deals
      `max_hp // 3`, a wounding tie deals half of that, and a clean tie changes nothing. A
      player with no tactic matches no arm and loses. No experience is given. The nine arms of
      the code are the outcome table `Classify` states, so the arms are chosen by outcome. */
  function LegacyFight(p: Player, t: Tactic, d: LegacyDraw, now: int): (r: (Player, Report))
    ensures r.1.tactic == t && r.1.monsterTactic == d.monster && r.1.exp == 0
    ensures r.0.gold == p.gold + r.1.gold && r.0.hp == p.hp + r.1.hp
    ensures Classify(t, d.monster) == Victory ==> r.1.gold == d.gold && r.1.hp == 0
    ensures Classify(t, d.monster) == Defeat ==>
      r.1.gold == -Min(p.gold, d.gold) && r.1.hp == -Min(p.hp - 1, p.maxHp / 3)
    ensures Classify(t, d.monster) == WoundedTie ==> r.1.gold == 0 && r.1.hp == -Min(p.hp - 1, p.maxHp / 3 / 2)
    ensures Classify(t, d.monster) == CleanTie ==> r.0 == p && r.1.gold == 0 && r.1.hp == 0
    ensures Without(r.0.cooldowns, HEALING) == Without(p.cooldowns, HEALING)
    ensures UniqueKinds(p.cooldowns) ==> UniqueKinds(r.0.cooldowns)
    ensures r.0 == p.(gold := r.0.gold, hp := r.0.hp, cooldowns := r.0.cooldowns)
  {
    var hit := p.maxHp / 3;
    match Classify(t, d.monster)
    case Victory => LegacyWin(p, t, d)
    case Defeat => LegacyLoss(p, t, d, hit, now)
    case WoundedTie => LegacyTie(p, t, d, hit / 2, now)
    case CleanTie => (p, Report(t, d.monster, 0, 0, 0))
  }

  /** A winning arm: the stake is paid and reported. */
  function LegacyWin(p: Player, t: Tactic, d: LegacyDraw): (r: (Player, Report))
    ensures r.1 == Report(t, d.monster, 0, 0, d.gold)
    ensures r.0 == p.(gold := p.gold + d.gold)
  {
    (p.(gold := p.gold + d.gold), Report(t, d.monster, 0, 0, d.gold))
  }

  /** A losing arm: `-min(gold, stake)` is reported and paid, then `-reduce_hp(n)`. */
  function LegacyLoss(p: Player, t: Tactic, d: LegacyDraw, n: int, now: int): (r: (Player, Report))
    ensures r.1 == Report(t, d.monster, -Min(p.hp - 1, n), 0, -Min(p.gold, d.gold))
    ensures r.0.gold == p.gold - Min(p.gold, d.gold) && r.0.hp == p.hp - Min(p.hp - 1, n)
    ensures p.hp >= 1 && n >= 0 ==> 1 <= r.0.hp <= p.hp
    ensures Without(r.0.cooldowns, HEALING) == Without(p.cooldowns, HEALING)
    ensures UniqueKinds(p.cooldowns) ==> UniqueKinds(r.0.cooldowns)
    ensures r.0 == p.(gold := r.0.gold, hp := r.0.hp, cooldowns := r.0.cooldowns)
  {
    var lost := -Min(p.gold, d.gold);
    var (q, taken) := ReduceHp(p.(gold := p.gold + lost), n, now);
    (q, Report(t, d.monster, -taken, 0, lost))
  }

  /** A wounding tie: `-reduce_hp(n)` only. */
  function LegacyTie(p: Player, t: Tactic, d: LegacyDraw, n: int, now: int): (r: (Player, Report))
    ensures r.1 == Report(t, d.monster, -Min(p.hp - 1, n), 0, 0)
    ensures r.0.gold == p.gold && r.0.hp == p.hp - Min(p.hp - 1, n)
    ensures p.hp >= 1 && n >= 0 ==> 1 <= r.0.hp <= p.hp
    ensures Without(r.0.cooldowns, HEALING) == Without(p.cooldowns, HEALING)
    ensures UniqueKinds(p.cooldowns) ==> UniqueKinds(r.0.cooldowns)
    ensures r.0 == p.(hp := r.0.hp, cooldowns := r.0.cooldowns)
  {
    var (q, taken) := ReduceHp(p, n, now);
    (q, Report(t, d.monster, -taken, 0, 0))
  }

  /** A legacy fight leaves gold that was not negative not negative (the stake is at least 0),
      and hp within `[1, hp]` (for a maximum hp of 0 or more). */
  lemma LegacyFightBounds(p: Player, t: Tactic, d: LegacyDraw, now: int)
    ensures p.gold >= 0 && d.gold >= 0 ==> LegacyFight(p, t, d, now).0.gold >= 0
    ensures p.hp >= 1 && p.maxHp >= 0 ==> 1 <= LegacyFight(p, t, d, now).0.hp <= p.hp
  {
    var r := LegacyFight(p, t, d, now);
    match Classify(t, d.monster)
    case Victory =>
    case CleanTie =>
    case WoundedTie =>
      assert p.maxHp >= 0 ==> p.maxHp / 3 / 2 >= 0;
    case Defeat =>
      assert p.maxHp >= 0 ==> p.maxHp / 3 >= 0;
  }

  /** The legacy and the newer raid agree on a fight with a real tactic in everything but the
      loser's gold and the experience: the same hp changes and, when the player did not lose,
      the same gold. */
  lemma LegacyFightAgrees(p: Player, t: Tactic, d: BattleDraw, now: int)
    requires t != NoTactic
    ensures LegacyFight(p, t, LegacyDraw(d.monster, d.gold), now).1.hp == Fight(p, t, d, now).1.hp
    ensures Classify(t, d.monster) != Defeat ==>
      LegacyFight(p, t, LegacyDraw(d.monster, d.gold), now).0 == Fight(p, t, d, now).0
    ensures Classify(t, d.monster) == Defeat ==>
      LegacyFight(p, t, LegacyDraw(d.monster, d.gold), now).0.gold == p.gold - Min(p.gold, d.gold)
      && Fight(p, t, d, now).0.gold == p.gold
  {
    FightReport(p, t, d, now);
    var ld := LegacyDraw(d.monster, d.gold);
    var hit := p.maxHp / 3;
    var lf := LegacyFight(p, t, ld, now);
    var f := Fight(p, t, d, now);
    match Classify(t, d.monster)
    case Victory =>
      assert lf == LegacyWin(p, t, ld);
      assert f == Won(p, t, d);
    case CleanTie =>
      assert f.0 == p;
    case WoundedTie =>
      assert lf == LegacyTie(p, t, ld, hit / 2, now);
      assert f == Wounded(p, t, d, hit / 2, Max(d.baseExp / 2, 1), now);
    case Defeat =>
  }

  /** The lose message of a legacy report: for a player of level 1 or more, whose stake is at
      least 1, the goblin is said to take gold exactly when the player had some. */
  lemma LegacyLoseNote(p: Player, t: Tactic, d: LegacyDraw, now: int)
    requires Classify(t, d.monster) == Defeat && IsLegacyDraw(p.level, d) && p.level >= 1 && p.gold >= 0
    ensures LoseNoteOf(LegacyFight(p, t, d, now).1.gold) == TookGold <==> p.gold > 0
  {
  }

  /** One player's turn in the legacy raid: the chosen tactic (NONE when there is none) is
      consumed, the fight is fought, its report replaces the old one, and a victory adds one
      to the player's victory count, which starts at 0. */
  function LegacyBattleRound(p: Player, d: LegacyDraw, now: int): (r: Player)
    ensures r.battleTactic == None
    ensures r.battleReport.Some? && r.battleReport.value.tactic == p.battleTactic.GetOr(NoTactic)
    ensures r.battleReport.value.monsterTactic == d.monster && r.battleReport.value.exp == 0
    ensures r.gold == p.gold + r.battleReport.value.gold && r.hp == p.hp + r.battleReport.value.hp
    ensures p.battleTactic.None? ==>
      r.gold == p.gold - Min(p.gold, d.gold) && r.hp == p.hp - Min(p.hp - 1, p.maxHp / 3)
    ensures r.level == p.level && r.exp == p.exp
    ensures r.victories ==
      if Classify(p.battleTactic.GetOr(NoTactic), d.monster) == Victory then Some(p.victories.GetOr(0) + 1) else p.victories
    ensures r.state == p.state && r.stamina == p.stamina && r.maxHp == p.maxHp
    ensures p.gold >= 0 && d.gold >= 0 ==> r.gold >= 0
    ensures p.hp >= 1 && p.maxHp >= 0 ==> 1 <= r.hp <= p.hp
    ensures Without(r.cooldowns, HEALING) == Without(p.cooldowns, HEALING)
    ensures UniqueKinds(p.cooldowns) ==> UniqueKinds(r.cooldowns)
  {
    var t := if p.battleTactic.Some? then p.battleTactic.value else NoTactic;
    var (q, rep) := LegacyFight(p, t, d, now);
    LegacyFightBounds(p, t, d, now);
    var won := Classify(t, d.monster) == Victory;
    q.(battleReport := Some(rep), battleTactic := None,
       victories := if won then Some(p.victories.GetOr(0) + 1) else p.victories)
  }

  /** The ids the legacy raid visits: every player but the world, each exactly once. */
  predicate LegacyFighters(w: World, order: seq<int>) {
    && (forall i, j :: 0 <= i < j < |order| ==> order[i] != order[j])
    && (forall i :: 0 <= i < |order| ==> order[i] in Players(w))
    && (forall id :: id in Players(w) ==> id in order)
  }

  /** The loop over `get_players`: each player's turn, one after the other. A turn reads and
      writes its own player only, so the loop writes each turn's result over its player. */
  function LegacyBattle(w: World, order: seq<int>, draws: seq<LegacyDraw>, now: int): (r: World)
    requires |draws| == |order|
    requires forall i, j :: 0 <= i < j < |order| ==> order[i] != order[j]
    requires forall i :: 0 <= i < |order| ==> order[i] in w
    ensures r.Keys == w.Keys
    ensures forall id :: id in w && id !in order ==> r[id] == w[id]
    ensures forall i :: 0 <= i < |order| ==> r[order[i]] == LegacyBattleRound(w[order[i]], draws[i], now)
  {
    Overwrite(w, order, seq(|order|, i requires 0 <= i < |order| => LegacyBattleRound(w[order[i]], draws[i], now)))
  }

  /** What the legacy raid does to one player: a report exists and no tactic is left, level,
      experience stay, victories stay or rise by one, gold does not go negative (for a player of level 0 or
      more), hp stays at least 1, and no timer other than HEALING moved. */
  ghost predicate LegacyAftermath(p: Player, q: Player) {
    && q.battleTactic.None? && q.battleReport.Some?
    && q.level == p.level && q.exp == p.exp
    && (q.victories == p.victories || q.victories == Some(p.victories.GetOr(0) + 1))
    && (p.gold >= 0 && p.level >= 0 ==> q.gold >= 0)
    && (p.hp >= 1 && p.maxHp >= 0 ==> 1 <= q.hp <= p.hp)
    && (forall k :: k != HEALING ==> EndsAt(q.cooldowns, k) == EndsAt(p.cooldowns, k))
  }

  /** One player's turn keeps to `LegacyAftermath`. */
  lemma LegacyRoundAftermath(p: Player, d: LegacyDraw, now: int)
    requires IsLegacyDraw(p.level, d)
    ensures LegacyAftermath(p, LegacyBattleRound(p, d, now))
  {
    var q := LegacyBattleRound(p, d, now);
    if p.level >= 0 {
      assert d.gold >= 0;
    }
    forall k | k != HEALING
      ensures EndsAt(q.cooldowns, k) == EndsAt(p.cooldowns, k)
    {
      EndsAtElsewhere(q.cooldowns, p.cooldowns, HEALING, k);
    }
  }

  /** Every player but the world keeps to `LegacyAftermath`; the world is left alone. */
  lemma LegacyBattleAftermath(w: World, order: seq<int>, draws: seq<LegacyDraw>, now: int)
    requires LegacyFighters(w, order) && |draws| == |order|
    requires forall i :: 0 <= i < |order| ==> IsLegacyDraw(w[order[i]].level, draws[i])
    ensures forall id :: id in Players(w) ==> LegacyAftermath(w[id], LegacyBattle(w, order, draws, now)[id])
    ensures WORLD_ID in w ==> LegacyBattle(w, order, draws, now)[WORLD_ID] == w[WORLD_ID]
  {
    var r := LegacyBattle(w, order, draws, now);
    forall id | id in Players(w)
      ensures LegacyAftermath(w[id], r[id])
    {
      var i :| 0 <= i < |order| && order[i] == id;
      LegacyRoundAftermath(w[id], draws[i], now);
    }
  }

  // ---------------------------------------------------------------- world cooldowns

  /** The owners of a cauldron coin. */
  function Coins(w: World): set<int> {
    set id | id in w && w[id].cauldronCoin
  }

  /** `max(MIN_CAULDRON_GIFT, min(MAX_CAULDRON_GIFT, coins))`: one gold per coin thrown, but
      never less than the minimum nor more than the maximum. */
  function LegacyGift(coins: int): (g: int)
    ensures MIN_CAULDRON_GIFT <= g <= MAX_CAULDRON_GIFT
    ensures MIN_CAULDRON_GIFT <= coins <= MAX_CAULDRON_GIFT ==> g == coins
    ensures coins < MIN_CAULDRON_GIFT ==> g == MIN_CAULDRON_GIFT
    ensures coins > MAX_CAULDRON_GIFT ==> g == MAX_CAULDRON_GIFT
  {
    Max(MIN_CAULDRON_GIFT, Min(MAX_CAULDRON_GIFT, coins))
  }

  /** The draws a legacy world cooldown may consume: the raid's visiting order and per-player
      draws, the cauldron's first coin, and the next timestamp of the calendar. */
  datatype LegacyWorldDraw = LegacyWorldDraw(order: seq<int>, fights: seq<LegacyDraw>, winner: Option<int>, next: int)

  predicate IsLegacyWorldDraw(w: World, kind: int, d: LegacyWorldDraw) {
    && (kind == BATTLE ==>
          && LegacyFighters(w, d.order) && |d.fights| == |d.order|
          && forall i :: 0 <= i < |d.order| ==> IsLegacyDraw(w[d.order[i]].level, d.fights[i]))
    && (kind == DAY ==> CoinChoice(w, d.winner))
  }

  /** The BATTLE branch: every player fights, then the raid is moved to its next time. */
  function LegacyRaid(w: World, order: seq<int>, fights: seq<LegacyDraw>, next: int, now: int): (r: World)
    requires WORLD_ID in w && HasKind(w[WORLD_ID].cooldowns, BATTLE)
    requires LegacyFighters(w, order) && |fights| == |order|
    requires forall i :: 0 <= i < |order| ==> IsLegacyDraw(w[order[i]].level, fights[i])
    ensures r.Keys == w.Keys
    ensures EndsAt(r[WORLD_ID].cooldowns, BATTLE) == Some(next)
    ensures forall id :: id in Players(w) ==> LegacyAftermath(w[id], r[id])
    ensures forall id :: id in Players(w) ==> r[id] == LegacyBattle(w, order, fights, now)[id]
  {
    var w1 := LegacyBattle(w, order, fights, now);
    LegacyBattleAftermath(w, order, fights, now);
    var r := Reschedule1(w1, BATTLE, next);
    assert forall id :: id in Players(w) ==> r[id] == w1[id];
    r
  }

  /** The raid loop as simplebot_deltaland/cooldown.py:161-164 writes it: the victor's count is
      created at 0, then `battle_rank += 1` adds an int to the row itself and raises. The
      victor keeps its turn and the count at 0, nobody after it fights, and the flag says the
      loop stopped there. */
  function LegacyBattleAsWritten(w: World, order: seq<int>, draws: seq<LegacyDraw>, now: int)
    : (r: (World, bool))
    requires |draws| == |order|
    requires forall i :: 0 <= i < |order| ==> order[i] in w
    ensures r.0.Keys == w.Keys
    ensures forall id :: id in w && id !in order ==> r.0[id] == w[id]
    decreases |order|
  {
    if |order| == 0 then (w, false)
    else
      var p := w[order[0]];
      var q := LegacyBattleRound(p, draws[0], now);
      if Classify(p.battleTactic.GetOr(NoTactic), draws[0].monster) == Victory then
        (w[order[0] := q.(victories := Some(p.victories.GetOr(0)))], true)
      else
        LegacyBattleAsWritten(w[order[0] := q], order[1..], draws[1..], now)
  }

  /** The loop as written and the intended one part only at a victory: over distinct players,
      a pass in which nobody wins fights everyone exactly as `LegacyBattle` does and reports no
      abort. */
  lemma {:induction false} AsWrittenWithoutVictory(w: World, order: seq<int>, draws: seq<LegacyDraw>, now: int)
    requires |draws| == |order|
    requires forall i, j :: 0 <= i < j < |order| ==> order[i] != order[j]
    requires forall i :: 0 <= i < |order| ==> order[i] in w
    requires forall i :: 0 <= i < |order| ==> Classify(w[order[i]].battleTactic.GetOr(NoTactic), draws[i].monster) != Victory
    ensures LegacyBattleAsWritten(w, order, draws, now) == (LegacyBattle(w, order, draws, now), false)
    decreases |order|
  {
    if |order| > 0 {
      var w1 := w[order[0] := LegacyBattleRound(w[order[0]], draws[0], now)];
      BattleTailFrame(w, order, draws, now);
      assert forall i :: 0 <= i < |order[1..]| ==> Classify(w1[order[1..][i]].battleTactic.GetOr(NoTactic), draws[1..][i].monster) != Victory;
      AsWrittenWithoutVictory(w1, order[1..], draws[1..], now);
      assert LegacyBattleAsWritten(w, order, draws, now) == LegacyBattleAsWritten(w1, order[1..], draws[1..], now);
      BattleHeadStep(w, order, draws, now);
    }
  }

  /** The other half: over distinct players, a pass in which somebody would win reports the
      abort. */
  lemma {:induction false} AsWrittenAbortsOnVictory(w: World, order: seq<int>, draws: seq<LegacyDraw>, now: int, i: int)
    requires |draws| == |order|
    requires forall i, j :: 0 <= i < j < |order| ==> order[i] != order[j]
    requires forall i :: 0 <= i < |order| ==> order[i] in w
    requires 0 <= i < |order| && Classify(w[order[i]].battleTactic.GetOr(NoTactic), draws[i].monster) == Victory
    ensures LegacyBattleAsWritten(w, order, draws, now).1
    decreases |order|
  {
    if Classify(w[order[0]].battleTactic.GetOr(NoTactic), draws[0].monster) != Victory {
      var w1 := w[order[0] := LegacyBattleRound(w[order[0]], draws[0], now)];
      BattleTailFrame(w, order, draws, now);
      assert i != 0;
      assert w1[order[1..][i - 1]] == w[order[i]] && draws[1..][i - 1] == draws[i];
      AsWrittenAbortsOnVictory(w1, order[1..], draws[1..], now, i - 1);
    }
  }

  /** After the first player's turn, the rest of the order still sees the players it would have
      seen, with the same draws. */
  lemma BattleTailFrame(w: World, order: seq<int>, draws: seq<LegacyDraw>, now: int)
    requires |draws| == |order| >= 1
    requires forall i, j :: 0 <= i < j < |order| ==> order[i] != order[j]
    requires forall i :: 0 <= i < |order| ==> order[i] in w
    ensures var w1 := w[order[0] := LegacyBattleRound(w[order[0]], draws[0], now)];
            && (forall i, j :: 0 <= i < j < |order[1..]| ==> order[1..][i] != order[1..][j])
            && (forall i :: 0 <= i < |order[1..]| ==> order[1..][i] in w1)
            && (forall i :: 0 <= i < |order[1..]| ==> w1[order[1..][i]] == w[order[i + 1]] && draws[1..][i] == draws[i + 1])
  {
    var w1 := w[order[0] := LegacyBattleRound(w[order[0]], draws[0], now)];
    forall i | 0 <= i < |order[1..]|
      ensures w1[order[1..][i]] == w[order[i + 1]]
    {
      assert order[1..][i] == order[i + 1] && order[i + 1] != order[0];
    }
  }

  /** Fighting the first player, then the rest over the updated world, is the whole loop. */
  lemma BattleHeadStep(w: World, order: seq<int>, draws: seq<LegacyDraw>, now: int)
    requires |draws| == |order| >= 1
    requires forall i, j :: 0 <= i < j < |order| ==> order[i] != order[j]
    requires forall i :: 0 <= i < |order| ==> order[i] in w
    ensures var w1 := w[order[0] := LegacyBattleRound(w[order[0]], draws[0], now)];
            LegacyBattle(w1, order[1..], draws[1..], now) == LegacyBattle(w, order, draws, now)
  {
    BattleTailFrame(w, order, draws, now);
    var rounds := seq(|order|, i requires 0 <= i < |order| => LegacyBattleRound(w[order[i]], draws[i], now));
    var w1 := w[order[0] := rounds[0]];
    var a := LegacyBattle(w1, order[1..], draws[1..], now);
    assert forall i :: 0 <= i < |order| - 1 ==> a[order[1..][i]] == rounds[i + 1];
    OverwriteHead(w, a, LegacyBattle(w, order, draws, now), order, rounds);
  }

  /** Two maps that write the same values over the same distinct keys of `w`, one of them after
      writing the first value on its own, are equal. */
  lemma OverwriteHead(w: World, a: World, b: World, order: seq<int>, rounds: seq<Player>)
    requires |rounds| == |order| >= 1
    requires forall i, j :: 0 <= i < j < |order| ==> order[i] != order[j]
    requires forall i :: 0 <= i < |order| ==> order[i] in w
    requires a.Keys == w.Keys && b.Keys == w.Keys
    requires forall id :: id in w && id !in order[1..] ==> a[id] == w[order[0] := rounds[0]][id]
    requires forall i :: 0 <= i < |order| - 1 ==> a[order[1..][i]] == rounds[i + 1]
    requires forall id :: id in w && id !in order ==> b[id] == w[id]
    requires forall i :: 0 <= i < |order| ==> b[order[i]] == rounds[i]
    ensures a == b
  {
    var tail := order[1..];
    forall id | id in w
      ensures a[id] == b[id]
    {
      if id == order[0] {
        assert id !in tail;
      } else if id in tail {
        var k :| 0 <= k < |tail| && tail[k] == id;
        assert order[k + 1] == id;
      } else {
        assert id !in order;
      }
    }
  }

  /** Without a victory the BATTLE branch as written is the corrected raid: the two part only
      where a player wins. */
  lemma AsWrittenWithoutVictoryIsRaid(w: World, order: seq<int>, fights: seq<LegacyDraw>, next: int, now: int)
    requires WORLD_ID in w && HasKind(w[WORLD_ID].cooldowns, BATTLE)
    requires LegacyFighters(w, order) && |fights| == |order|
    requires forall i :: 0 <= i < |order| ==> IsLegacyDraw(w[order[i]].level, fights[i])
    requires forall i :: 0 <= i < |order| ==> Classify(w[order[i]].battleTactic.GetOr(NoTactic), fights[i].monster) != Victory
    ensures LegacyRaidAsWritten(w, order, fights, next, now) == LegacyRaid(w, order, fights, next, now)
  {
    AsWrittenWithoutVictory(w, order, fights, now);
  }

  /** The BATTLE branch as written: the error of the first victory is logged and swallowed
      before the timer is moved, so the timer then stays where it was. */
  function LegacyRaidAsWritten(w: World, order: seq<int>, fights: seq<LegacyDraw>, next: int, now: int): (r: World)
    requires WORLD_ID in w && HasKind(w[WORLD_ID].cooldowns, BATTLE)
    requires LegacyFighters(w, order) && |fights| == |order|
    ensures r.Keys == w.Keys
  {
    var (w1, aborted) := LegacyBattleAsWritten(w, order, fights, now);
    if aborted then w1 else Reschedule1(w1, BATTLE, next)
  }

  /** A raid whose first fighter wins, as written: the victor's count stays at 0 and its tactic
      is spent, the next fighters keep their tactics unfought, and the world, with the BATTLE
      timer, is left as it was. The timer is then still due, so the loop runs the raid again a
      second later, and the victor, now without a tactic, fights it as NONE and loses
      (`LegacyBattleRound`). */
  lemma AsWrittenStopsAtVictor(w: World, order: seq<int>, fights: seq<LegacyDraw>, next: int, now: int)
    requires WORLD_ID in w && HasKind(w[WORLD_ID].cooldowns, BATTLE)
    requires LegacyFighters(w, order) && |fights| == |order| && |order| >= 1
    requires Classify(w[order[0]].battleTactic.GetOr(NoTactic), fights[0].monster) == Victory
    ensures LegacyRaidAsWritten(w, order, fights, next, now)[WORLD_ID] == w[WORLD_ID]
    ensures LegacyRaidAsWritten(w, order, fights, next, now)[order[0]].victories == Some(w[order[0]].victories.GetOr(0))
    ensures LegacyRaidAsWritten(w, order, fights, next, now)[order[0]].battleTactic.None?
    ensures forall i :: 1 <= i < |order| ==> LegacyRaidAsWritten(w, order, fights, next, now)[order[i]] == w[order[i]]
  {
    var p := w[order[0]];
    var won := LegacyBattleRound(p, fights[0], now).(victories := Some(p.victories.GetOr(0)));
    assert LegacyBattleAsWritten(w, order, fights, now) == (w[order[0] := won], true);
    var a := LegacyRaidAsWritten(w, order, fights, next, now);
    assert a == w[order[0] := won];
    assert order[0] in Players(w);
    forall i | 1 <= i < |order|
      ensures a[order[i]] == w[order[i]]
    {
      assert order[i] != order[0];
    }
  }

  /** The next pass of the raid as written, a second later over the same players: the last
      victor has no tactic left, so it fights as NONE and loses `min(gold, g)` gold. */
  lemma SecondPassPunishesVictor(w: World, order: seq<int>, fights: seq<LegacyDraw>, again: seq<LegacyDraw>, next: int, now: int)
    requires WORLD_ID in w && HasKind(w[WORLD_ID].cooldowns, BATTLE)
    requires LegacyFighters(w, order) && |fights| == |order| && |again| == |order| && |order| >= 1
    requires Classify(w[order[0]].battleTactic.GetOr(NoTactic), fights[0].monster) == Victory
    ensures var w1 := LegacyRaidAsWritten(w, order, fights, next, now);
            LegacyBattleAsWritten(w1, order, again, now).0[order[0]].gold
              == w1[order[0]].gold - Min(w1[order[0]].gold, again[0].gold)
  {
    AsWrittenStopsAtVictor(w, order, fights, next, now);
    var w1 := LegacyRaidAsWritten(w, order, fights, next, now);
    var p := w1[order[0]];
    assert p.battleTactic.None?;
    var q := LegacyBattleRound(p, again[0], now);
    assert Classify(NoTactic, again[0].monster) == Defeat;
    assert LegacyBattleAsWritten(w1, order, again, now)
        == LegacyBattleAsWritten(w1[order[0] := q], order[1..], again[1..], now);
    assert order[0] !in order[1..] by {
      forall k | 0 <= k < |order[1..]|
        ensures order[1..][k] != order[0]
      {
        assert order[1..][k] == order[k + 1];
      }
    }
  }

  /** The same raid through `LegacyRaid`: the victory is counted and the timer moves. */
  lemma RaidCountsVictor(w: World, order: seq<int>, fights: seq<LegacyDraw>, next: int, now: int)
    requires WORLD_ID in w && HasKind(w[WORLD_ID].cooldowns, BATTLE)
    requires LegacyFighters(w, order) && |fights| == |order| && |order| >= 1
    requires forall i :: 0 <= i < |order| ==> IsLegacyDraw(w[order[i]].level, fights[i])
    requires Classify(w[order[0]].battleTactic.GetOr(NoTactic), fights[0].monster) == Victory
    ensures EndsAt(LegacyRaid(w, order, fights, next, now)[WORLD_ID].cooldowns, BATTLE) == Some(next)
    ensures LegacyRaid(w, order, fights, next, now)[order[0]].victories == Some(w[order[0]].victories.GetOr(0) + 1)
  {
    var p := w[order[0]];
    assert order[0] in Players(w);
    var rb := LegacyBattleRound(p, fights[0], now);
    assert rb.victories == Some(p.victories.GetOr(0) + 1);
    var c := LegacyRaid(w, order, fights, next, now);
    assert LegacyBattle(w, order, fights, now)[order[0]] == rb;
    assert c[order[0]] == rb;
  }

  /** The discrepancy in one statement: when the first fighter wins and the next raid time
      differs from the current one, the raid as written leaves the BATTLE timer where it was
      (so the raid fires again) and the victor's count at 0, where `LegacyRaid` moves the
      timer and counts the victory. */
  lemma RaidAbortsAtFirstVictory(w: World, order: seq<int>, fights: seq<LegacyDraw>, next: int, now: int)
    requires WORLD_ID in w && HasKind(w[WORLD_ID].cooldowns, BATTLE)
    requires LegacyFighters(w, order) && |fights| == |order| && |order| >= 1
    requires forall i :: 0 <= i < |order| ==> IsLegacyDraw(w[order[i]].level, fights[i])
    requires Classify(w[order[0]].battleTactic.GetOr(NoTactic), fights[0].monster) == Victory
    requires EndsAt(w[WORLD_ID].cooldowns, BATTLE) != Some(next)
    ensures EndsAt(LegacyRaidAsWritten(w, order, fights, next, now)[WORLD_ID].cooldowns, BATTLE)
            != EndsAt(LegacyRaid(w, order, fights, next, now)[WORLD_ID].cooldowns, BATTLE)
    ensures LegacyRaidAsWritten(w, order, fights, next, now)[order[0]].victories
            != LegacyRaid(w, order, fights, next, now)[order[0]].victories
  {
    AsWrittenStopsAtVictor(w, order, fights, next, now);
    RaidCountsVictor(w, order, fights, next, now);
  }

  /** The DAY branch: the cauldron pays its coin-count gift, then waits for the next day. */
  function LegacyCauldron(w: World, winner: Option<int>, next: int): (r: World)
    requires WORLD_ID in w && HasKind(w[WORLD_ID].cooldowns, DAY) && CoinChoice(w, winner)
    ensures r.Keys == w.Keys
    ensures EndsAt(r[WORLD_ID].cooldowns, DAY) == Some(next)
    ensures forall id :: id in Players(w) ==> !r[id].cauldronCoin
    ensures winner.Some? && winner.value != WORLD_ID ==>
      && w[winner.value].gold + MIN_CAULDRON_GIFT <= r[winner.value].gold <= w[winner.value].gold + MAX_CAULDRON_GIFT
      && r[winner.value].gold == w[winner.value].gold + LegacyGift(|Coins(w)|)
    ensures forall id :: id in Players(w) ==> r[id] == Cauldron(w, winner, LegacyGift(|Coins(w)|))[id]
  {
    var c := Cauldron(w, winner, LegacyGift(|Coins(w)|));
    var r := Reschedule1(c, DAY, next);
    assert forall id :: id in Players(w) ==> r[id] == c[id];
    r
  }

  /** The legacy `_process_world_cooldown`: the raid, the cauldron with its coin-count gift, and
      the monthly and yearly resets run and are moved to their next occurrence; any other world
      cooldown is deleted. */
  function LegacyProcessWorldCooldown(w: World, kind: int, d: LegacyWorldDraw, now: int): (r: World)
    requires WORLD_ID in w && HasKind(w[WORLD_ID].cooldowns, kind)
    requires IsLegacyWorldDraw(w, kind, d)
    ensures r.Keys == w.Keys
    ensures IsCalendar(kind) ==> EndsAt(r[WORLD_ID].cooldowns, kind) == Some(d.next)
    ensures !IsCalendar(kind) ==>
      r == w[WORLD_ID := w[WORLD_ID].(cooldowns := RemoveFirst(w[WORLD_ID].cooldowns, kind))]
    ensures kind == BATTLE ==> forall id :: id in Players(w) ==> r[id].battleReport.Some? && r[id].battleTactic.None?
    ensures kind == DAY ==> forall id :: id in Players(w) ==> !r[id].cauldronCoin
    ensures kind == MONTH ==> forall id :: id in Players(w) ==> r[id].diceRank.None? && r[id].victories.None?
    ensures kind == YEAR ==> forall id :: id in Players(w) ==> r[id].cauldronRank.None?
    ensures kind == BATTLE ==> forall id :: id in Players(w) ==> r[id] == LegacyBattle(w, d.order, d.fights, now)[id]
    ensures kind == DAY ==> forall id :: id in Players(w) ==> r[id] == Cauldron(w, d.winner, LegacyGift(|Coins(w)|))[id]
    ensures kind == MONTH ==> forall id :: id in Players(w) ==> r[id] == MonthReset(w)[id]
    ensures kind == YEAR ==> forall id :: id in Players(w) ==> r[id] == YearReset(w)[id]
  {
    if kind == BATTLE then
      LegacyRaid(w, d.order, d.fights, d.next, now)
    else if kind == DAY then
      LegacyCauldron(w, d.winner, d.next)
    else if kind == MONTH then
      var reset := MonthReset(w);
      var r := Reschedule1(reset, MONTH, d.next);
      assert forall id :: id in Players(w) ==> r[id] == reset[id];
      r
    else if kind == YEAR then
      var reset := YearReset(w);
      var r := Reschedule1(reset, YEAR, d.next);
      assert forall id :: id in Players(w) ==> r[id] == reset[id];
      r
    else
      w[WORLD_ID := w[WORLD_ID].(cooldowns := RemoveFirst(w[WORLD_ID].cooldowns, kind))]
  }

  // ---------------------------------------------------------------- player cooldowns

  /** A legacy REST or HEALING tick: the resource gains one point whether or not it is full;
      once it reaches `max` the timer is deleted, otherwise it fires again `period` seconds after
      it was due. */
  function LegacyTick(amount: int, max: int, cs: seq<Cooldown>, kind: int, period: int): (r: (int, seq<Cooldown>))
    requires HasKind(cs, kind)
    ensures r.0 == amount + 1
    ensures Without(r.1, kind) == Without(cs, kind)
    ensures r.0 >= max ==> r.1 == RemoveFirst(cs, kind)
    ensures r.0 < max ==> EndsAt(r.1, kind) == Some(EndsAt(cs, kind).value + period)
    ensures UniqueKinds(cs) ==> UniqueKinds(r.1) && (HasKind(r.1, kind) <==> r.0 < max)
  {
    var a := amount + 1;
    if a >= max then (a, RemoveFirst(cs, kind))
    else (a, Reschedule(cs, kind, EndsAt(cs, kind).value + period))
  }

  /** Below the maximum the two versions tick alike; at the maximum the legacy tick overshoots
      it by one, where the newer one keeps the resource at the maximum. */
  lemma TickVersions(amount: int, max: int, cs: seq<Cooldown>, kind: int, period: int)
    requires HasKind(cs, kind)
    ensures amount < max ==> LegacyTick(amount, max, cs, kind, period) == Tick(amount, max, cs, kind, period)
    ensures amount >= max ==>
      LegacyTick(amount, max, cs, kind, period).0 == amount + 1 > max
      && Tick(amount, max, cs, kind, period).0 == amount
      && LegacyTick(amount, max, cs, kind, period).1 == Tick(amount, max, cs, kind, period).1
  {
  }

  /** The legacy `_process_player_cooldown`: REST and HEALING tick, an unanswered dice game is
      refunded, and any other cooldown ends its quest (with the reward drawn from the quest's
      list) or, for an unknown id, is simply deleted. */
  function LegacyProcessPlayerCooldown(w: World, id: int, kind: int, reward: int): (r: World)
    requires id in w && HasKind(w[id].cooldowns, kind) && reward in STROLL_REWARDS
    ensures r.Keys == w.Keys
    ensures forall o :: o in w && o != id ==> r[o] == w[o]
    ensures kind == REST ==> r[id].stamina == w[id].stamina + 1
    ensures kind == HEALING ==> r[id].hp == w[id].hp + 1
    ensures kind == REST && w[id].stamina < w[id].maxStamina ==> r[id].stamina <= r[id].maxStamina
    ensures kind == HEALING && w[id].hp < w[id].maxHp ==> r[id].hp <= r[id].maxHp
    ensures kind == PLAYING_DICE ==> r[id].gold == w[id].gold + DICE_FEE && r[id].state == REST
    ensures kind == STROLL.id ==> r[id].state == REST && w[id].gold <= r[id].gold <= w[id].gold + 3
    ensures UniqueKinds(w[id].cooldowns) ==>
      && UniqueKinds(r[id].cooldowns)
      && (HasKind(r[id].cooldowns, kind) <==>
            || (kind == REST && r[id].stamina < r[id].maxStamina)
            || (kind == HEALING && r[id].hp < r[id].maxHp))
  {
    var p := w[id];
    if kind == REST then
      var (stamina, cs) := LegacyTick(p.stamina, p.maxStamina, p.cooldowns, REST, STAMINA_COOLDOWN);
      w[id := p.(stamina := stamina, cooldowns := cs)]
    else if kind == HEALING then
      var (hp, cs) := LegacyTick(p.hp, p.maxHp, p.cooldowns, HEALING, LIFEREGEN_COOLDOWN);
      w[id := p.(hp := hp, cooldowns := cs)]
    else if kind == PLAYING_DICE then
      w[id := DiceExpiry(p)]
    else
      LegacyQuestExpiry(w, id, kind, reward)
  }
}

=== FILE: orm.dfy ===
/** The player record and the methods the game rules call on it: experience and levels, the hp and
    stamina bookkeeping with their regeneration timers, starting a quest, the thief/sentinel
    pairing, and the eligibility gates. */
module Orm {
  import opened Wrappers
  import opened Consts
  import opened Ledger
  import opened Combat

  /** A `BattleReport` row: both tactics and the signed changes the fight made. */
  datatype Report = Report(tactic: Tactic, monsterTactic: Tactic, hp: int, exp: int, gold: int)

  /** A `Player` row with the one-to-one rows hanging off it. A rank row that does not exist is
      `None`; `skills` maps a learned skill's id to its level; `thief` is the id of the player
      this one (as sentinel) has noticed. */
  datatype Player = Player(
    level: int,
    exp: int,
    attack: int,
    maxAttack: int,
    defense: int,
    maxDefense: int,
    hp: int,
    maxHp: int,
    stamina: int,
    maxStamina: int,
    gold: int,
    state: int,
    thief: Option<int>,
    invSize: int,
    skillPoints: int,
    skills: map<int, int>,
    cooldowns: seq<Cooldown>,
    battleTactic: Option<Tactic>,
    battleReport: Option<Report>,
    victories: Option<int>,
    diceRank: Option<int>,
    cauldronRank: Option<int>,
    sentinelRank: Option<int>,
    cauldronCoin: bool)

  /** The `player` table, by id; id 0 is the world, which holds the calendar cooldowns. */
  type World = map<int, Player>

  /** A loop that visits distinct players and rewrites each one from its own record only:
      `ps[i]` replaces the player `order[i]`, and nobody else changes. */
  function Overwrite(w: World, order: seq<int>, ps: seq<Player>): (r: World)
    requires |ps| == |order|
    requires forall i, j :: 0 <= i < j < |order| ==> order[i] != order[j]
    requires forall i :: 0 <= i < |order| ==> order[i] in w
    ensures r.Keys == w.Keys
    ensures forall id :: id in w && id !in order ==> r[id] == w[id]
    ensures forall i :: 0 <= i < |order| ==> r[order[i]] == ps[i]
    decreases |order|
  {
    if |order| == 0 then w
    else
      var rest := order[1..];
      assert forall i :: 0 <= i < |rest| ==> rest[i] == order[i + 1];
      var r := Overwrite(w[order[0] := ps[0]], rest, ps[1..]);
      assert forall i :: 1 <= i < |order| ==> order[i] == rest[i - 1] && ps[i] == ps[1..][i - 1];
      assert order[0] !in rest;
      r
  }

  /** Why a command or a cooldown did not commit. `Rejected` is a gate that said no (the player
      only gets a message); the others are the exceptions the code would raise: a duplicate
      cooldown key, a missing thief, a failed `assert`, a missing rank row, a call of a method the
      class does not define. */
  datatype Fault = Rejected | Conflict | MissingThief | MissingCooldown | MissingRank | MissingMethod

  /** A player as `Player(id=...)` creates one. */
  function NewPlayer(): (p: Player)
    ensures p.level == STARTING_LEVEL && p.exp == 0 && p.gold == STARTING_GOLD
    ensures p.hp == p.maxHp == MAX_HP && p.stamina == p.maxStamina == MAX_STAMINA
    ensures p.state == REST && p.cooldowns == [] && p.thief == None
  {
    Player(STARTING_LEVEL, 0, STARTING_ATTACK, 0, STARTING_DEFENSE, 0, MAX_HP, MAX_HP,
           MAX_STAMINA, MAX_STAMINA, STARTING_GOLD, REST, None, STARTING_INV_SIZE, 0, map[], [],
           None, None, None, None, None, None, false)
  }

  // ---------------------------------------------------------------- experience

  /** `required_exp(level)`: the curve is not part of this model, only that every threshold is
      positive, which the carry loop needs to stop. */
  ghost predicate Positive(req: int -> int) {
    forall l :: req(l) > 0
  }

  /** Experience it takes to climb from level `lo` to level `hi`. */
  function ThresholdSum(req: int -> int, lo: int, hi: int): (r: int)
    requires Positive(req)
    ensures r >= 0
    ensures hi > lo ==> r >= req(lo + 1)
    decreases hi - lo
  {
    if hi <= lo then 0 else req(lo + 1) + ThresholdSum(req, lo + 1, hi)
  }

  /** The `while exp >= max_exp` loop: the level and remaining experience it ends with. */
  function Carry(req: int -> int, level: int, exp: int): (r: (int, int))
    requires Positive(req)
    ensures r.0 >= level && r.1 < req(r.0 + 1)
    ensures exp == r.1 + ThresholdSum(req, level, r.0)
    ensures exp >= 0 ==> r.1 >= 0
    decreases exp
  {
    if exp < req(level + 1) then (level, exp)
    else Carry(req, level + 1, exp - req(level + 1))
  }

  /** The carry is the only way to spend the experience: any level whose thresholds, paid in
      full, leave a remainder below the next one is the level the loop ends on. */
  lemma {:induction false} CarryUnique(req: int -> int, level: int, exp: int, l: int, e: int)
    requires Positive(req)
    requires l >= level && 0 <= e < req(l + 1)
    requires exp == e + ThresholdSum(req, level, l)
    ensures Carry(req, level, exp) == (l, e)
    decreases l - level
  {
    if l > level {
      assert exp >= req(level + 1);
      CarryUnique(req, level + 1, exp - req(level + 1), l, e);
    }
  }

  /** `increase_exp`: nothing at MAX_LEVEL; otherwise the gain is added, each threshold crossed
      raises the level by one with the remainder carried, and a level-up drops the first REST
      cooldown and refills stamina. */
  function IncreaseExp(req: int -> int, p: Player, gain: int): (r: (Player, bool))
    requires Positive(req)
    ensures p.level == MAX_LEVEL ==> r == (p, false)
    ensures p.level != MAX_LEVEL ==> (r.1 <==> p.exp + gain >= req(p.level + 1))
    ensures p.level != MAX_LEVEL ==>
      && r.0.level >= p.level
      && r.0.exp < req(r.0.level + 1)
      && p.exp + gain == r.0.exp + ThresholdSum(req, p.level, r.0.level)
    ensures r.1 <==> r.0.level > p.level
    ensures r.1 ==> r.0.cooldowns == RemoveFirst(p.cooldowns, REST)
    ensures r.1 ==> r.0.stamina >= p.maxStamina && r.0.stamina >= p.stamina
    ensures r.1 ==> r.0.stamina == p.stamina || r.0.stamina == p.maxStamina
    ensures !r.1 ==> r.0.cooldowns == p.cooldowns && r.0.stamina == p.stamina
    ensures r.0 == p.(level := r.0.level, exp := r.0.exp, stamina := r.0.stamina, cooldowns := r.0.cooldowns)
  {
    if p.level == MAX_LEVEL then (p, false)
    else
      var (level, exp) := Carry(req, p.level, p.exp + gain);
      var leveledUp := p.exp + gain >= req(p.level + 1);
      if leveledUp then
        var stamina := if p.stamina < p.maxStamina then p.maxStamina else p.stamina;
        (p.(level := level, exp := exp, stamina := stamina, cooldowns := RemoveFirst(p.cooldowns, REST)), true)
      else
        (p.(level := level, exp := exp), false)
  }

  /** `q` holds the level and experience `increase_exp(gain)` leaves `p` with. */
  predicate ExpGained(req: int -> int, p: Player, q: Player, gain: int)
    requires Positive(req)
  {
    var g := IncreaseExp(req, p, gain).0;
    q.level == g.level && q.exp == g.exp
  }

  /** `increase_exp` reads nothing of the player but the level and the experience. */
  lemma ExpGainedFrame(req: int -> int, p: Player, p': Player, q: Player, gain: int)
    requires Positive(req) && p'.level == p.level && p'.exp == p.exp
    requires ExpGained(req, p', q, gain)
    ensures ExpGained(req, p, q, gain)
  {
  }

  /** The level-up rule in closed form: the level and experience are unchanged at MAX_LEVEL;
      otherwise the gain pays the thresholds of every level climbed and leaves a remainder below
      the next one. */
  predicate Carried(req: int -> int, p: Player, q: Player, gain: int)
    requires Positive(req)
  {
    if p.level == MAX_LEVEL then q.level == p.level && q.exp == p.exp
    else
      && q.level >= p.level && q.exp < req(q.level + 1)
      && p.exp + gain == q.exp + ThresholdSum(req, p.level, q.level)
  }

  /** Gaining experience through `increase_exp` satisfies the closed-form carry. */
  lemma ExpGainedIsCarried(req: int -> int, p: Player, q: Player, gain: int)
    requires Positive(req) && ExpGained(req, p, q, gain)
    ensures Carried(req, p, q, gain)
  {
    var g := IncreaseExp(req, p, gain).0;
    assert q.level == g.level && q.exp == g.exp;
  }

  /** The closed-form carry, with a non-negative remainder, determines the level and the
      experience: they are the ones `increase_exp` computes. */
  lemma CarriedIsExpGained(req: int -> int, p: Player, q: Player, gain: int)
    requires Positive(req) && Carried(req, p, q, gain) && q.exp >= 0
    ensures ExpGained(req, p, q, gain)
  {
    if p.level != MAX_LEVEL {
      CarryUnique(req, p.level, p.exp + gain, q.level, q.exp);
    }
  }

  /** The MAX_LEVEL check happens only on entry: a gain that crosses several thresholds at once
      carries a player past MAX_LEVEL. */
  lemma LevelCanPassMax()
    ensures IncreaseExp(l => 1, NewPlayer().(level := 2), 5).0.level == 7 > MAX_LEVEL
  {
    var req: int -> int := l => 1;
    assert Carry(req, 7, 0) == (7, 0);
    assert Carry(req, 6, 1) == (7, 0);
    assert Carry(req, 5, 2) == (7, 0);
    assert Carry(req, 4, 3) == (7, 0);
    assert Carry(req, 3, 4) == (7, 0);
    assert Carry(req, 2, 5) == (7, 0);
  }

  // ---------------------------------------------------------------- hp and stamina

  /** `reduce_hp`: takes `min(hp - 1, n)` off and returns it, never going below 1 hp, and starts
      the HEALING timer if hp is now below max and none is running. */
  function ReduceHp(p: Player, n: int, now: int): (r: (Player, int))
    ensures r.1 <= n && r.1 <= p.hp - 1 && (r.1 == n || r.1 == p.hp - 1)
    ensures r.0.hp == p.hp - r.1
    ensures p.hp >= 1 && n >= 0 ==> 1 <= r.0.hp <= p.hp
    ensures HasKind(r.0.cooldowns, HEALING) <==> HasKind(p.cooldowns, HEALING) || r.0.hp < p.maxHp
    ensures !HasKind(p.cooldowns, HEALING) && r.0.hp < p.maxHp ==>
      EndsAt(r.0.cooldowns, HEALING) == Some(now + LIFEREGEN_COOLDOWN)
    ensures HasKind(p.cooldowns, HEALING) ==> r.0.cooldowns == p.cooldowns
    ensures Without(r.0.cooldowns, HEALING) == Without(p.cooldowns, HEALING)
    ensures UniqueKinds(p.cooldowns) ==> UniqueKinds(r.0.cooldowns)
    ensures r.0 == p.(hp := r.0.hp, cooldowns := r.0.cooldowns)
  {
    var taken := Min(p.hp - 1, n);
    var hp := p.hp - taken;
    (p.(hp := hp, cooldowns := StartTimer(p.cooldowns, HEALING, now + LIFEREGEN_COOLDOWN, hp < p.maxHp)), taken)
  }

  /** `reduce_stamina`: spends the stamina and starts the REST timer if stamina is now below max
      and none is running. */
  function ReduceStamina(p: Player, n: int, now: int): (r: Player)
    ensures r.stamina + n == p.stamina
    ensures HasKind(r.cooldowns, REST) <==> HasKind(p.cooldowns, REST) || r.stamina < p.maxStamina
    ensures !HasKind(p.cooldowns, REST) && r.stamina < p.maxStamina ==>
      EndsAt(r.cooldowns, REST) == Some(now + STAMINA_COOLDOWN)
    ensures HasKind(p.cooldowns, REST) ==> r.cooldowns == p.cooldowns
    ensures Without(r.cooldowns, REST) == Without(p.cooldowns, REST)
    ensures UniqueKinds(p.cooldowns) ==> UniqueKinds(r.cooldowns)
    ensures r == p.(stamina := r.stamina, cooldowns := r.cooldowns)
  {
    var stamina := p.stamina - n;
    p.(stamina := stamina, cooldowns := StartTimer(p.cooldowns, REST, now + STAMINA_COOLDOWN, stamina < p.maxStamina))
  }

  // ---------------------------------------------------------------- quests and noticing

  /** `start_quest`: the player's state becomes the quest id, a cooldown of that id runs for the
      quest's duration, and the stamina cost is spent. The quest's cooldown must be new: its key
      would clash otherwise. */
  function StartQuest(p: Player, questId: int, duration: int, cost: int, now: int): (r: Player)
    requires !HasKind(p.cooldowns, questId)
    ensures r.state == questId
    ensures EndsAt(r.cooldowns, questId) == Some(now + duration)
    ensures r.stamina == p.stamina - cost
    ensures UniqueKinds(p.cooldowns) ==> UniqueKinds(r.cooldowns)
    ensures r == p.(state := r.state, stamina := r.stamina, cooldowns := r.cooldowns)
  {
    var cs := Append(p.cooldowns, Cooldown(questId, now + duration));
    assert EndsAt(cs, questId) == Some(now + duration);
    var started := p.(state := questId, cooldowns := cs);
    var r := ReduceStamina(started, cost, now);
    assert EndsAt(r.cooldowns, questId) == Some(now + duration) by {
      if questId != REST {
        EndsAtElsewhere(cs, r.cooldowns, REST, questId);
      }
    }
    r
  }

  /** For any quest other than REST itself, starting it touches no timer but its own and the REST
      timer, which runs exactly when it ran before or stamina is now below max. */
  lemma StartQuestTimers(p: Player, questId: int, duration: int, cost: int, now: int)
    requires !HasKind(p.cooldowns, questId) && questId != REST
    ensures var r := StartQuest(p, questId, duration, cost, now);
      HasKind(r.cooldowns, REST) <==> HasKind(p.cooldowns, REST) || r.stamina < p.maxStamina
    ensures var r := StartQuest(p, questId, duration, cost, now);
      Without(Without(r.cooldowns, REST), questId) == Without(Without(p.cooldowns, REST), questId)
  {
    var cs := Append(p.cooldowns, Cooldown(questId, now + duration));
    var r := ReduceStamina(p.(state := questId, cooldowns := cs), cost, now);
    assert r == StartQuest(p, questId, duration, cost, now);
    assert HasKind(cs, REST) <==> HasKind(p.cooldowns, REST);
    assert Without(cs, questId) == p.cooldowns;
    WithoutCommutes(r.cooldowns, REST, questId);
    WithoutCommutes(p.cooldowns, REST, questId);
    WithoutCommutes(cs, REST, questId);
  }

  lemma {:induction false} WithoutCommutes(cs: seq<Cooldown>, a: int, b: int)
    ensures Without(Without(cs, a), b) == Without(Without(cs, b), a)
    decreases |cs|
  {
    if |cs| > 0 {
      WithoutCommutes(cs[1..], a, b);
      if cs[0].kind != a && cs[0].kind != b {
        assert ([cs[0]] + Without(cs[1..], a))[1..] == Without(cs[1..], a);
        assert ([cs[0]] + Without(cs[1..], b))[1..] == Without(cs[1..], b);
      }
    }
  }

  /** Two ledgers that agree on every cooldown but those of `kind` agree on when any other kind
      expires. */
  lemma EndsAtElsewhere(a: seq<Cooldown>, b: seq<Cooldown>, kind: int, k: int)
    requires Without(a, kind) == Without(b, kind) && k != kind
    ensures EndsAt(a, k) == EndsAt(b, k)
  {
    EndsAtWithout(a, kind, k);
    EndsAtWithout(b, kind, k);
  }

  lemma {:induction false} EndsAtWithout(cs: seq<Cooldown>, kind: int, k: int)
    requires k != kind
    ensures EndsAt(Without(cs, kind), k) == EndsAt(cs, k)
    decreases |cs|
  {
    if |cs| > 0 {
      EndsAtWithout(cs[1..], kind, k);
      if cs[0].kind != kind {
        assert ([cs[0]] + Without(cs[1..], kind))[1..] == Without(cs[1..], kind);
      }
    }
  }

  /** `start_noticing`: the sentinel `s` watches the thief `t` for THIEVE_NOTICED_COOLDOWN
      seconds, both states say so, and the sentinel links to the thief. The state writes happen
      in the code's order, so a player noticing themself ends up as the noticed one. */
  function StartNoticing(w: World, s: int, t: int, now: int): (r: World)
    requires s in w && t in w && !HasKind(w[s].cooldowns, NOTICED_THIEF)
    ensures r.Keys == w.Keys
    ensures r[s].thief == Some(t)
    ensures EndsAt(r[s].cooldowns, NOTICED_THIEF) == Some(now + THIEVE_NOTICED_COOLDOWN)
    ensures Without(r[s].cooldowns, NOTICED_THIEF) == w[s].cooldowns
    ensures UniqueKinds(w[s].cooldowns) ==> UniqueKinds(r[s].cooldowns)
    ensures s != t ==> r[s] == w[s].(state := NOTICED_THIEF, thief := Some(t), cooldowns := r[s].cooldowns)
    ensures s != t ==> r[t] == w[t].(state := NOTICED_SENTINEL)
    ensures s == t ==> r[s].state == NOTICED_SENTINEL
    ensures forall id :: id in w && id != s && id != t ==> r[id] == w[id]
  {
    var w1 := w[s := w[s].(state := NOTICED_THIEF)];
    var w2 := w1[t := w1[t].(state := NOTICED_SENTINEL)];
    w2[s := w2[s].(thief := Some(t), cooldowns := Append(w2[s].cooldowns, Cooldown(NOTICED_THIEF, now + THIEVE_NOTICED_COOLDOWN)))]
  }

  /** `stop_noticing`: the link is cleared, thief and sentinel both rest, and the sentinel's
      NOTICED_THIEF cooldown is popped. Without a linked thief or without that cooldown the
      method raises, and nothing is committed. */
  function StopNoticing(w: World, s: int): (r: Result<World, Fault>)
    requires s in w
    ensures r.Success? <==> w[s].thief.Some? && w[s].thief.value in w && HasKind(w[s].cooldowns, NOTICED_THIEF)
    ensures r.Failure? && (w[s].thief.None? || w[s].thief.value !in w) ==> r.error == MissingThief
    ensures r.Success? ==> r.value.Keys == w.Keys
    ensures r.Success? ==> r.value[s] == w[s].(state := REST, thief := None, cooldowns := RemoveFirst(w[s].cooldowns, NOTICED_THIEF))
    ensures r.Success? && w[s].thief.value != s ==> r.value[w[s].thief.value] == w[w[s].thief.value].(state := REST)
    ensures r.Success? ==> forall id :: id in w && id != s && Some(id) != w[s].thief ==> r.value[id] == w[id]
  {
    match w[s].thief
    case None => Failure(MissingThief)
    case Some(t) =>
      if t !in w then Failure(MissingThief)
      else
        var w1 := w[s := w[s].(thief := None)];
        var w2 := w1[t := w1[t].(state := REST)];
        var w3 := w2[s := w2[s].(state := REST)];
        if !HasKind(w3[s].cooldowns, NOTICED_THIEF) then Failure(MissingCooldown)
        else Success(w3[s := w3[s].(cooldowns := RemoveFirst(w3[s].cooldowns, NOTICED_THIEF))])
  }

  /** Noticing and then stopping is a round trip: both players rest, the link is gone, and the
      sentinel's ledger is exactly what it was. */
  lemma NoticeRoundTrip(w: World, s: int, t: int, now: int)
    requires s in w && t in w && s != t && !HasKind(w[s].cooldowns, NOTICED_THIEF)
    ensures StopNoticing(StartNoticing(w, s, t, now), s)
         == Success(w[s := w[s].(state := REST, thief := None)][t := w[t].(state := REST)])
  {
    var w1 := StartNoticing(w, s, t, now);
    assert w1[s].cooldowns == Append(w[s].cooldowns, Cooldown(NOTICED_THIEF, now + THIEVE_NOTICED_COOLDOWN));
    var r := StopNoticing(w1, s);
    assert r.Success?;
    var v := r.value;
    assert v[s] == w1[s].(state := REST, thief := None, cooldowns := w[s].cooldowns);
    assert w1[t] == w[t].(state := NOTICED_SENTINEL);
    TwoUpdates(w, v, s, t, w[s].(state := REST, thief := None), w[t].(state := REST));
  }

  /** A world that agrees with `w` everywhere but at two distinct players is `w` updated twice. */
  lemma TwoUpdates(w: World, v: World, s: int, t: int, a: Player, b: Player)
    requires s in w && t in w && s != t && v.Keys == w.Keys && v[s] == a && v[t] == b
    requires forall id :: id in w && id != s && id != t ==> v[id] == w[id]
    ensures v == w[s := a][t := b]
  {
    var e := w[s := a][t := b];
    assert v.Keys == e.Keys;
    forall id | id in e
      ensures v[id] == e[id]
    {
    }
  }

  // ---------------------------------------------------------------- gates

  predicate ValidateLevel(p: Player, required: int) {
    p.level >= required
  }

  predicate ValidateGold(p: Player, required: int) {
    p.gold >= required
  }

  predicate ValidateStamina(p: Player, required: int) {
    p.stamina >= required
  }

  function RealMin(a: real, b: real): real {
    if a <= b then a else b
  }

  /** `validate_hp`: hp at least a quarter of the maximum, or at least 100, decided on
      integers. */
  predicate ValidateHp(p: Player) {
    4 * p.hp >= p.maxHp || p.hp >= 100
  }

  /** The integer gate decides the float comparison `hp >= min(max_hp / 4, 100)` of the code,
      whose division is true division. */
  lemma ValidateHpAsReals(p: Player)
    ensures ValidateHp(p) <==> p.hp as real >= RealMin(p.maxHp as real / 4.0, 100.0)
  {
  }

  /** `validate_resting`: a player is free for an activity when resting, except in the last
      BATTLE_GUARD seconds before the goblins attack, unless the caller ignores the battle. */
  function ValidateResting(p: Player, battleEndsAt: int, now: int, ignoreBattle: bool): (ok: bool)
    ensures ok ==> p.state == REST
    ensures !ignoreBattle && battleEndsAt - now <= BATTLE_GUARD ==> !ok
    ensures p.state == REST && (ignoreBattle || battleEndsAt - now > BATTLE_GUARD) ==> ok
  {
    if !ignoreBattle && battleEndsAt - now <= BATTLE_GUARD then false
    else p.state == REST
  }

  /** When the goblins attack next: the world's BATTLE cooldown, which `validate_resting` reads.
      `None` when the world holds none; the query then finds no row and the check raises. */
  function BattleEndsAt(w: World): Option<int> {
    if WORLD_ID in w then EndsAt(w[WORLD_ID].cooldowns, BATTLE) else None
  }

  // ---------------------------------------------------------------- items

  /** An `Item` row with the fields of its `BaseItem` it needs: the owner, the base's type and
      tier, and the slot it sits in. */
  datatype Item = Item(owner: int, itemType: int, tier: int, slot: int)

  /** `Item.required_level`: ten levels per tier. */
  function RequiredLevel(item: Item): (l: int)
    ensures item.tier == 0 ==> l == 0
    ensures item.tier >= 0 ==> l >= 0 && l % 10 == 0 && l / 10 == item.tier
  {
    item.tier * 10
  }

  /** `Item.get_slot`: swords and shields go to the hands; anything else is not equipable and
      resolves to the bag. */
  function GetSlot(item: Item): (slot: int)
    ensures slot == HANDS <==> item.itemType == SWORD || item.itemType == SHIELD
    ensures slot == BAG <==> !(item.itemType == SWORD || item.itemType == SHIELD)
  {
    if item.itemType == SWORD || item.itemType == SHIELD then HANDS else BAG
  }
}

=== FILE: processor.dfy ===
/** The cooldown loop's work on one expired cooldown: the world's calendar events (the goblin
    raid, the daily cauldron, the monthly and yearly rank resets) and a player's timers
    (regeneration ticks, an unanswered dice game, an unnoticed theft, a finished quest). */
module Processor {
  import opened Wrappers
  import opened Consts
  import opened Ledger
  import opened Combat
  import opened Orm
  import opened Util
  import opened Quests
  import opened Dice

  // ---------------------------------------------------------------- regeneration

  /** One REST or HEALING tick on a resource and its timer: the resource gains one point while
      below `max`; once it is full the timer is deleted, otherwise it fires again `period`
      seconds after it was due. */
  function Tick(amount: int, max: int, cs: seq<Cooldown>, kind: int, period: int): (r: (int, seq<Cooldown>))
    requires HasKind(cs, kind)
    ensures amount < max ==> r.0 == amount + 1
    ensures amount >= max ==> r.0 == amount
    ensures amount <= max ==> r.0 <= max
    ensures Without(r.1, kind) == Without(cs, kind)
    ensures r.0 >= max ==> r.1 == RemoveFirst(cs, kind)
    ensures r.0 < max ==> EndsAt(r.1, kind) == Some(EndsAt(cs, kind).value + period)
    ensures UniqueKinds(cs) ==> UniqueKinds(r.1) && (HasKind(r.1, kind) <==> r.0 < max)
  {
    var a := if amount < max then amount + 1 else amount;
    if a >= max then (a, RemoveFirst(cs, kind))
    else (a, Reschedule(cs, kind, EndsAt(cs, kind).value + period))
  }

  /** `n` firings of a regeneration timer, stopping early once the timer is gone. */
  function Ticks(amount: int, max: int, cs: seq<Cooldown>, kind: int, period: int, n: nat): (int, seq<Cooldown>)
    decreases n
  {
    if n == 0 || !HasKind(cs, kind) then (amount, cs)
    else
      var (a, cs') := Tick(amount, max, cs, kind, period);
      Ticks(a, max, cs', kind, period, n - 1)
  }

  /** A regeneration timer refills its resource: after as many firings as points are missing
      the resource is full, the timer is gone, and no other cooldown was touched. */
  lemma {:induction false} TicksRefill(amount: int, max: int, cs: seq<Cooldown>, kind: int, period: int)
    requires amount < max && HasKind(cs, kind) && UniqueKinds(cs)
    ensures Ticks(amount, max, cs, kind, period, max - amount).0 == max
    ensures !HasKind(Ticks(amount, max, cs, kind, period, max - amount).1, kind)
    ensures Without(Ticks(amount, max, cs, kind, period, max - amount).1, kind) == Without(cs, kind)
    decreases max - amount
  {
    var (a, cs') := Tick(amount, max, cs, kind, period);
    if a < max {
      TicksRefill(a, max, cs', kind, period);
    } else {
      assert Ticks(a, max, cs', kind, period, 0) == (a, cs');
    }
  }

  // ---------------------------------------------------------------- the goblin raid

  /** The draws of one player's fight: the goblin's tactic (NONE included) and the two
      `randint` amounts, gold and base experience. */
  datatype BattleDraw = BattleDraw(monster: Tactic, gold: int, baseExp: int)

  /** Both amounts are drawn from `[(level + 1) // 2, level + 1]`. */
  predicate IsBattleDraw(level: int, d: BattleDraw) {
    (level + 1) / 2 <= d.gold <= level + 1 && (level + 1) / 2 <= d.baseExp <= level + 1
  }

  /** The effect of a hit on the report: `-reduce_hp(n)`. */
  function Hurt(p: Player, n: int, now: int): (Player, int) {
    var (q, taken) := ReduceHp(p, n, now);
    (q, -taken)
  }

  /** The branch table of `_process_world_battle` for a player who chose tactic `t`: the new
      player (gold or hp changed), the report (hp, exp and gold changes), and whether it was a
      victory. A tactic of NONE matches no branch and yields an empty report; a goblin that drew
      NONE falls into the PARRY arms. */
  function Fight(p: Player, t: Tactic, d: BattleDraw, now: int): (r: (Player, Report, bool))
    ensures r.1.tactic == t && r.1.monsterTactic == d.monster
    ensures r.2 <==> t != NoTactic && Classify(t, d.monster) == Victory
    ensures r.0.gold == p.gold + r.1.gold && r.0.hp == p.hp + r.1.hp
    ensures r.1.gold == if r.2 then d.gold else 0
    ensures Without(r.0.cooldowns, HEALING) == Without(p.cooldowns, HEALING)
    ensures UniqueKinds(p.cooldowns) ==> UniqueKinds(r.0.cooldowns)
    ensures r.0 == p.(gold := r.0.gold, hp := r.0.hp, cooldowns := r.0.cooldowns)
  {
    var hit := p.maxHp / 3;
    match t
    case Hit =>
      if d.monster == Hit then Wounded(p, t, d, hit / 2, Max(d.baseExp / 2, 1), now)
      else if d.monster == Feint then Won(p, t, d)
      else Wounded(p, t, d, hit, Max(d.baseExp / 4, 1), now)
    case Feint =>
      if d.monster == Hit then Wounded(p, t, d, hit, Max(d.baseExp / 4, 1), now)
      else if d.monster == Feint then Wounded(p, t, d, hit / 2, Max(d.baseExp / 2, 1), now)
      else Won(p, t, d)
    case Parry =>
      if d.monster == Hit then Won(p, t, d)
      else if d.monster == Feint then Wounded(p, t, d, hit, Max(d.baseExp / 4, 1), now)
      else (p, Report(t, d.monster, 0, Max(d.baseExp / 4, 1), 0), false)
    case NoTactic => (p, Report(t, d.monster, 0, 0, 0), false)
  }

  /** The report follows the outcome table of the fight. */
  lemma FightReport(p: Player, t: Tactic, d: BattleDraw, now: int)
    ensures t == NoTactic ==> Fight(p, t, d, now).1 == Report(t, d.monster, 0, 0, 0)
    ensures t != NoTactic && Classify(t, d.monster) == Victory ==>
      Fight(p, t, d, now).1 == Report(t, d.monster, 0, d.baseExp, d.gold)
    ensures t != NoTactic && Classify(t, d.monster) == WoundedTie ==>
      Fight(p, t, d, now).1 == Report(t, d.monster, -Min(p.hp - 1, p.maxHp / 3 / 2), Max(d.baseExp / 2, 1), 0)
    ensures t != NoTactic && Classify(t, d.monster) == Defeat ==>
      Fight(p, t, d, now).1 == Report(t, d.monster, -Min(p.hp - 1, p.maxHp / 3), Max(d.baseExp / 4, 1), 0)
    ensures t != NoTactic && Classify(t, d.monster) == CleanTie ==>
      Fight(p, t, d, now).1 == Report(t, d.monster, 0, Max(d.baseExp / 4, 1), 0)
  {
  }

  /** A winning arm: the drawn gold is paid and reported with the full base experience. */
  function Won(p: Player, t: Tactic, d: BattleDraw): (Player, Report, bool) {
    (p.(gold := p.gold + d.gold), Report(t, d.monster, 0, d.baseExp, d.gold), true)
  }

  /** A wounding arm: `-reduce_hp(n)` is reported along with the arm's experience. */
  function Wounded(p: Player, t: Tactic, d: BattleDraw, n: int, exp: int, now: int): (Player, Report, bool) {
    var (q, taken) := ReduceHp(p, n, now);
    (q, Report(t, d.monster, -taken, exp, 0), false)
  }

  /** One iteration of `_process_world_battle` for a player who chose tactic `t`: the fight as
      the branch table decides it, damage dealt before the experience is granted, the tactic
      consumed, a fresh report stored, and a victory bumping the victory counter, which is
      created at 0. */
  function BattleRound(req: int -> int, p: Player, t: Tactic, d: BattleDraw, now: int): (r: Player)
    requires Positive(req)
    ensures r.battleTactic == None
    ensures r.battleReport.Some?
    ensures r.battleReport.value.tactic == t && r.battleReport.value.monsterTactic == d.monster
    ensures r.gold == p.gold + r.battleReport.value.gold
    ensures r.gold == p.gold + if t != NoTactic && Classify(t, d.monster) == Victory then d.gold else 0
    ensures r.hp == p.hp + r.battleReport.value.hp && r.maxHp == p.maxHp
    ensures r.battleReport.value == Fight(p, t, d, now).1
    ensures r.victories ==
      if t != NoTactic && Classify(t, d.monster) == Victory then Some(p.victories.GetOr(0) + 1) else p.victories
    ensures r.level >= p.level
    ensures r.battleReport.value.exp == 0 ==> r.level == p.level && r.exp == p.exp
    ensures r.battleReport.value.exp != 0 && p.level != MAX_LEVEL ==>
      p.exp + r.battleReport.value.exp == r.exp + ThresholdSum(req, p.level, r.level)
    ensures Without(Without(r.cooldowns, REST), HEALING) == Without(Without(p.cooldowns, REST), HEALING)
    ensures UniqueKinds(p.cooldowns) ==> UniqueKinds(r.cooldowns)
    ensures r.state == p.state && r.thief == p.thief && r.diceRank == p.diceRank
    ensures r.cauldronRank == p.cauldronRank && r.cauldronCoin == p.cauldronCoin
  {
    var (p1, rep, victory) := Fight(p, t, d, now);
    var p2 := if rep.exp != 0 then IncreaseExp(req, p1, rep.exp).0 else p1;
    assert Without(Without(p2.cooldowns, REST), HEALING) == Without(Without(p.cooldowns, REST), HEALING) by {
      assert Without(p2.cooldowns, REST) == Without(p1.cooldowns, REST);
      WithoutCommutes(p1.cooldowns, REST, HEALING);
      WithoutCommutes(p.cooldowns, REST, HEALING);
    }
    p2.(battleReport := Some(rep), battleTactic := None,
        victories := if victory then Some(p2.victories.GetOr(0) + 1) else p2.victories)
  }

  /** The ids `_process_world_battle` visits: every player holding a tactic, each exactly once,
      in whatever order the query yields them. */
  predicate Fighters(w: World, order: seq<int>) {
    && (forall i, j :: 0 <= i < j < |order| ==> order[i] != order[j])
    && (forall i :: 0 <= i < |order| ==> order[i] in w && w[order[i]].battleTactic.Some?)
    && (forall id :: id in w && w[id].battleTactic.Some? ==> id in order)
  }

  /** The loop over the tactic rows: each fighter's round, one after the other. A round reads
      and writes its own player only, so the loop writes each round's result over its player. */
  function BattleLoop(req: int -> int, w: World, order: seq<int>, draws: seq<BattleDraw>, now: int): (r: World)
    requires Positive(req) && |draws| == |order|
    requires forall i, j :: 0 <= i < j < |order| ==> order[i] != order[j]
    requires forall i :: 0 <= i < |order| ==> order[i] in w && w[order[i]].battleTactic.Some?
    ensures r.Keys == w.Keys
    ensures forall id :: id in w && id !in order ==> r[id] == w[id]
    ensures forall i :: 0 <= i < |order| ==>
      r[order[i]] == BattleRound(req, w[order[i]], w[order[i]].battleTactic.value, draws[i], now)
  {
    Overwrite(w, order, seq(|order|, i requires 0 <= i < |order| =>
      BattleRound(req, w[order[i]], w[order[i]].battleTactic.value, draws[i], now)))
  }

  /** `_process_world_battle`: every old report is deleted, then each fighter fights once;
      nobody else changes. */
  function ProcessWorldBattle(req: int -> int, w: World, order: seq<int>, draws: seq<BattleDraw>, now: int): (r: World)
    requires Positive(req) && Fighters(w, order) && |draws| == |order|
    ensures r.Keys == w.Keys
    ensures forall i :: 0 <= i < |order| ==>
      r[order[i]] == BattleRound(req, w[order[i]].(battleReport := None), w[order[i]].battleTactic.value, draws[i], now)
    ensures forall id :: id in w && w[id].battleTactic.None? ==> r[id] == w[id].(battleReport := None)
  {
    var cleared := map id | id in w :: w[id].(battleReport := None);
    BattleLoop(req, cleared, order, draws, now)
  }

  /** What the raid may do to one player: no tactic is left, a report exists exactly when the
      player had fought, gold did not drop (for a player of level 0 or more), the victory
      counter rose by at most one, and no timer other than REST and HEALING moved. */
  ghost predicate Aftermath(p: Player, q: Player) {
    && q.battleTactic.None?
    && (q.battleReport.Some? <==> p.battleTactic.Some?)
    && (p.level >= 0 ==> q.gold >= p.gold)
    && (q.victories == p.victories || q.victories == Some(p.victories.GetOr(0) + 1))
    && (forall k :: k != REST && k != HEALING ==> EndsAt(q.cooldowns, k) == EndsAt(p.cooldowns, k))
  }

  /** One fighter's round keeps to `Aftermath`. */
  lemma RoundAftermath(req: int -> int, p: Player, d: BattleDraw, now: int)
    requires Positive(req) && p.battleTactic.Some? && IsBattleDraw(p.level, d)
    ensures Aftermath(p, BattleRound(req, p.(battleReport := None), p.battleTactic.value, d, now))
  {
    var q := BattleRound(req, p.(battleReport := None), p.battleTactic.value, d, now);
    if p.level >= 0 {
      assert (p.level + 1) / 2 >= 0;
    }
    forall k | k != REST && k != HEALING
      ensures EndsAt(q.cooldowns, k) == EndsAt(p.cooldowns, k)
    {
      EndsAtElsewhere(Without(q.cooldowns, REST), Without(p.cooldowns, REST), HEALING, k);
      EndsAtWithout(q.cooldowns, REST, k);
      EndsAtWithout(p.cooldowns, REST, k);
    }
  }

  /** Every player keeps to `Aftermath` across the raid. */
  lemma BattleAftermath(req: int -> int, w: World, order: seq<int>, draws: seq<BattleDraw>, now: int)
    requires Positive(req) && Fighters(w, order) && |draws| == |order|
    requires forall i :: 0 <= i < |order| ==> IsBattleDraw(w[order[i]].level, draws[i])
    ensures forall id :: id in w ==> Aftermath(w[id], ProcessWorldBattle(req, w, order, draws, now)[id])
  {
    var r := ProcessWorldBattle(req, w, order, draws, now);
    forall id | id in w
      ensures Aftermath(w[id], r[id])
    {
      if id in order {
        var i :| 0 <= i < |order| && order[i] == id;
        RoundAftermath(req, w[id], draws[i], now);
      } else {
        assert r[id] == w[id].(battleReport := None);
      }
    }
  }

  // ---------------------------------------------------------------- the cauldron

  /** The coin `_process_world_cauldron` meets first in its random order: some coin's owner, or
      nobody when no coin was thrown. */
  predicate CoinChoice(w: World, winner: Option<int>) {
    match winner
    case None => forall id :: id in w ==> !w[id].cauldronCoin
    case Some(q) => q in w && w[q].cauldronCoin
  }

  /** `_process_world_cauldron`: every coin is deleted; only the first coin's owner receives the
      gift, on their gold and on their cauldron rank, which is created if missing. The newer
      game gives CAULDRON_GIFT; the legacy one scales the gift with the number of coins. */
  function Cauldron(w: World, winner: Option<int>, gift: int): (r: World)
    requires CoinChoice(w, winner)
    ensures r.Keys == w.Keys
    ensures forall id :: id in w ==> !r[id].cauldronCoin
    ensures forall id :: id in w && Some(id) != winner ==> r[id] == w[id].(cauldronCoin := false)
    ensures winner.Some? ==>
      && r[winner.value].gold == w[winner.value].gold + gift
      && r[winner.value].cauldronRank == Some(w[winner.value].cauldronRank.GetOr(0) + gift)
      && r[winner.value] == w[winner.value].(cauldronCoin := false, gold := r[winner.value].gold,
                                             cauldronRank := r[winner.value].cauldronRank)
  {
    var spent := map id | id in w :: w[id].(cauldronCoin := false);
    match winner
    case None => spent
    case Some(q) =>
      spent[q := spent[q].(gold := spent[q].gold + gift,
                           cauldronRank := Some(spent[q].cauldronRank.GetOr(0) + gift))]
  }

  // ---------------------------------------------------------------- world cooldowns

  /** The draws and database choices a world cooldown may consume: the battle's visiting order
      and per-fighter draws, the cauldron's first coin, and the next timestamp the calendar
      functions compute. */
  datatype WorldDraw = WorldDraw(order: seq<int>, fights: seq<BattleDraw>, winner: Option<int>, next: int)

  predicate IsWorldDraw(w: World, kind: int, d: WorldDraw) {
    && (kind == BATTLE ==>
          && Fighters(w, d.order) && |d.fights| == |d.order|
          && forall i :: 0 <= i < |d.order| ==> IsBattleDraw(w[d.order[i]].level, d.fights[i]))
    && (kind == DAY ==> CoinChoice(w, d.winner))
  }

  /** The monthly reset: every dice rank and every battle rank row is deleted. */
  function MonthReset(w: World): (r: World)
    ensures r.Keys == w.Keys
    ensures forall id :: id in w ==> r[id].diceRank.None? && r[id].victories.None?
    ensures forall id :: id in w ==> r[id].(diceRank := w[id].diceRank, victories := w[id].victories) == w[id]
  {
    map id | id in w :: w[id].(diceRank := None, victories := None)
  }

  /** The yearly reset: every cauldron rank row is deleted. */
  function YearReset(w: World): (r: World)
    ensures r.Keys == w.Keys
    ensures forall id :: id in w ==> r[id].cauldronRank.None?
    ensures forall id :: id in w ==> r[id].(cauldronRank := w[id].cauldronRank) == w[id]
  {
    map id | id in w :: w[id].(cauldronRank := None)
  }

  /** The calendar events the world's cooldowns stand for. */
  predicate IsCalendar(kind: int) {
    kind == BATTLE || kind == DAY || kind == MONTH || kind == YEAR
  }

  /** `_process_world_cooldown`: the four calendar events run their effect and are moved to the
      next occurrence; any other world cooldown is deleted. The players (everyone but the world)
      end as the event's own function leaves them. */
  function ProcessWorldCooldown(req: int -> int, w: World, kind: int, d: WorldDraw, now: int): (r: World)
    requires Positive(req) && WORLD_ID in w && HasKind(w[WORLD_ID].cooldowns, kind)
    requires IsWorldDraw(w, kind, d)
    ensures r.Keys == w.Keys
    ensures IsCalendar(kind) ==> EndsAt(r[WORLD_ID].cooldowns, kind) == Some(d.next)
    ensures !IsCalendar(kind) ==>
      r == w[WORLD_ID := w[WORLD_ID].(cooldowns := RemoveFirst(w[WORLD_ID].cooldowns, kind))]
    ensures kind == BATTLE ==>
      forall id :: id in w && id != WORLD_ID ==> r[id] == ProcessWorldBattle(req, w, d.order, d.fights, now)[id]
    ensures kind == BATTLE ==> forall id :: id in w && id != WORLD_ID ==> r[id].battleTactic.None?
    ensures kind == DAY ==> forall id :: id in w && id != WORLD_ID ==> r[id] == Cauldron(w, d.winner, CAULDRON_GIFT)[id]
    ensures kind == MONTH ==> forall id :: id in w && id != WORLD_ID ==> r[id] == MonthReset(w)[id]
    ensures kind == YEAR ==> forall id :: id in w && id != WORLD_ID ==> r[id] == YearReset(w)[id]
  {
    if kind == BATTLE then
      var w1 := ProcessWorldBattle(req, w, d.order, d.fights, now);
      BattleAftermath(req, w, d.order, d.fights, now);
      assert EndsAt(w1[WORLD_ID].cooldowns, BATTLE) == EndsAt(w[WORLD_ID].cooldowns, BATTLE);
      Reschedule1(w1, BATTLE, d.next)
    else if kind == DAY then
      Reschedule1(Cauldron(w, d.winner, CAULDRON_GIFT), DAY, d.next)
    else if kind == MONTH then
      Reschedule1(MonthReset(w), MONTH, d.next)
    else if kind == YEAR then
      Reschedule1(YearReset(w), YEAR, d.next)
    else
      w[WORLD_ID := w[WORLD_ID].(cooldowns := RemoveFirst(w[WORLD_ID].cooldowns, kind))]
  }

  /** On the new day everybody but the first coin's owner only loses their coin. */
  lemma DayCoins(req: int -> int, w: World, d: WorldDraw, now: int)
    requires Positive(req) && WORLD_ID in w && HasKind(w[WORLD_ID].cooldowns, DAY)
    requires IsWorldDraw(w, DAY, d)
    ensures var r := ProcessWorldCooldown(req, w, DAY, d, now);
      forall id :: id in w && id != WORLD_ID && Some(id) != d.winner ==> r[id] == w[id].(cauldronCoin := false)
  {
  }

  /** The new month deletes every player's dice and battle rank and changes nothing else. */
  lemma MonthEvent(req: int -> int, w: World, d: WorldDraw, now: int)
    requires Positive(req) && WORLD_ID in w && HasKind(w[WORLD_ID].cooldowns, MONTH)
    ensures var r := ProcessWorldCooldown(req, w, MONTH, d, now);
      forall id :: id in w && id != WORLD_ID ==> r[id] == w[id].(diceRank := None, victories := None)
  {
  }

  /** The new year deletes every player's cauldron rank and changes nothing else. */
  lemma YearEvent(req: int -> int, w: World, d: WorldDraw, now: int)
    requires Positive(req) && WORLD_ID in w && HasKind(w[WORLD_ID].cooldowns, YEAR)
    ensures var r := ProcessWorldCooldown(req, w, YEAR, d, now);
      forall id :: id in w && id != WORLD_ID ==> r[id] == w[id].(cauldronRank := None)
  {
  }

  /** `cooldown.ends_at = next` on the world's cooldown of `kind`. */
  function Reschedule1(w: World, kind: int, next: int): (r: World)
    requires WORLD_ID in w && HasKind(w[WORLD_ID].cooldowns, kind)
    ensures r.Keys == w.Keys
    ensures EndsAt(r[WORLD_ID].cooldowns, kind) == Some(next)
    ensures forall id :: id in w && id != WORLD_ID ==> r[id] == w[id]
    ensures r[WORLD_ID] == w[WORLD_ID].(cooldowns := r[WORLD_ID].cooldowns)
  {
    w[WORLD_ID := w[WORLD_ID].(cooldowns := Reschedule(w[WORLD_ID].cooldowns, kind, next))]
  }

  // ---------------------------------------------------------------- player cooldowns

  /** An expired PLAYING_DICE wait: nobody came, so the player rests again and gets the fee
      back. */
  function DiceExpiry(p: Player): (r: Player)
    ensures r.state == REST && r.gold == p.gold + DICE_FEE
    ensures Without(r.cooldowns, PLAYING_DICE) == Without(p.cooldowns, PLAYING_DICE)
    ensures UniqueKinds(p.cooldowns) ==> UniqueKinds(r.cooldowns) && !HasKind(r.cooldowns, PLAYING_DICE)
    ensures r == p.(state := REST, gold := r.gold, cooldowns := r.cooldowns)
  {
    p.(state := REST, gold := p.gold + DICE_FEE, cooldowns := RemoveFirst(p.cooldowns, PLAYING_DICE))
  }

  /** Sitting down alone at the dice table and waiting in vain costs nothing: the resting
      player is back as they were, except that a dice rank now exists. */
  lemma DiceRefundRoundTrip(w: World, id: int, now: int)
    requires id in w && Waiting(w) == {} && w[id].state == REST
    ensures PlayDice(w, id, None, [], [], now).Success?
    ensures DiceExpiry(PlayDice(w, id, None, [], [], now).value[id])
         == w[id].(diceRank := Some(w[id].diceRank.GetOr(0)))
  {
    PlayDiceAlone(w, id, [], [], now);
    var w1 := PlayDice(w, id, None, [], [], now).value;
    assert id !in Waiting(w);
    assert w1[id].cooldowns == Append(w[id].cooldowns, Cooldown(PLAYING_DICE, now + DICE_COOLDOWN));
  }

  /** The loot a theft may bring, drawn for the thief a sentinel holds a link to. */
  predicate IsThiefLoot(w: World, s: int, gold: int, exp: int)
    requires s in w
  {
    w[s].thief.Some? && w[s].thief.value in w ==> IsThieveGold(w[w[s].thief.value].level, gold) && 1 <= exp <= 3
  }

  /** An expired NOTICED_THIEF cooldown: the sentinel `s` let the thief go, so the thief takes
      the loot and 1..3 exp, and `stop_noticing` sends both back to rest. A missing thief raises
      before anything changes. */
  function NoticedThiefExpiry(req: int -> int, w: World, s: int, gold: int, exp: int): (r: Result<World, Fault>)
    requires Positive(req) && s in w && IsThiefLoot(w, s, gold, exp)
    ensures r.Success? <==> w[s].thief.Some? && w[s].thief.value in w && HasKind(w[s].cooldowns, NOTICED_THIEF)
    ensures r.Success? ==> r.value.Keys == w.Keys
    ensures r.Success? ==> forall o :: o in w && o != s && Some(o) != w[s].thief ==> r.value[o] == w[o]
    ensures r.Success? && w[s].thief.value != s ==>
      && r.value[s] == w[s].(state := REST, thief := None, cooldowns := RemoveFirst(w[s].cooldowns, NOTICED_THIEF))
      && var t := w[s].thief.value;
      && r.value[t].state == REST
      && w[t].gold + 10 <= r.value[t].gold == w[t].gold + gold <= w[t].gold + 40
      && r.value[t].level >= w[t].level
      && ExpGained(req, w[t], r.value[t], exp)
    ensures r.Success? && UniqueKinds(w[s].cooldowns) ==>
      UniqueKinds(r.value[s].cooldowns) && !HasKind(r.value[s].cooldowns, NOTICED_THIEF)
  {
    if w[s].thief.None? || w[s].thief.value !in w then Failure(MissingThief)
    else
      var t := w[s].thief.value;
      var paid := IncreaseExp(req, w[t].(gold := w[t].gold + gold), exp).0;
      ExpGainedFrame(req, w[t], w[t].(gold := w[t].gold + gold), paid, exp);
      var w1 := w[t := paid];
      assert HasKind(w1[s].cooldowns, NOTICED_THIEF) <==> HasKind(w[s].cooldowns, NOTICED_THIEF) by {
        if t == s {
          EndsAtElsewhere(w1[s].cooldowns, w[s].cooldowns, REST, NOTICED_THIEF);
        }
      }
      StopNoticing(w1, s)
  }

  /** The draws a player cooldown may consume: a town outcome, the sentinel the thief's query
      picks, and the loot's gold and exp (for a theft that went unnoticed or was let go). */
  datatype PlayerDraw = PlayerDraw(town: TownDraw, sentinel: Option<int>, gold: int, exp: int)

  predicate IsPlayerDraw(w: World, id: int, kind: int, d: PlayerDraw)
    requires id in w
  {
    && (kind == NOTICED_THIEF ==> IsThiefLoot(w, id, d.gold, d.exp))
    && (kind == TOWN.id ==> IsTownDraw(d.town))
    && (kind == THIEVE.id ==>
          SentinelChoice(w, d.sentinel) && IsThieveGold(w[id].level, d.gold) && 1 <= d.exp <= 3)
  }

  /** The quest branch of `_process_player_cooldown`: the quest the cooldown's id names ends
      (the theft its own way), an unknown id ends nothing, and the cooldown is deleted in both
      cases. */
  function QuestExpiry(req: int -> int, w: World, id: int, kind: int, d: PlayerDraw, now: int): (r: Result<World, Fault>)
    requires Positive(req) && id in w && IsPlayerDraw(w, id, kind, d)
    ensures r.Failure? <==> kind == THIEVE.id && d.sentinel.Some? && HasKind(w[d.sentinel.value].cooldowns, NOTICED_THIEF)
    ensures r.Success? ==> r.value.Keys == w.Keys
    ensures r.Success? && UniqueKinds(w[id].cooldowns) ==>
      UniqueKinds(r.value[id].cooldowns) && !HasKind(r.value[id].cooldowns, kind)
    ensures GetQuest(kind).None? ==>
      r == Success(w[id := w[id].(cooldowns := RemoveFirst(w[id].cooldowns, kind))])
    ensures kind == TOWN.id ==>
      && r.Success? && r.value[id].state == REST
      && r.value[id].gold == w[id].gold + TownResult(d.town).gold
      && forall o :: o in w && o != id ==> r.value[o] == w[o]
    ensures kind == THIEVE.id && d.sentinel.None? ==> r.Success? && r.value[id].state == REST
    ensures kind == THIEVE.id && d.sentinel.Some? && d.sentinel.value != id && r.Success? ==>
      r.value[id].state == NOTICED_SENTINEL && r.value[id].gold == w[id].gold
  {
    var ended :=
      match GetQuest(kind)
      case None => Success(w)
      case Some(q) =>
        if q == THIEVE then ThieveEnd(req, w, id, d.sentinel, d.gold, d.exp, now)
        else Success(w[id := QuestEnd(req, w[id], TownResult(d.town), now)]);
    match ended
    case Failure(e) => Failure(e)
    case Success(w1) => Success(w1[id := w1[id].(cooldowns := RemoveFirst(w1[id].cooldowns, kind))])
  }

  /** A town stroll expires as `QuestEnd` with the town result leaves the player, minus the
      stroll's timer; nobody else changes. */
  lemma TownExpiry(req: int -> int, w: World, id: int, d: PlayerDraw, now: int)
    requires Positive(req) && id in w && IsPlayerDraw(w, id, TOWN.id, d)
    ensures var r := QuestExpiry(req, w, id, TOWN.id, d, now);
            var e := QuestEnd(req, w[id], TownResult(d.town), now);
            && r.Success? && r.value.Keys == w.Keys
            && r.value[id] == e.(cooldowns := RemoveFirst(e.cooldowns, TOWN.id))
            && forall o :: o in w && o != id ==> r.value[o] == w[o]
  { }

  /** A theft expires as `ThieveEnd` leaves the world, minus the thief's timer: it fails exactly
      when `ThieveEnd` does, and every other player ends as `ThieveEnd` leaves them. */
  lemma ThieveExpiry(req: int -> int, w: World, id: int, d: PlayerDraw, now: int)
    requires Positive(req) && id in w && IsPlayerDraw(w, id, THIEVE.id, d)
    ensures var r := QuestExpiry(req, w, id, THIEVE.id, d, now);
            var e := ThieveEnd(req, w, id, d.sentinel, d.gold, d.exp, now);
            && r.Success? == e.Success?
            && (e.Success? ==>
                  && r.value[id] == e.value[id].(cooldowns := RemoveFirst(e.value[id].cooldowns, THIEVE.id))
                  && forall o :: o in e.value && o != id ==> r.value[o] == e.value[o])
  { }

  /** `_process_player_cooldown` on the cooldown of `kind` that player `id` holds: REST and
      HEALING tick, and every other kind ends as its own expiry function says. */
  function ProcessPlayerCooldown(req: int -> int, w: World, id: int, kind: int, d: PlayerDraw, now: int)
    : (r: Result<World, Fault>)
    requires Positive(req) && id in w && HasKind(w[id].cooldowns, kind) && IsPlayerDraw(w, id, kind, d)
    ensures r.Success? ==> r.value.Keys == w.Keys
    ensures kind == REST ==> r.Success? && r.value[id].stamina == Tick(w[id].stamina, w[id].maxStamina, w[id].cooldowns, REST, STAMINA_COOLDOWN).0
    ensures kind == HEALING ==> r.Success? && r.value[id].hp == Tick(w[id].hp, w[id].maxHp, w[id].cooldowns, HEALING, LIFEREGEN_COOLDOWN).0
    ensures kind == REST && w[id].stamina <= w[id].maxStamina ==> r.value[id].stamina <= r.value[id].maxStamina
    ensures kind == HEALING && w[id].hp <= w[id].maxHp ==> r.value[id].hp <= r.value[id].maxHp
    ensures kind == PLAYING_DICE ==> r.Success? && r.value[id].gold == w[id].gold + DICE_FEE && r.value[id].state == REST
    ensures kind == PLAYING_DICE ==> r == Success(w[id := DiceExpiry(w[id])])
    ensures kind == NOTICED_THIEF ==> r == NoticedThiefExpiry(req, w, id, d.gold, d.exp)
    ensures kind != REST && kind != HEALING && kind != NOTICED_THIEF && kind != PLAYING_DICE ==>
      r == QuestExpiry(req, w, id, kind, d, now)
    ensures r.Success? && UniqueKinds(w[id].cooldowns) ==>
      && UniqueKinds(r.value[id].cooldowns)
      && (HasKind(r.value[id].cooldowns, kind) <==>
            || (kind == REST && r.value[id].stamina < r.value[id].maxStamina)
            || (kind == HEALING && r.value[id].hp < r.value[id].maxHp))
  {
    var p := w[id];
    if kind == REST then
      var (stamina, cs) := Tick(p.stamina, p.maxStamina, p.cooldowns, REST, STAMINA_COOLDOWN);
      Success(w[id := p.(stamina := stamina, cooldowns := cs)])
    else if kind == HEALING then
      var (hp, cs) := Tick(p.hp, p.maxHp, p.cooldowns, HEALING, LIFEREGEN_COOLDOWN);
      Success(w[id := p.(hp := hp, cooldowns := cs)])
    else if kind == NOTICED_THIEF then
      NoticedThiefExpiry(req, w, id, d.gold, d.exp)
    else if kind == PLAYING_DICE then
      Success(w[id := DiceExpiry(p)])
    else
      QuestExpiry(req, w, id, kind, d, now)
  }
}

=== FILE: quests.dfy ===
/** The two quests a player can go on: the gates that let one start, and what happens when its
    cooldown runs out. */
module Quests {
  import opened Wrappers
  import opened Consts
  import opened Ledger
  import opened Orm
  import opened Util

  /** The rule-relevant part of a `Quest`: its id (which is also the state and cooldown kind it
      uses), how long it lasts, its stamina cost and the level it asks for. */
  datatype Quest = Quest(id: int, duration: int, staminaCost: int, requiredLevel: int)

  /** `TownQuest`: wandering around the town. */
  const TOWN: Quest := Quest(1, 60 * 3, 1, 0)

  /** `ThieveQuest`: robbing the townsmen, which a resting player may notice. */
  const THIEVE: Quest := Quest(2, 60 * 2, 2, 3)

  /** The `quests` list, in its order. */
  const QUESTS: seq<Quest> := [TOWN, THIEVE]

  /** `get_quest`: the quest at position `id - 1`, if there is one. */
  function GetQuest(questId: int): (r: Option<Quest>)
    ensures r.Some? <==> 1 <= questId <= |QUESTS|
    ensures r.Some? ==> r.value in QUESTS
  {
    var index := questId - 1;
    if 0 <= index < |QUESTS| then Some(QUESTS[index]) else None
  }

  /** Each quest is found again under its own id, and an id finds only the quest carrying it:
      the positions in the list and the ids agree. */
  lemma GetQuestById()
    ensures forall i :: 0 <= i < |QUESTS| ==> GetQuest(QUESTS[i].id) == Some(QUESTS[i])
    ensures forall questId :: GetQuest(questId).Some? ==> GetQuest(questId).value.id == questId
  {
    assert QUESTS[0].id == 1 && QUESTS[1].id == 2;
  }

  // ---------------------------------------------------------------- starting

  /** `Quest.command`: the gates are checked in order (level, resting, hp, stamina), each one
      only when the previous passed; the first that fails leaves the world as it was. The
      resting gate reads the world's BATTLE cooldown and raises when there is none. */
  function QuestCommand(w: World, id: int, q: Quest, now: int): (r: Result<World, Fault>)
    ensures r.Success? <==>
      && id in w
      && ValidateLevel(w[id], q.requiredLevel)
      && BattleEndsAt(w).Some?
      && ValidateResting(w[id], BattleEndsAt(w).value, now, false)
      && ValidateHp(w[id])
      && ValidateStamina(w[id], q.staminaCost)
      && !HasKind(w[id].cooldowns, q.id)
    ensures r.Failure? && (id !in w || !ValidateLevel(w[id], q.requiredLevel)) ==> r.error == Rejected
    ensures r.Success? ==> r.value.Keys == w.Keys
    ensures r.Success? ==> forall o :: o in w && o != id ==> r.value[o] == w[o]
  {
    if id !in w || !ValidateLevel(w[id], q.requiredLevel) then Failure(Rejected)
    else if BattleEndsAt(w).None? then Failure(MissingCooldown)
    else if !ValidateResting(w[id], BattleEndsAt(w).value, now, false) || !ValidateHp(w[id])
         || !ValidateStamina(w[id], q.staminaCost) then Failure(Rejected)
    else if HasKind(w[id].cooldowns, q.id) then Failure(Conflict)
    else Success(w[id := StartQuest(w[id], q.id, q.duration, q.staminaCost, now)])
  }

  /** When every gate passes the quest starts: the player's record becomes the one `start_quest`
      makes (its state and cooldown, its stamina cost spent), stamina does not go negative since
      the gate made sure it was there, and gold and hp are untouched. */
  lemma QuestCommandStarts(w: World, id: int, q: Quest, now: int)
    requires id in w && ValidateLevel(w[id], q.requiredLevel) && BattleEndsAt(w).Some?
    requires ValidateResting(w[id], BattleEndsAt(w).value, now, false) && ValidateHp(w[id])
    requires ValidateStamina(w[id], q.staminaCost) && !HasKind(w[id].cooldowns, q.id)
    ensures QuestCommand(w, id, q, now).Success?
    ensures QuestCommand(w, id, q, now).value[id] == StartQuest(w[id], q.id, q.duration, q.staminaCost, now)
    ensures QuestCommand(w, id, q, now).value[id].stamina >= 0
    ensures QuestCommand(w, id, q, now).value[id].gold == w[id].gold
    ensures QuestCommand(w, id, q, now).value[id].hp == w[id].hp
  {
  }

  // ---------------------------------------------------------------- town outcomes

  /** The `random.choices` draw of `TownQuest.get_result`. */
  datatype Quality = Bad | Normal | Good

  /** A `QuestResult` without its description: signed gold, exp and hp changes. */
  datatype QuestResult = QuestResult(gold: int, exp: int, hp: int)

  /** The draws of one town outcome: the quality, whether the first description of its list
      came up (the hurt, the single coin, the nap), and the `randint` draws for gold, exp and
      healing or damage. */
  datatype TownDraw = TownDraw(quality: Quality, first: bool, gold: int, exp: int, hp: int)

  /** The ranges the `randint` calls of the drawn branch use; a draw a branch does not make is
      free. */
  predicate IsTownDraw(d: TownDraw) {
    match d.quality
    case Bad => d.first ==> 1 <= d.gold <= 2 && 1 <= d.exp <= 2 && 5 <= d.hp <= 10
    case Normal => 1 <= d.exp <= 2 && (!d.first ==> 1 <= d.gold <= 2)
    case Good => 2 <= d.exp <= 3 && 5 <= d.hp <= 10 && (if d.first then 2 <= d.gold <= 3 else 3 <= d.gold <= 4)
  }

  /** `TownQuest.get_result`: only the hurt result costs hp and only the nap heals; every other
      bad result is empty, and every non-empty result pays at least one gold and one exp. */
  function TownResult(d: TownDraw): (r: QuestResult)
    requires IsTownDraw(d)
    ensures 0 <= r.gold <= 4 && 0 <= r.exp <= 3 && -10 <= r.hp <= 10
    ensures r.hp < 0 <==> d.quality == Bad && d.first
    ensures r.hp > 0 <==> d.quality == Good && d.first
    ensures r == QuestResult(0, 0, 0) <==> d.quality == Bad && !d.first
    ensures r != QuestResult(0, 0, 0) ==> r.gold >= 1 && r.exp >= 1
    ensures d.quality == Good ==> r.gold >= 2 && r.exp >= 2
    ensures d.quality == Normal && d.first ==> r.gold == 1
  {
    match d.quality
    case Bad => if d.first then QuestResult(d.gold, d.exp, -d.hp) else QuestResult(0, 0, 0)
    case Normal => if d.first then QuestResult(1, d.exp, 0) else QuestResult(d.gold, d.exp, 0)
    case Good => if d.first then QuestResult(d.gold, d.exp, d.hp) else QuestResult(d.gold, d.exp, 0)
  }

  // ---------------------------------------------------------------- ending

  /** `Quest.end`: experience first (only when nonzero), then gold, then hp, where a loss goes
      through `reduce_hp` and a gain is capped at max hp; the player is resting afterwards. */
  function QuestEnd(req: int -> int, p: Player, res: QuestResult, now: int): (r: Player)
    requires Positive(req)
    ensures r.state == REST
    ensures r.gold == p.gold + res.gold
    ensures r.maxHp == p.maxHp
    ensures res.hp < 0 && p.hp >= 1 ==> r.hp == Max(p.hp + res.hp, 1)
    ensures res.hp > 0 ==> r.hp == Min(p.hp + res.hp, p.maxHp)
    ensures res.hp == 0 ==> r.hp == p.hp
    ensures 1 <= p.hp <= p.maxHp ==> 1 <= r.hp <= r.maxHp
    ensures r.level >= p.level
    ensures res.exp == 0 ==> r.level == p.level && r.exp == p.exp
    ensures res.exp != 0 ==> ExpGained(req, p, r, res.exp)
    ensures r.thief == p.thief && r.skills == p.skills && r.diceRank == p.diceRank
    ensures UniqueKinds(p.cooldowns) ==> UniqueKinds(r.cooldowns)
  {
    var p1 := if res.exp != 0 then IncreaseExp(req, p, res.exp).0 else p;
    var p2 := if res.gold != 0 then p1.(gold := p1.gold + res.gold) else p1;
    var p3 :=
      if res.hp < 0 then ReduceHp(p2, -res.hp, now).0
      else if res.hp > 0 then p2.(hp := Min(p2.hp + res.hp, p2.maxHp))
      else p2;
    p3.(state := REST)
  }

  /** Who `ThieveQuest.end` may pick as the sentinel: some resting player other than the world,
      or nobody when no player rests. */
  predicate SentinelChoice(w: World, sentinel: Option<int>) {
    match sentinel
    case None => forall id :: id in w && id > WORLD_ID ==> w[id].state != REST
    case Some(s) => s in w && s > WORLD_ID && w[s].state == REST
  }

  /** `ThieveQuest.end`: a resting player who is around notices the thief, who gets nothing yet;
      with nobody around the thief rests and takes the loot and 1..3 exp. The sentinel's
      NOTICED_THIEF cooldown must be new. */
  function ThieveEnd(req: int -> int, w: World, thief: int, sentinel: Option<int>, gold: int, exp: int, now: int)
    : (r: Result<World, Fault>)
    requires Positive(req) && thief in w && SentinelChoice(w, sentinel)
    requires IsThieveGold(w[thief].level, gold) && 1 <= exp <= 3
    ensures r.Failure? <==> sentinel.Some? && HasKind(w[sentinel.value].cooldowns, NOTICED_THIEF)
    ensures r.Failure? ==> r.error == Conflict
    ensures r.Success? ==> r.value.Keys == w.Keys
    ensures r.Success? && UniqueKinds(w[thief].cooldowns) ==> UniqueKinds(r.value[thief].cooldowns)
    ensures r.Success? && sentinel.Some? && sentinel.value != thief ==>
      && r.value[sentinel.value].state == NOTICED_THIEF
      && r.value[sentinel.value].thief == Some(thief)
      && r.value[thief] == w[thief].(state := NOTICED_SENTINEL)
    ensures sentinel.None? ==>
      && r.Success?
      && r.value[thief].state == REST
      && r.value[thief].gold == w[thief].gold + gold
      && w[thief].gold + 10 <= r.value[thief].gold <= w[thief].gold + 40
      && r.value[thief].level >= w[thief].level
      && ExpGained(req, w[thief], r.value[thief], exp)
      && forall o :: o in w && o != thief ==> r.value[o] == w[o]
  {
    match sentinel
    case Some(s) =>
      if HasKind(w[s].cooldowns, NOTICED_THIEF) then Failure(Conflict)
      else Success(StartNoticing(w, s, thief, now))
    case None =>
      var p := w[thief].(state := REST, gold := w[thief].gold + gold);
      var paid := IncreaseExp(req, p, exp).0;
      ExpGainedFrame(req, w[thief], p, paid, exp);
      Success(w[thief := paid])
  }
}

=== FILE: text.dfy ===
/** Decimal rendering of integers as Python's f-strings produce it, with the parsers that undo it. */
module Text {

  predicate IsDigit(c: char) {
    '0' <= c <= '9'
  }

  function DigitChar(d: int): (c: char)
    requires 0 <= d < 10
    ensures IsDigit(c) && DigitValue(c) == d
  {
    (48 + d) as char
  }

  function DigitValue(c: char): int
    requires IsDigit(c)
  {
    c as int - 48
  }

  predicate AllDigits(s: string) {
    forall i :: 0 <= i < |s| ==> IsDigit(s[i])
  }

  /** `f"{n}"` for a non-negative `n`: the shortest decimal numeral, no leading zero. */
  function NatToString(n: nat): (s: string)
    ensures 1 <= |s| && AllDigits(s)
    ensures |s| > 1 ==> s[0] != '0'
    decreases n
  {
    if n < 10 then [DigitChar(n)] else NatToString(n / 10) + [DigitChar(n % 10)]
  }

  /** Reads back a numeral made of digits; the empty numeral reads as 0. */
  function ParseNat(s: string): nat
    requires AllDigits(s)
  {
    if |s| == 0 then 0 else 10 * ParseNat(s[..|s| - 1]) + DigitValue(s[|s| - 1])
  }

  lemma {:induction false} ParseNatToString(n: nat)
    ensures ParseNat(NatToString(n)) == n
    decreases n
  {
    if n >= 10 {
      var s := NatToString(n);
      assert s[..|s| - 1] == NatToString(n / 10);
      ParseNatToString(n / 10);
    }
  }

  /** `f"{n}"` for any integer. */
  function IntToString(n: int): string {
    if n >= 0 then NatToString(n) else "-" + NatToString(-n)
  }

  /** `f"{n:+}"`: the numeral of `n` always preceded by its sign, `"+0"` for zero. */
  function Signed(n: int): (s: string)
    ensures |s| >= 2 && (s[0] == '+' || s[0] == '-') && AllDigits(s[1..])
  {
    if n >= 0 then "+" + NatToString(n) else "-" + NatToString(-n)
  }

  function ParseSigned(s: string): int
    requires |s| >= 1 && AllDigits(s[1..])
  {
    if s[0] == '-' then -(ParseNat(s[1..]) as int) else ParseNat(s[1..])
  }

  /** The signed rendering loses nothing: the number can be read back from it. */
  lemma SignedRoundTrip(n: int)
    ensures ParseSigned(Signed(n)) == n
  {
    if n >= 0 {
      assert Signed(n)[1..] == NatToString(n);
      ParseNatToString(n);
    } else {
      assert Signed(n)[1..] == NatToString(-n);
      ParseNatToString(-n);
    }
  }

  /** `sep.join(parts)`. */
  function Join(parts: seq<string>, sep: string): string
    decreases |parts|
  {
    if |parts| == 0 then ""
    else if |parts| == 1 then parts[0]
    else parts[0] + sep + Join(parts[1..], sep)
  }
}

=== FILE: util.dfy ===
/** Pure helpers of `deltaland/util.py`; the legacy `simplebot_deltaland/util.py` has identical
    `is_valid_name` and `human_time_duration`, so these members model both. */
module Util {
  import opened Wrappers
  import opened Text

  // ---------------------------------------------------------------- names

  /** `string.ascii_letters + string.digits + " "`. */
  predicate IsNameChar(c: char) {
    ('a' <= c <= 'z') || ('A' <= c <= 'Z') || ('0' <= c <= '9') || c == ' '
  }

  /** The character scan of `is_valid_name`: false at the first character outside the alphabet. */
  function AllNameChars(s: string): (r: bool)
    ensures r <==> forall i :: 0 <= i < |s| ==> IsNameChar(s[i])
  {
    if |s| == 0 then true else IsNameChar(s[0]) && AllNameChars(s[1..])
  }

  function IsValidName(name: string): (r: bool)
    ensures r <==> (forall i :: 0 <= i < |name| ==> IsNameChar(name[i])) && 1 <= |name| <= 16
  {
    AllNameChars(name) && 0 < |name| <= 16
  }

  /** The names the bot tests use: symbols are refused, a plain word is accepted. */
  lemma NameExamples()
    ensures !IsValidName("@#$%")
    ensures IsValidName("test")
    ensures !IsValidName("")
    ensures !IsValidName("abcdefghijklmnopq")
  {
    assert !IsNameChar('@');
    assert |"abcdefghijklmnopq"| == 17;
  }

  // ---------------------------------------------------------------- durations

  /** `divmod(rem, div)` for the unit with index `i` of the `_TIME_DURATION_UNITS` table:
      week, day, hour, min and sec, of 604800, 86400, 3600, 60 and 1 seconds. */
  function UnitDivMod(rem: nat, i: nat): (nat, nat) {
    if i == 0 then (rem / 604800, rem % 604800)
    else if i == 1 then (rem / 86400, rem % 86400)
    else if i == 2 then (rem / 3600, rem % 3600)
    else if i == 3 then (rem / 60, rem % 60)
    else (rem, 0)
  }

  function UnitName(i: nat): string {
    if i == 0 then "week"
    else if i == 1 then "day"
    else if i == 2 then "hour"
    else if i == 3 then "min"
    else if i == 4 then "sec"
    else ""
  }

  const MINUTE_UNIT: nat := 3
  const SECOND_UNIT: nat := 4

  /** One emitted component: a positive amount of the unit with index `unit`. */
  datatype Part = Part(amount: nat, unit: nat)

  /** The number of seconds a component stands for. */
  function PartSeconds(p: Part): int {
    if p.unit == 0 then p.amount * 604800
    else if p.unit == 1 then p.amount * 86400
    else if p.unit == 2 then p.amount * 3600
    else if p.unit == 3 then p.amount * 60
    else p.amount
  }

  /** The number of seconds a list of components stands for. */
  function Total(ps: seq<Part>): (t: int)
    ensures t >= 0
  {
    if |ps| == 0 then 0 else PartSeconds(ps[0]) + Total(ps[1..])
  }

  /** Quotient and remainder recombine to the dividend; a remainder keeps the seconds within
      the minute, and the last unit leaves nothing over. */
  lemma UnitDivModRecombines(rem: nat, i: nat)
    requires i < 5
    ensures PartSeconds(Part(UnitDivMod(rem, i).0, i)) + UnitDivMod(rem, i).1 == rem
    ensures i < SECOND_UNIT ==> UnitDivMod(rem, i).1 % 60 == rem % 60
    ensures i == MINUTE_UNIT ==> UnitDivMod(rem, i).1 < 60
    ensures i == SECOND_UNIT ==> UnitDivMod(rem, i).1 == 0
  {
    if i == 0 {
      DivModRecombines(rem, 604800);
      ModOfMinuteMultiple(rem, 10080);
    } else if i == 1 {
      DivModRecombines(rem, 86400);
      ModOfMinuteMultiple(rem, 1440);
    } else if i == 2 {
      DivModRecombines(rem, 3600);
      ModOfMinuteMultiple(rem, 60);
    } else if i == 3 {
      DivModRecombines(rem, 60);
    }
  }

  lemma DivModRecombines(a: nat, d: nat)
    requires d > 0
    ensures (a / d) * d + a % d == a
    ensures 0 <= a % d < d
  {
  }

  /** Taking the remainder by a whole number of minutes keeps the seconds within the minute. */
  lemma ModOfMinuteMultiple(a: nat, k: nat)
    requires k > 0
    ensures (a % (60 * k)) % 60 == a % 60
  {
    var d := 60 * k;
    var q, r := a / d, a % d;
    var m := q * k;
    assert q * d == m * 60;
    assert a == m * 60 + r;
  }

  /** The seconds in one of unit `i` (for `i < 5`), as the table lists them. */
  function UnitSeconds(i: nat): nat {
    if i == 0 then 604800 else if i == 1 then 86400 else if i == 2 then 3600 else if i == 3 then 60 else 1
  }

  /** How many of unit `i` make one of the unit before it: 7 days, 24 hours, 60 minutes and
      60 seconds. Weeks have no bigger unit. */
  function UnitRatio(i: nat): nat {
    if i == 1 then 7 else if i == 2 then 24 else 60
  }

  /** Every amount but the weeks' stays below its ratio, as the successive `divmod` leaves it:
      no "7days" or "60min". */
  predicate CanonicalAmounts(ps: seq<Part>) {
    forall k :: 0 <= k < |ps| && ps[k].unit > 0 ==> ps[k].amount < UnitRatio(ps[k].unit)
  }

  predicate WellFormedParts(ps: seq<Part>, from: nat) {
    && (forall k :: 0 <= k < |ps| ==> ps[k].amount > 0 && from <= ps[k].unit < 5)
    && (forall k, l :: 0 <= k < l < |ps| ==> ps[k].unit < ps[l].unit)
  }

  /** The loop of `human_time_duration` from unit `i` on, with `rem` seconds still to split:
      each unit takes `divmod(rem, div)`, nonzero amounts are emitted, and with `rounded`
      the loop breaks right after emitting a minute amount. */
  function Parts(rem: nat, rounded: bool, i: nat): (ps: seq<Part>)
    requires i <= 5
    decreases 5 - i
  {
    if i == 5 then []
    else
      var (amount, rest) := UnitDivMod(rem, i);
      if amount > 0 then
        if rounded && i == MINUTE_UNIT then [Part(amount, i)]
        else [Part(amount, i)] + Parts(rest, rounded, i + 1)
      else Parts(rest, rounded, i + 1)
  }

  /** `f"{amount}{unit}{plural}"`, the plural "s" only for weeks, days and hours above one. */
  function RenderPart(p: Part): string {
    NatToString(p.amount) + UnitName(p.unit) + (if p.amount > 1 && p.unit < MINUTE_UNIT then "s" else "")
  }

  function RenderParts(ps: seq<Part>): (r: seq<string>)
    ensures |r| == |ps|
    ensures forall k :: 0 <= k < |ps| ==> r[k] == RenderPart(ps[k])
  {
    if |ps| == 0 then [] else [RenderPart(ps[0])] + RenderParts(ps[1..])
  }

  function HumanTimeDuration(seconds: int, rounded: bool): (s: string)
    ensures seconds < 60 ==> s == "a few seconds"
    ensures seconds >= 60 ==> s == Join(RenderParts(Parts(seconds, rounded, 0)), ", ")
    ensures seconds >= 60 ==>
      exists ps :: WellFormedParts(ps, 0) && CanonicalAmounts(ps) && s == Join(RenderParts(ps), ", ")
                   && (!rounded ==> Total(ps) == seconds)
  {
    if seconds < 60 then "a few seconds"
    else
      PartsOrdered(seconds, rounded, 0);
      PartsCanonical(seconds, rounded, 0);
      PartsTotal(seconds, 0);
      Join(RenderParts(Parts(seconds, rounded, 0)), ", ")
  }

  lemma {:induction false} PartsTotal(rem: nat, i: nat)
    requires i <= 4
    ensures Total(Parts(rem, false, i)) == rem
    decreases 5 - i
  {
    var (amount, rest) := UnitDivMod(rem, i);
    UnitDivModRecombines(rem, i);
    var tail := Parts(rest, false, i + 1);
    if i < 4 {
      PartsTotal(rest, i + 1);
    } else {
      assert tail == [];
    }
    var ps := Parts(rem, false, i);
    if amount > 0 {
      assert ps == [Part(amount, i)] + tail;
      assert ps[1..] == tail;
    } else {
      assert ps == tail;
    }
  }

  /** The components come out in the order of the table, each unit at most once. */
  lemma {:induction false} PartsOrdered(rem: nat, rounded: bool, i: nat)
    requires i <= 5
    ensures WellFormedParts(Parts(rem, rounded, i), i)
    decreases 5 - i
  {
    if i < 5 {
      var (amount, rest) := UnitDivMod(rem, i);
      var tail := Parts(rest, rounded, i + 1);
      PartsOrdered(rest, rounded, i + 1);
      var ps := Parts(rem, rounded, i);
      if amount > 0 && !(rounded && i == MINUTE_UNIT) {
        assert ps == [Part(amount, i)] + tail;
        ConsWellFormed(amount, i, tail);
      }
    }
  }

  /** Once a bigger unit has been taken out, every amount emitted stays below its ratio. */
  lemma {:induction false} PartsCanonical(rem: nat, rounded: bool, i: nat)
    requires i <= 5 && (i > 0 ==> rem < UnitSeconds(i - 1))
    ensures CanonicalAmounts(Parts(rem, rounded, i))
    decreases 5 - i
  {
    if i < 5 {
      var (amount, rest) := UnitDivMod(rem, i);
      assert rest < UnitSeconds(i);
      assert i > 0 ==> amount < UnitRatio(i);
      var tail := Parts(rest, rounded, i + 1);
      PartsCanonical(rest, rounded, i + 1);
      var ps := Parts(rem, rounded, i);
      if amount > 0 {
        if rounded && i == MINUTE_UNIT {
          assert ps == [Part(amount, i)];
        } else {
          assert ps == [Part(amount, i)] + tail;
          forall k | 0 <= k < |ps| && ps[k].unit > 0
            ensures ps[k].amount < UnitRatio(ps[k].unit)
          {
            if k > 0 {
              assert ps[k] == tail[k - 1];
            }
          }
        }
      }
    }
  }

  /** The components after the first of a well-formed list are well formed from the unit
      after the first one's, and stay canonical. */
  lemma TailWellFormed(ps: seq<Part>, from: nat)
    requires |ps| > 0 && WellFormedParts(ps, from) && CanonicalAmounts(ps)
    ensures WellFormedParts(ps[1..], ps[0].unit + 1) && CanonicalAmounts(ps[1..])
  {
    var tail := ps[1..];
    forall k | 0 <= k < |tail|
      ensures tail[k].amount > 0 && ps[0].unit + 1 <= tail[k].unit < 5
      ensures tail[k].unit > 0 ==> tail[k].amount < UnitRatio(tail[k].unit)
    {
      assert tail[k] == ps[k + 1];
    }
    forall k, l | 0 <= k < l < |tail|
      ensures tail[k].unit < tail[l].unit
    {
      assert tail[k] == ps[k + 1] && tail[l] == ps[l + 1];
    }
  }

  /** Canonical components from unit `j` on stand for less than one of the unit before `j`. */
  lemma {:induction false} TotalBelowUnit(ps: seq<Part>, j: nat)
    requires 1 <= j <= 5 && WellFormedParts(ps, j) && CanonicalAmounts(ps)
    ensures Total(ps) < UnitSeconds(j - 1)
    decreases |ps|
  {
    if |ps| > 0 {
      var u := ps[0].unit;
      TailWellFormed(ps, j);
      TotalBelowUnit(ps[1..], u + 1);
      assert ps[0].amount < UnitRatio(u);
    }
  }

  /** `divmod` by a unit's seconds has one answer: an amount and a remainder below the unit. */
  lemma UnitDivModUnique(rem: nat, i: nat, amount: nat, rest: nat)
    requires i < 5 && rest < UnitSeconds(i) && rem == PartSeconds(Part(amount, i)) + rest
    ensures UnitDivMod(rem, i) == (amount, rest)
  {
    if i == 0 {
      DivUnique(rem, amount, rest, 604800);
    } else if i == 1 {
      DivUnique(rem, amount, rest, 86400);
    } else if i == 2 {
      DivUnique(rem, amount, rest, 3600);
    } else if i == 3 {
      DivUnique(rem, amount, rest, 60);
    }
  }

  lemma DivUnique(a: nat, q: nat, r: nat, d: nat)
    requires 0 <= r < d && a == q * d + r
    ensures a / d == q && a % d == r
  {
    var q', r' := a / d, a % d;
    DivModRecombines(a, d);
    if q' > q {
      MulMonotone(q' - q, d);
    } else if q' < q {
      MulMonotone(q - q', d);
    }
  }

  lemma MulMonotone(k: int, d: int)
    requires k >= 1 && d >= 0
    ensures k * d >= d
  {
  }

  /** A canonical list that starts with unit `i` is that amount of `i` in front of the
      decomposition of what its tail stands for. */
  lemma HeadStep(ps: seq<Part>, i: nat)
    requires i < 5 && WellFormedParts(ps, i) && CanonicalAmounts(ps) && |ps| > 0 && ps[0].unit == i
    ensures WellFormedParts(ps[1..], i + 1) && CanonicalAmounts(ps[1..])
    ensures Parts(Total(ps), false, i) == [ps[0]] + Parts(Total(ps[1..]), false, i + 1)
  {
    var tail := ps[1..];
    TailWellFormed(ps, i);
    TotalBelowUnit(tail, i + 1);
    UnitDivModUnique(Total(ps), i, ps[0].amount, Total(tail));
  }

  /** A canonical list without unit `i` stands for less than one of it, so unit `i` emits
      nothing. */
  lemma SkipStep(ps: seq<Part>, i: nat)
    requires i < 5 && WellFormedParts(ps, i) && CanonicalAmounts(ps) && !(|ps| > 0 && ps[0].unit == i)
    ensures WellFormedParts(ps, i + 1)
    ensures Parts(Total(ps), false, i) == Parts(Total(ps), false, i + 1)
  {
    if |ps| > 0 {
      forall k | 0 < k < |ps|
        ensures ps[0].unit < ps[k].unit
      { }
    }
    assert WellFormedParts(ps, i + 1);
    TotalBelowUnit(ps, i + 1);
    UnitDivModUnique(Total(ps), i, 0, Total(ps));
  }

  /** Ordered canonical components are the successive `divmod` decomposition of their total:
      no other list of that kind spells the same duration. */
  lemma {:induction false} CanonicalUnique(ps: seq<Part>, i: nat)
    requires i <= 5 && WellFormedParts(ps, i) && CanonicalAmounts(ps)
    ensures ps == Parts(Total(ps), false, i)
    decreases 5 - i
  {
    if i == 5 {
      assert |ps| == 0;
    } else if |ps| > 0 && ps[0].unit == i {
      HeadStep(ps, i);
      CanonicalUnique(ps[1..], i + 1);
      assert ps == [ps[0]] + ps[1..];
    } else {
      SkipStep(ps, i);
      CanonicalUnique(ps, i + 1);
    }
  }

  /** A positive amount of unit `i` in front of components of later units keeps them ordered. */
  lemma ConsWellFormed(amount: nat, i: nat, tail: seq<Part>)
    requires amount > 0 && i < 5 && WellFormedParts(tail, i + 1)
    ensures WellFormedParts([Part(amount, i)] + tail, i)
  {
    var ps := [Part(amount, i)] + tail;
    forall k | 0 <= k < |ps|
      ensures ps[k].amount > 0 && i <= ps[k].unit < 5
    {
      if k > 0 {
        assert ps[k] == tail[k - 1];
      }
    }
    forall k, l | 0 <= k < l < |ps|
      ensures ps[k].unit < ps[l].unit
    {
      assert ps[l] == tail[l - 1];
      if k > 0 {
        assert ps[k] == tail[k - 1];
      }
    }
  }

  /** Without rounding, the emitted components are positive amounts of strictly smaller units
      that add back up to the whole duration: the successive `divmod` decomposition. */
  lemma DurationDecomposes(seconds: int)
    requires seconds >= 60
    ensures WellFormedParts(Parts(seconds, false, 0), 0)
    ensures CanonicalAmounts(Parts(seconds, false, 0))
    ensures Total(Parts(seconds, false, 0)) == seconds
    ensures HumanTimeDuration(seconds, false) == Join(RenderParts(Parts(seconds, false, 0)), ", ")
  {
    PartsTotal(seconds, 0);
    PartsOrdered(seconds, false, 0);
    PartsCanonical(seconds, false, 0);
  }

  /** The unrounded text of a duration is the rendering of ANY ordered, canonical split of it
      into components: the text depends on the duration only through that split. */
  lemma CanonicalText(seconds: int, ps: seq<Part>)
    requires seconds >= 60 && WellFormedParts(ps, 0) && CanonicalAmounts(ps) && Total(ps) == seconds
    ensures HumanTimeDuration(seconds, false) == Join(RenderParts(ps), ", ")
  {
    CanonicalUnique(ps, 0);
  }

  /** As written, `rounded` only stops the loop after a NONZERO minute amount: one hour and five
      seconds keeps its seconds. */
  lemma RoundedKeepsSecondsWithoutMinutes()
    ensures Parts(3605, true, 0) == [Part(1, 2), Part(5, SECOND_UNIT)]
    ensures HumanTimeDuration(3605, true) == "1hour, 5sec"
  {
    PartsOfHourAndFiveSeconds();
    var ps := [Part(1, 2), Part(5, SECOND_UNIT)];
    assert RenderPart(ps[0]) == "1hour" by {
      assert NatToString(1) == "1";
    }
    assert RenderPart(ps[1]) == "5sec" by {
      assert NatToString(5) == "5";
    }
    var names := RenderParts(ps);
    assert names == ["1hour", "5sec"];
    assert Join(names, ", ") == "1hour" + ", " + Join(names[1..], ", ");
    assert names[1..] == ["5sec"];
    assert Join(names[1..], ", ") == "5sec";
    assert "1hour" + ", " + "5sec" == "1hour, 5sec";
    assert HumanTimeDuration(3605, true) == Join(names, ", ");
  }

  lemma PartsOfHourAndFiveSeconds()
    ensures Parts(3605, true, 0) == [Part(1, 2), Part(5, SECOND_UNIT)]
  {
    assert Parts(5, true, 4) == [Part(5, 4)] + Parts(0, true, 5);
    assert Parts(5, true, 3) == Parts(5, true, 4);
    assert Parts(3605, true, 2) == [Part(1, 2)] + Parts(5, true, 3);
    assert Parts(3605, true, 1) == Parts(3605, true, 2);
  }

  /** With a nonzero minute amount the loop does stop there: one hour, one minute and five
      seconds drops the seconds. */
  lemma RoundedDropsSecondsAfterMinutes()
    ensures Parts(3665, true, 0) == [Part(1, 2), Part(1, MINUTE_UNIT)]
  {
    assert Parts(65, true, 3) == [Part(1, 3)];
    assert Parts(3665, true, 2) == [Part(1, 2)] + Parts(65, true, 3);
    assert Parts(3665, true, 0) == Parts(3665, true, 2);
  }

  /** The evidently intended rounding: the loop ends after the minute position whether or not a
      minute amount was emitted, so a rounded duration never shows seconds. */
  function RoundedParts(rem: nat, rounded: bool, i: nat): (ps: seq<Part>)
    requires i <= 5
    ensures rounded ==> forall k :: 0 <= k < |ps| ==> ps[k].unit != SECOND_UNIT
    decreases 5 - i
  {
    if i == 5 || (rounded && i == SECOND_UNIT) then []
    else
      var (amount, rest) := UnitDivMod(rem, i);
      if amount > 0 then [Part(amount, i)] + RoundedParts(rest, rounded, i + 1)
      else RoundedParts(rest, rounded, i + 1)
  }

  function HumanTimeDurationIntended(seconds: int, rounded: bool): string {
    if seconds < 60 then "a few seconds"
    else Join(RenderParts(RoundedParts(seconds, rounded, 0)), ", ")
  }

  lemma {:induction false} RoundedPartsTotal(rem: nat, rounded: bool, i: nat)
    requires i <= 4
    requires i == SECOND_UNIT ==> rem < 60
    ensures Total(RoundedParts(rem, rounded, i)) == (if rounded then rem - rem % 60 else rem)
    decreases 5 - i
  {
    if rounded && i == SECOND_UNIT {
      assert RoundedParts(rem, rounded, i) == [];
    } else {
      var (amount, rest) := UnitDivMod(rem, i);
      UnitDivModRecombines(rem, i);
      var tail := RoundedParts(rest, rounded, i + 1);
      if i < 4 {
        RoundedPartsTotal(rest, rounded, i + 1);
      } else {
        assert tail == [];
      }
      var ps := RoundedParts(rem, rounded, i);
      if amount > 0 {
        assert ps == [Part(amount, i)] + tail;
        assert ps[1..] == tail;
        assert Total(ps) == PartSeconds(Part(amount, i)) + Total(tail);
      } else {
        assert ps == tail;
        assert PartSeconds(Part(amount, i)) == 0;
      }
      var head := PartSeconds(Part(amount, i));
      assert Total(ps) == head + Total(tail);
      assert rem == head + rest;
      if rounded {
        assert rest % 60 == rem % 60;
        assert Total(tail) == rest - rest % 60;
      } else {
        assert Total(tail) == rest;
      }
    }
  }

  /** The corrected rounding shows whole minutes and never a seconds component; without
      rounding it is the same decomposition as the code's. */
  lemma IntendedRounding(seconds: int)
    requires seconds >= 60
    ensures Total(RoundedParts(seconds, true, 0)) == seconds - seconds % 60
    ensures forall k :: 0 <= k < |RoundedParts(seconds, true, 0)| ==> RoundedParts(seconds, true, 0)[k].unit != SECOND_UNIT
    ensures Total(RoundedParts(seconds, false, 0)) == seconds
    ensures HumanTimeDurationIntended(3605, true) == "1hour"
  {
    RoundedPartsTotal(seconds, true, 0);
    RoundedPartsTotal(seconds, false, 0);
    assert RoundedParts(5, true, 3) == [];
    assert RoundedParts(3605, true, 2) == [Part(1, 2)] + RoundedParts(5, true, 3);
    assert RoundedParts(3605, true, 0) == [Part(1, 2)];
    assert NatToString(1) == "1";
  }

  // ---------------------------------------------------------------- stats

  const SWORD_GLYPH: string := "\U{2694}\U{FE0F}"
  const SHIELD_GLYPH: string := "\U{1F6E1}\U{FE0F}"

  /** `render_stats`: signed attack with a sword, then signed defense with a shield, each only
      when nonzero. */
  function RenderStats(atk: int, def: int): (s: string)
    ensures s == "" <==> atk == 0 && def == 0
  {
    (if atk != 0 then Signed(atk) + SWORD_GLYPH else "") + (if def != 0 then Signed(def) + SHIELD_GLYPH else "")
  }

  /** Length of the run of digits that starts `s`. */
  function LeadingDigits(s: string): (n: nat)
    ensures n <= |s| && AllDigits(s[..n])
    ensures n < |s| ==> !IsDigit(s[n])
  {
    if |s| == 0 || !IsDigit(s[0]) then 0 else 1 + LeadingDigits(s[1..])
  }

  lemma {:induction false} LeadingDigitsOfNumeral(a: string, b: string)
    requires AllDigits(a)
    requires |b| > 0 && !IsDigit(b[0])
    ensures LeadingDigits(a + b) == |a|
  {
    if |a| > 0 {
      assert (a + b)[1..] == a[1..] + b;
      LeadingDigitsOfNumeral(a[1..], b);
    }
  }

  /** Reads one `<sign><digits><glyph>` stat off the front of `s`: its value, whether the glyph is
      the sword, and what follows the glyph. */
  function ParseStat(s: string): (r: (int, bool, string))
    requires |s| >= 1
  {
    var n := LeadingDigits(s[1..]);
    assert s[..n + 1][1..] == s[1..][..n];
    var value := ParseSigned(s[..n + 1]);
    var rest := s[n + 1..];
    if |rest| >= 2 && rest[..2] == SWORD_GLYPH then (value, true, rest[2..])
    else if |rest| >= 2 then (value, false, rest[2..])
    else (value, false, "")
  }

  /** Reads an attack/defense pair back from its rendering. */
  function ParseStats(s: string): (int, int) {
    if |s| == 0 then (0, 0)
    else
      var (v, sword, rest) := ParseStat(s);
      if !sword then (0, v)
      else if |rest| == 0 then (v, 0)
      else (v, ParseStat(rest).0)
  }

  /** A sign and digits followed by a non-digit split back into the two pieces. */
  lemma SplitNumeral(head: string, rest: string)
    requires |head| >= 1 && AllDigits(head[1..])
    requires |rest| >= 1 && !IsDigit(rest[0])
    ensures LeadingDigits((head + rest)[1..]) == |head| - 1
    ensures (head + rest)[..|head|] == head && (head + rest)[|head|..] == rest
  {
    assert (head + rest)[1..] == head[1..] + rest;
    LeadingDigitsOfNumeral(head[1..], rest);
  }

  lemma ParseOneStat(n: int, glyph: string, tail: string)
    requires glyph == SWORD_GLYPH || glyph == SHIELD_GLYPH
    ensures ParseStat(Signed(n) + glyph + tail) == (n, glyph == SWORD_GLYPH, tail)
  {
    var head, rest := Signed(n), glyph + tail;
    var s := head + rest;
    assert Signed(n) + glyph + tail == s;
    assert |rest| >= 2 && !IsDigit(rest[0]);
    SplitNumeral(head, rest);
    SignedRoundTrip(n);
    var m := |head| - 1;
    assert LeadingDigits(s[1..]) == m && s[..m + 1] == head && s[m + 1..] == rest;
    assert rest[..2] == glyph && rest[2..] == tail;
    assert (rest[..2] == SWORD_GLYPH) == (glyph == SWORD_GLYPH) by {
      assert SWORD_GLYPH[0] != SHIELD_GLYPH[0];
    }
  }

  /** Rendering loses no information: both stats can be read back from the text. */
  lemma RenderStatsRoundTrip(atk: int, def: int)
    ensures ParseStats(RenderStats(atk, def)) == (atk, def)
  {
    if atk != 0 && def != 0 {
      assert RenderStats(atk, def) == Signed(atk) + SWORD_GLYPH + (Signed(def) + SHIELD_GLYPH);
      ParseOneStat(atk, SWORD_GLYPH, Signed(def) + SHIELD_GLYPH);
      assert Signed(def) + SHIELD_GLYPH == Signed(def) + SHIELD_GLYPH + "";
      ParseOneStat(def, SHIELD_GLYPH, "");
    } else if atk != 0 {
      assert RenderStats(atk, def) == Signed(atk) + SWORD_GLYPH + "";
      ParseOneStat(atk, SWORD_GLYPH, "");
    } else if def != 0 {
      assert RenderStats(atk, def) == Signed(def) + SHIELD_GLYPH + "";
      ParseOneStat(def, SHIELD_GLYPH, "");
    }
  }

  // ---------------------------------------------------------------- loot

  /** The `randint` bounds of `calculate_thieve_gold`: never an empty range, always within
      [10, 40], and the top at most three times the bottom. */
  function ThieveGoldRange(level: int): (r: (int, int))
    ensures 10 <= r.0 <= r.1 <= 40
    ensures r.0 == Clamp(level, 10, 20) && r.1 <= 3 * r.0
    ensures r.1 == 3 * r.0 || r.1 == 40
  {
    var m := Clamp(level, 10, 20);
    (m, Min(3 * m, 40))
  }

  /** The thief's loot by level band: up to level 10 it is 10 to 30 gold, from 11 to 13 it runs
      from the level to three times it, from 14 to 20 from the level to 40, and above 20 it is
      20 to 40 gold. */
  lemma ThieveGoldBands(level: int)
    ensures level <= 10 ==> ThieveGoldRange(level) == (10, 30)
    ensures 11 <= level <= 13 ==> ThieveGoldRange(level) == (level, 3 * level)
    ensures 14 <= level <= 20 ==> ThieveGoldRange(level) == (level, 40)
    ensures level > 20 ==> ThieveGoldRange(level) == (20, 40)
  { }

  predicate IsThieveGold(level: int, gold: int) {
    ThieveGoldRange(level).0 <= gold <= ThieveGoldRange(level).1
  }

  /** The `randint` bounds of `calculate_interfere_gold`: never empty, always within [5, 20]. */
  function InterfereGoldRange(level: int): (r: (int, int))
    ensures 5 <= r.0 <= r.1 <= 20
    ensures r.0 == Clamp(level, 5, 10) && r.1 == 2 * r.0
  {
    var m := Clamp(level, 5, 10);
    (m, 2 * m)
  }

  predicate IsInterfereGold(level: int, gold: int) {
    InterfereGoldRange(level).0 <= gold <= InterfereGoldRange(level).1
  }
}

=== FILE: wrappers.dfy ===
/** Small failure-compatible datatypes and integer helpers shared by every module. */
module Wrappers {

  /** An optional value: the model of a nullable column or a query that may find nothing. */
  datatype Option<+T> = None | Some(value: T) {
    function GetOr(default: T): T {
      match this
      case Some(v) => v
      case None => default
    }
  }

  /** The outcome of a command: the new state, or the reason the transaction did not commit. */
  datatype Result<+R, +E> = Success(value: R) | Failure(error: E)

  function Min(a: int, b: int): int {
    if a <= b then a else b
  }

  function Max(a: int, b: int): int {
    if a >= b then a else b
  }

  /** `min(max(x, lo), hi)`, the clamp the game uses for level-dependent amounts. */
  function Clamp(x: int, lo: int, hi: int): int {
    Min(Max(x, lo), hi)
  }
}
